=== FILE: README.md ===
# Algorithm-discovery agent: a Dafny model of its decision core

This project models the parts of the AI algorithm-discovery agent that make
decisions:

- **Q-learning selector** (`QLearningAgent`). It has ε-greedy action
  selection, the one-step Q-learning update and the best-action query.
  Its tables behave like Python's nested `defaultdict`s: every read of a
  missing entry inserts a 0.0 entry.
- **Algorithm catalog** (`AlgorithmLibrary`): four categories of
  algorithms with their time and space labels.
- **Agent facade** (`AIAgentCore`). It builds a state key, selects an
  algorithm, labels it and appends a discovery record to an append-only
  history. It also has the history query and the reset.
- **Genetic algorithm** (`GeneticAlgorithm`). It has population creation,
  tournament selection, key-wise crossover and clamped Gaussian mutation.
  The generation loop uses elitism and keeps best/average fitness
  statistics.
- **Parameter optimizer** (`AlgorithmOptimizer`): one genetic run seeded
  with a single parameter dictionary.
- **Recommendation engine** of the interactive front end
  (`AlgorithmRecommender.recommend`). It scores each algorithm of a
  category out of 100 against the caller's constraints and lists the
  algorithms by score, best first.
- **Complexity predictor** (`ComplexityPredictor`):
  - it totals pattern matches per complexity class and picks the most
    frequent class, the first in table order on a tie;
  - it computes the confidence formula;
  - it counts loop lines and estimates recursion depth;
  - it assembles `analyze_code`'s result;
  - `ComplexityComparator._rank_algorithms` ranks analysed code by a score
    table, with a stable sort.

Every random draw is a parameter of the operation that makes it, as are the
fitness function and the clock: `np.random.random`, `np.random.choice`,
`random.sample`, `random.choice`, `random.random`, `np.random.normal` and
`np.random.uniform`. The contracts therefore hold for every outcome of the
draws. Python dictionaries are association lists that keep insertion order
(`Dicts`). Floats are `real`s. Strings are `seq<char>`.

Modules:

- `Dicts`, `Text`, `StableSort`, `Maxima` and `Wrappers`: insertion-ordered
  dictionaries; `str.strip`, `str.split`, `in` on strings and `str(int)`;
  Python's stable `sorted`; the first-maximum rule of Python's `max`; and
  `Option`/`Result`.
- `QLearning` and `QLearningProperties`: the selector and the properties
  that relate several of its calls.
- `AlgorithmLibrary` and `AgentCore`: the catalog and the facade.
- `Genetic`, `Evolution` and `Optimizer`: the genetic algorithm and the
  optimizer.
- `Recommender`: the recommendation engine.
- `ComplexityPredictor`: the predictor and the ranking.

Behaviours of the code that the model makes explicit:

- **Error results.** The model returns an error result for each of these
  cases where Python raises:
  - an empty `random.choice`;
  - a `random.sample` larger than the population;
  - `max` of an empty sequence;
  - `np.random.normal` with a negative scale, that is, a negative `std` in
    the mutation parameters of a numeric gene, once the mutation fires;
  - an empty action list in `select_action`, where the visit counter has
    already been incremented when it raises.
- **Tournament size.** The tournament size is fixed at 3. A run with
  population size 2 and at least one generation therefore always fails in
  its first generation. Population size 1 never breeds, so it never fails
  this way.
- **Reset.** `reset_learning` builds a selector with the default
  parameters. It does not keep the learning rate and ε that the agent was
  constructed with.
- **Score floor.** In `recommend` the `max(0, score)` never has an effect:
  the deductions total at most 80.
- **Loop counter.** `_count_nested_loops` never decreases its depth, so it
  returns the number of lines that start a loop, not the nesting depth.
  Its `elif` branch can never be taken.
- **Unused argument.** `_predict_complexity` ignores `complexity_type`, so
  the time and space predictions of `analyze_code` are always equal.

## Model

| member | source | states |
|---|---|---|
| `QLearning.SelectAction` | agent_core.py:22-33 | The state's visit count goes up by one and nothing else is counted. With no actions there is no choice (Python raises). When the roll is below ε, any available action is drawn and the table is untouched. Otherwise the choice is one of the actions with maximal Q-value, and every action read is now stored. |
| `QLearning.ReadAll` | agent_core.py:29 | Reading a list of actions through the defaulting table returns each action's Q-value, with 0 for a missing one. No stored value changes, and exactly the read actions are added to the state's keys. |
| `QLearning.UpdateQValue` | agent_core.py:35-48 | The entry (s, a) becomes `Q + α·(r + γ·maxNext − Q)`. `maxNext` is the largest Q-value of the next actions, or 0 when there are none. Every other entry, the visit counts and the parameters are unchanged. |
| `QLearning.UpdateStoresEntries` | agent_core.py:38-48 | After an update, (s, a) and every (s2, b) for b among the next actions are stored. No state other than s and s2 appears or disappears, and well-formed tables stay well-formed. |
| `QLearning.GetBestAlgorithm` | agent_core.py:50-54 | The result is None exactly when the state has no recorded actions. Otherwise it is the first action, in insertion order, with a maximal value. The lookup adds the state and changes no value. |
| `QLearningProperties.BestHasMaximalValue` | agent_core.py:50-54 | The action returned is recorded for the state, and no recorded action has a larger Q-value. |
| `QLearningProperties.UpdateContracts` | agent_core.py:45-47 | An update multiplies the distance to the target `reward + γ·maxNext` by `1 − α`. For 0 ≤ α ≤ 1 it never moves the value away from the target. |
| `QLearningProperties.SelfLoopUpdate` | agent_core.py:35-48 | For a self-loop through the same action, one update multiplies the distance to `reward / (1 − γ)` by `1 − α·(1 − γ)`. |
| `QLearningProperties.ExploreReachesEveryAction` | agent_core.py:26-27 | In the exploring branch, every available action is chosen for some draw. |
| `QLearningProperties.GreedyReachesExactlyTheMaximizers` | agent_core.py:29-33 | In the greedy branch, an action can be chosen if and only if no available action has a larger Q-value. |
| `QLearningProperties.GreedyPicksUniqueBest` | agent_core.py:29-33 | In the greedy branch, an action strictly better than all others is chosen whatever the draw. |
| `QLearningProperties.GreedySelectionEnablesBest` | agent_core.py:22-54 | After a greedy selection over a non-empty action list, `get_best_algorithm` has an answer for that state. |
| `AlgorithmLibrary.GetAlgorithms` | agent_core.py:86-88 | An unknown category gives an empty list. A known one gives the names of its catalog entries in catalog order. |
| `AlgorithmLibrary.GetComplexity` | agent_core.py:91-93 | There is an entry exactly when the algorithm is listed in the category, and it is that algorithm's catalog entry. |
| `AlgorithmLibrary.KnownCategories` | agent_core.py:60-84 | The algorithm list is non-empty exactly for sorting, searching, dp and graph. |
| `AlgorithmLibrary.CatalogWellFormed` | agent_core.py:60-84 | No category or algorithm name repeats, and every category has at least one algorithm. |
| `AgentCore.StateKeyInjective` | agent_core.py:108 | Two (category, size) pairs get the same state key only if they are equal. |
| `AgentCore.Discover` | agent_core.py:105-128 | An unknown category yields the error message and changes nothing. A known one appends exactly one record. That record holds the selector's choice from the category, the catalog's labels for that choice, and the given fitness draw and timestamp. The new selector is exactly the one `select_action` leaves behind: one more visit for the state key, no stored value changed, and the learning rate, discount and ε kept. |
| `AgentCore.DiscoverAcceptsExactlyCatalogCategories` | agent_core.py:109-112 | A discovery succeeds if and only if the category is one of the catalog's four. |
| `AgentCore.HistoryOnlyGrows` | agent_core.py:125-128 | Over any run of discoveries, the old history is a prefix of the new one. The history grows by exactly the number of accepted calls. |
| `AgentCore.History` | agent_core.py:155-157 | The result is a suffix of the history. For a positive limit, it is the last `min(limit, n)` records. A limit of 0 gives everything, as `xs[-0:]` does. A negative limit drops records from the front. |
| `AgentCore.Reset` | agent_core.py:159-162 | The history and both selector tables are empty. The selector has the default learning rate 0.1, discount 0.95 and ε 0.1. |
| `AgentCore.ResetForgetsParameters` | agent_core.py:159-162 | After a reset, every core equals the default-constructed one, whatever it has learned and whatever learning rate and ε it was built with. A non-default learning rate or ε is not kept. |
| `Genetic.CreatePopulation` | genetic_algorithm.py:34-43 | The population has `population_size` copies of templates, each with fitness 0. It fails with Python's empty-choice error exactly when individuals are needed and there are no templates. |
| `Genetic.EveryTemplateCanBeDrawn` | genetic_algorithm.py:37-38 | Every template can be drawn as any individual's genome. |
| `Genetic.SamplePositions` | genetic_algorithm.py:53 | `random.sample` takes k distinct positions of the population. |
| `Genetic.Selection` | genetic_algorithm.py:51-55 | Selection succeeds exactly when 0 < k ≤ population size. The winner belongs to the tournament and to the population, and no competitor is fitter. Among equally fit competitors it is the first drawn: every competitor drawn before it is strictly less fit. |
| `Genetic.FullTournamentPicksFittest` | genetic_algorithm.py:51-55 | A tournament of the whole population picks a fittest individual. |
| `Genetic.Crossover` | genetic_algorithm.py:57-66 | The child has exactly the keys of parent 1 that parent 2 also has, in parent 1's order. Each value comes from one of the parents, and the child's fitness is 0. |
| `Genetic.CrossoverWellFormed` | genetic_algorithm.py:57-66 | Parents without repeated keys give a child without repeated keys. |
| `Genetic.SelfCrossover` | genetic_algorithm.py:57-66 | Crossing an individual with itself reproduces its genes. |
| `Genetic.Clamp` | genetic_algorithm.py:79-85 | A value inside [min, max] is kept, and one outside is clamped to the nearer bound. When max < min, the result is min. |
| `Genetic.Mutate` | genetic_algorithm.py:68-86 | The mutation fails with the negative-scale error exactly when the roll is below the rate and some numeric gene with parameters has a negative `std`. With a roll at or above the rate the individual comes back unchanged. Otherwise every gene becomes its `MutateGene` value, and keys, fitness and each value's numeric kind are kept. A key without parameters, and any non-numeric value, is never changed. |
| `Genetic.MutateGene` | genetic_algorithm.py:71-85 | A gene whose key has no parameters, or whose value is not a number, is kept. Otherwise the new value is the old value plus the Gaussian draw at the key's `std`, clamped to the key's bounds; crossed bounds give the lower bound. |
| `Genetic.ValidStdsNeverRaise` | genetic_algorithm.py:76-78 | When no `std` in the mutation parameters is negative, no genome makes the Gaussian draw raise. |
| `Genetic.MutationStaysInBounds` | genetic_algorithm.py:70-85 | When a fired mutation succeeds, a mutated numeric gene lies within its bounds, which default to 0 and 100. When the bounds are crossed, it equals the lower bound. |
| `Evolution.Parent` | genetic_algorithm.py:117-123 | A child before mutation exists exactly when the population can hold a tournament of 3; otherwise the result is the sample error. Below the crossover rate it is the crossover of the winners of the first and second tournaments, with the gene picks; otherwise it is the first tournament's winner. |
| `Evolution.Breed` | genetic_algorithm.py:117-126 | A population below the tournament size gives the sample error. Otherwise the child is the mutation of `Parent`'s child under the child's draws, evaluated by the fitness function; a mutation that raises gives the negative-scale error. With valid scales the child exists exactly when a tournament of 3 fits. |
| `Evolution.Offspring` | genetic_algorithm.py:116-127 | The breeding loop succeeds exactly when every step succeeds, and child i is then the result of `Breed` with the draws of child i of that generation. It makes exactly the requested number of evaluated children. It fails with the sample error when children are needed and the population is below the tournament size, and otherwise only with the negative-scale error. With valid scales those are the only failures. |
| `Wrappers.Collect` | genetic_algorithm.py:116-127 | Collecting step results succeeds exactly when every step succeeds, and then holds each step's value in order. A failure carries the error of the first failing step. |
| `Evolution.Breeding` | genetic_algorithm.py:116-127 | Generation g's breeding steps are one per child, and step i breeds with the draws of child i of generation g. |
| `Evolution.BreedingEvaluated` | genetic_algorithm.py:126 | When every breeding step succeeds, every child's fitness is the fitness function of its genes. |
| `Evolution.BreedingTooSmall` | genetic_algorithm.py:54 | A population too small for a tournament fails with the sample error as soon as one child is needed. |
| `Evolution.BreedingRaises` | genetic_algorithm.py:76-78 | Once tournaments can be held, the breeding loop can only fail with the negative-scale error. |
| `Evolution.Generation` | genetic_algorithm.py:104-129 | A generation records the population's best and mean fitness, also when breeding then fails. It keeps a fittest individual first and the population size unchanged, and it keeps every fitness consistent with the fitness function. An empty population fails in `max`, and a population of 2 fails in the tournament. Sizes 1 and ≥ 3 can fail only with the negative-scale error, and with valid scales they succeed. |
| `Evolution.Run` | genetic_algorithm.py:103-129 | Statistics only grow, by one entry per completed generation. The run succeeds only when no generation is left or the population size is 1 or at least 3, and with valid scales exactly then. Any other failure is the negative-scale error, which needs an invalid scale. On success, the recorded best never falls below the first generation's best and is never above the final best. Size 2 fails in its first generation. |
| `Evolution.Evolve` | genetic_algorithm.py:88-132 | The run fails with the empty-choice error when there are no templates, with the `max` error for population size ≤ 0, and with the sample error when the size is 2 and at least one generation is asked for. In every other case it can only fail with the negative-scale error; with valid scales it succeeds. It succeeds exactly when the final population exists and is non-empty, and then returns that population's first individual of maximal fitness, as `max` does. The result is evaluated, and its fitness bounds the whole best-fitness history. |
| `Evolution.MeanBetween` | genetic_algorithm.py:107 | The recorded average lies between the smallest and largest fitness. |
| `Evolution.Fittest` | genetic_algorithm.py:113 | The elite is a population member with the largest fitness. |
| `Optimizer.Optimize` | genetic_algorithm.py:150-164 | The optimizer returns its own name, and the genes and fitness of `evolve`'s winner, which no individual of the final population beats. It also returns the statistics of its run. Its only failure is the negative-scale error, and with valid scales it succeeds. The statistics grow even on failure. A successful call appends exactly 100 best-fitness and 100 average entries, and the returned fitness bounds every best-fitness entry of the run. |
| `Optimizer.OptimizeKeepsShape` | genetic_algorithm.py:142-164 | The optimized parameters of a successful run have exactly the initial keys in the initial order. Every entry without mutation parameters, or with a non-numeric value, keeps its initial value. |
| `Optimizer.ConformsRaises` | genetic_algorithm.py:71-78 | Whether the mutation raises depends only on the keys and on which values are numbers, so it is the same for every individual shaped like the initial parameters. |
| `Optimizer.BreedSucceeds` | genetic_algorithm.py:117-127 | In a population of at least 3 shaped like the initial parameters, whose parameters do not make the mutation raise, every child is bred. |
| `Optimizer.GenerationSucceeds` | genetic_algorithm.py:104-129 | Under the same conditions, a generation of size 1 or at least 3 succeeds. |
| `Optimizer.RunSucceeds` | genetic_algorithm.py:103-129 | Under the same conditions, every remaining generation succeeds. |
| `Optimizer.OptimizeSucceeds` | genetic_algorithm.py:142-164 | `optimize` succeeds whenever its initial parameters do not make the mutation raise, whatever the draws and the fitness function. |
| `Recommender.TimeDeduction` | interactive_cli.py:67-75 | The deduction is 20 exactly when a time limit is given and the worst case mentions `O(n^2)`. It is 40 exactly when a time limit is given and the worst case mentions `O(n!)` and not `O(n^2)`. Otherwise it is 0. |
| `Recommender.MemoryDeduction` | interactive_cli.py:77-82 | The deduction is 15 when a memory limit is given and the space mentions `O(n)`. It is 30 when a memory limit is given and the space mentions `O(n^2)` and not `O(n)`. Otherwise it is 0. |
| `Recommender.SizeDeduction` | interactive_cli.py:84-89 | The deduction is 30 exactly when the size exceeds 100000 and the worst case mentions `O(n^2)`. |
| `Recommender.Score` | interactive_cli.py:64-93 | Every score lies between 20 and 100. It is 100 exactly when no deduction applies. |
| `Recommender.ClampNeverApplies` | interactive_cli.py:93 | `max(0, ·)` never changes a score. |
| `Recommender.ScoreMonotone` | interactive_cli.py:64-93 | Adding constraints never raises a score. |
| `Recommender.NoWorstCaseIgnoresTimeAndSize` | interactive_cli.py:70-89 | An entry without a worst case depends only on the memory constraint. |
| `Recommender.Recommend` | interactive_cli.py:47-98 | An unknown category gives an empty list. Otherwise the result is a permutation of the scored catalog entries with non-increasing scores, and entries with equal scores keep their catalog order. |
| `Recommender.RecommendListsCategory` | interactive_cli.py:62-98 | Every algorithm of the category appears exactly once, with its own specs and its score under the constraints. |
| `Recommender.SmallSortingInput` | interactive_cli.py:29-98 | For sorting with size 10000, all five algorithms score 100 and stay in catalog order. |
| `Recommender.LargeSortingInput` | interactive_cli.py:29-98 | For sorting with size 200000, merge sort and heap sort come first with 100. The three quadratic sorts follow with 70, in catalog order. |
| `ComplexityPredictor.Matches` | complexity_predictor.py:114-119 | The matches dictionary lists exactly the classes with a positive total, each with its total, in pattern-table order. |
| `ComplexityPredictor.Predict` | complexity_predictor.py:121-142 | With no match the prediction is `O(n)`. Otherwise it is the label of the unique winner: the class with the largest total, the first in table order on a tie. The confidence is 15 points per match plus 15, capped at 100. It is 15 exactly when nothing matched, and 100 exactly when there are at least 6 matches. |
| `ComplexityPredictor.PredictComplexity` | complexity_predictor.py:105-142 | The per-class totals are sums of the per-pattern match counts. The prediction and the confidence `min(100, (total + 1)·15)` follow from those totals. |
| `ComplexityPredictor.SumMatchesPositive` | complexity_predictor.py:116-118 | A class counts as matched exactly when one of its patterns matches. |
| `ComplexityPredictor.WinnerUnique` | complexity_predictor.py:125 | At most one class wins. |
| `ComplexityPredictor.NothingMatched` | complexity_predictor.py:121-122 | Confidence is 15 if and only if no class has a match. |
| `ComplexityPredictor.TieGoesToEarlierClass` | complexity_predictor.py:125 | When two classes tie on a positive count, the later one is never predicted. |
| `ComplexityPredictor.PredictionIgnoresType` | complexity_predictor.py:105-142 | The prediction does not depend on `complexity_type`. |
| `ComplexityPredictor.LabelInjective` | complexity_predictor.py:126-136 | Different classes have different labels. |
| `ComplexityPredictor.SecondBranchUnreachable` | complexity_predictor.py:186-192 | A stripped line starting with `for ` or `while ` already satisfies the first test, so the `elif` never runs. |
| `ComplexityPredictor.CountNestedLoops` | complexity_predictor.py:170-194 | The result is the number of lines of the code whose stripped text starts with `for` or `while` followed by whitespace. |
| `ComplexityPredictor.LoopLinesAppend` | complexity_predictor.py:180-194 | The count adds up over blocks of lines, so two consecutive loops count as two levels. |
| `ComplexityPredictor.EstimateRecursionDepth` | complexity_predictor.py:196-216 | The estimate is 0 without a `def ` or a matching definition. Otherwise it is the number of calls of the defined name minus one for the definition itself, capped at 10. It is 10 exactly when there are at least 11 calls. |
| `ComplexityPredictor.RecursionDepthMonotone` | complexity_predictor.py:213-216 | More calls of the defined name never lower the estimate, and one more call below the cap raises it by one. |
| `ComplexityPredictor.RecursionDepthInRange` | complexity_predictor.py:205-216 | When the call count includes the definition, as it does for real code, the estimate lies in 0..10. |
| `ComplexityPredictor.FindPatterns` | complexity_predictor.py:144-168 | The result holds exactly the names of the pattern table whose expressions occur, each once, in table order: name i is the name of the i-th matching table position. |
| `ComplexityPredictor.MatchingPositions` | complexity_predictor.py:164-166 | The matching table positions from k on are listed in strictly increasing order, and a position is listed exactly when its expression occurs. |
| `ComplexityPredictor.FoundFrom` | complexity_predictor.py:164-166 | The names appended from position k on are, in order, the names at the matching positions. |
| `ComplexityPredictor.PatternNamesDistinct` | complexity_predictor.py:154-162 | The pattern table has no name twice. |
| `ComplexityPredictor.FoundNamesMatch` | complexity_predictor.py:164-166 | A name is found exactly when some table entry with that name has an occurring expression. |
| `ComplexityPredictor.FoundInTable` | complexity_predictor.py:164-166 | Every found name is a key of the pattern table. |
| `ComplexityPredictor.FoundDistinct` | complexity_predictor.py:164-166 | No name is found twice. |
| `ComplexityPredictor.AnalyzeCode` | complexity_predictor.py:86-103 | The time and space predictions are equal; each is `PredictComplexity` of the lower-cased code's match counts: the first-max winner's label (`O(n)` when nothing matches), the matched classes, and confidence `min(100, (total + 1)·15)`. The loop count is that of `CountNestedLoops`. The recursion estimate is `EstimateRecursionDepth` of the code as given: `min(calls − 1, 10)`, or 0 without a definition. The pattern list is `FindPatterns` of the lower-cased code: the matching names in table order, each once. |
| `ComplexityPredictor.ComplexityScore` | complexity_predictor.py:250-264 | Scores lie in 1..8. An unknown label scores 5. |
| `ComplexityPredictor.ScoreFollowsClassOrder` | complexity_predictor.py:250-259 | The class of rank k scores k + 1. The score table follows the enum's order of growth. |
| `ComplexityPredictor.RankAlgorithms` | complexity_predictor.py:241-272 | The ranking is a permutation of the analysed names, sorted stably by score. Its first name is the most efficient; there is none only when nothing was analysed. The details are the input. |
| `ComplexityPredictor.RankingIsStable` | complexity_predictor.py:261-266 | Names with equal scores keep their input order. |
| `ComplexityPredictor.MostEfficientScoresLowest` | complexity_predictor.py:271 | The most efficient name scores no worse than any analysed code. |
| `Text.SplitJoin` | complexity_predictor.py:183 | Splitting joined pieces gives them back. |
| `Text.JoinSplit` | complexity_predictor.py:183 | Joining the pieces of `str.split` gives back the string. |
| `Text.IntToStringRoundTrip` | agent_core.py:108 | The decimal rendering of an integer parses back to it. |
| `StableSort.Sort` | interactive_cli.py:98 | The result is sorted by the key and is a permutation of the input. Equal keys keep their input order. |
| `StableSort.SortUnique` | complexity_predictor.py:261-266 | Only one sequence is both sorted and stable, so the stable sort is fully determined. |

## Left out

- `evaluate_algorithm_performance` and `performance_cache` (agent_core.py:130-153) execute arbitrary code, time it and catch exceptions. They are I/O and foreign calls.
- The regular expressions of the predictor are not interpreted. Their match counts, their occurrences, the captured function name and its call count are inputs (`ComplexityPredictor.CodeFacts`), and the model covers everything the predictor computes from them.
- The constraints argument of `discover_algorithm` is ignored by the source and is not modelled.
- `np.mean` and all fitness arithmetic use exact reals, not IEEE floats. The fitness function is an arbitrary total function.
- `random.sample` is modelled by its pool method with an arbitrary `_randbelow` oracle. Python switches to a set-based method for large populations; both give distinct positions, which is all the contracts rely on.
- `copy.deepcopy` and object identity: the model is value-based, so every result is a snapshot. Python shares objects in two places the model does not follow. The `statistics` that `optimize` returns are the optimizer's own history lists (genetic_algorithm.py:134-139, 163), so a later `optimize` call grows a dictionary returned earlier. `discover_algorithm` returns the very dictionary it stores in the history (agent_core.py:117-128), so a caller that edits it edits the history.
- `Genetic.Mutate`: when the Gaussian draw raises, Python has already changed the genes before the failing one in place. The model returns only the error, because the breeding loop drops that child with the exception.
- `Recommender.LargeInput`: `size` is modelled as an integer. Python would also compare floats or raise for non-numbers. Only the presence of `time_limit` and `memory_limit` is modelled, because their values are never read.
- The rest of the interactive front end, the benchmark suite, the web app, the offline mode and the command-line entry point are outside this model. So are `ComplexityComparator.compare_algorithms`' formatting and the predictor's report text.
- The gene kinds cover numbers, booleans (numeric, since `bool` is a subclass of `int`) and text. Any other Python value behaves like text here, because mutation only inspects whether a value is numeric.

=== FILE: agent_core.dfy ===
/** The agent facade: builds a state key from a problem category and an
    input size, lets the Q-learning selector pick an algorithm of that
    category, labels it from the catalog and appends a discovery record to
    an append-only history.

    The random fitness score (`np.random.uniform(0.7, 1.0)`) and the clock
    reading are parameters; the model only says they are copied into the
    record. */
module AgentCore {
  import opened Wrappers
  import opened Text
  import opened AlgorithmLibrary
  import opened QLearning

  /** The dictionary `discover_algorithm` returns and records. */
  datatype DiscoveryRecord = DiscoveryRecord(
    problemType: string,
    inputSize: int,
    selectedAlgorithm: string,
    timeComplexity: string,
    spaceComplexity: string,
    fitnessScore: real,
    timestamp: real)

  /** `AIAgentCore`: the selector and the discovery history. */
  datatype Core = Core(rl: QAgent, history: seq<DiscoveryRecord>)

  /** `AIAgentCore(learning_rate, epsilon)`: the discount factor is always
      the selector's default 0.95. */
  function NewCore(learningRate: real, epsilon: real): Core
  {
    Core(NewAgent(learningRate, 0.95, epsilon), [])
  }

  /** The f-string `"{problem_type}_{input_size}"`. */
  function StateKey(problemType: string, inputSize: int): (key: State)
    ensures |key| == |problemType| + 1 + |IntToString(inputSize)|
    ensures key[..|problemType|] == problemType && key[|problemType|] == '_'
    ensures key[|problemType| + 1..] == IntToString(inputSize)
  {
    problemType + "_" + IntToString(inputSize)
  }

  /** The rendered input size contains no underscore, so the LAST underscore
      of a state key separates the category from the size: different
      (category, size) pairs never share a state. */
  lemma StateKeyInjective(p1: string, n1: int, p2: string, n2: int)
    requires StateKey(p1, n1) == StateKey(p2, n2)
    ensures p1 == p2 && n1 == n2
  {
    var key := StateKey(p1, n1);
    var d1, d2 := IntToString(n1), IntToString(n2);
    assert |p1| == |p2|;
    assert p1 == key[..|p1|];
    assert d1 == key[|p1| + 1..] == d2;
    IntToStringInjective(n1, n2);
  }

  /** `discover_algorithm(problem_type, input_size)`. `roll` and `pick` are
      the selector's draws, `fitness` the uniform draw and `now` the clock.
      An unknown category is reported as an error and changes nothing. */
  function Discover(core: Core, problemType: string, inputSize: int,
                    roll: real, pick: nat, fitness: real, now: real): (r: (Core, Result<DiscoveryRecord>))
    ensures r.1.Err? <==> GetAlgorithms(problemType) == []
    ensures r.1.Err? ==> r.0 == core && r.1.error == "Unknown problem type: " + problemType
    ensures r.1.Ok? ==>
              var rec := r.1.value;
              && rec.problemType == problemType
              && rec.inputSize == inputSize
              && rec.selectedAlgorithm in GetAlgorithms(problemType)
              && GetComplexity(problemType, rec.selectedAlgorithm)
                 == Some(Complexity(rec.timeComplexity, rec.spaceComplexity))
              && rec.fitnessScore == fitness && rec.timestamp == now
              && r.0.history == core.history + [rec]
    ensures r.1.Ok? ==>
              && Visits(r.0.rl, StateKey(problemType, inputSize)) == Visits(core.rl, StateKey(problemType, inputSize)) + 1
              && (forall t :: t != StateKey(problemType, inputSize) ==> Visits(r.0.rl, t) == Visits(core.rl, t))
              && SameValues(core.rl.qValues, r.0.rl.qValues)
    ensures r.1.Ok? ==> r.1.value.selectedAlgorithm
                        == SelectAction(core.rl, StateKey(problemType, inputSize), GetAlgorithms(problemType), roll, pick).action.value
    ensures r.1.Ok? ==> r.0.rl == SelectAction(core.rl, StateKey(problemType, inputSize), GetAlgorithms(problemType), roll, pick).agent
    ensures r.1.Ok? ==>
              && r.0.rl.learningRate == core.rl.learningRate
              && r.0.rl.discountFactor == core.rl.discountFactor
              && r.0.rl.epsilon == core.rl.epsilon
    ensures core.history <= r.0.history
  {
    var state := StateKey(problemType, inputSize);
    var available := GetAlgorithms(problemType);
    if available == [] then
      (core, Err("Unknown problem type: " + problemType))
    else
      var selection := SelectAction(core.rl, state, available, roll, pick);
      var selected := selection.action.value;
      var complexity := GetComplexity(problemType, selected);
      var record := DiscoveryRecord(
        problemType, inputSize, selected,
        if complexity.Some? then complexity.value.time else "Unknown",
        if complexity.Some? then complexity.value.space else "Unknown",
        fitness, now);
      (Core(selection.agent, core.history + [record]), Ok(record))
  }

  /** Python's `xs[start:]` for an integer `start`: a negative start counts
      from the end, and both ends are clipped to the sequence. */
  function SliceFrom<T>(xs: seq<T>, start: int): (r: seq<T>)
    ensures exists k :: 0 <= k <= |xs| && r == xs[k..]
  {
    if start < 0 then
      (if -start >= |xs| then xs[0..] else xs[|xs| + start..])
    else if start >= |xs| then xs[|xs|..]
    else xs[start..]
  }

  /** `get_discovery_history(limit)`, which is `discovery_history[-limit:]`. */
  function History(core: Core, limit: int): (r: seq<DiscoveryRecord>)
    ensures limit >= 1 ==> |r| == Min(limit, |core.history|)
    ensures limit == 0 ==> r == core.history
    ensures limit < 0 ==> |r| == |core.history| - Min(-limit, |core.history|)
    ensures core.history == core.history[..|core.history| - |r|] + r
  {
    SliceFrom(core.history, -limit)
  }

  function Min(a: int, b: int): int
  {
    if a < b then a else b
  }

  /** The default `limit` of `get_discovery_history`. */
  const DefaultHistoryLimit := 10

  /** `reset_learning`: a fresh selector with the DEFAULT parameters (the
      constructor's learning rate and epsilon are not kept) and an empty
      history. */
  function Reset(core: Core): (r: Core)
    ensures r.history == []
    ensures r.rl.qValues == map[] && r.rl.stateVisits == map[]
    ensures r.rl.learningRate == 0.1 && r.rl.discountFactor == 0.95 && r.rl.epsilon == 0.1
  {
    Core(DefaultAgent(), [])
  }

  /** After a reset every core, whatever it has learned and whatever
      parameters it was built with, is the default-constructed one. */
  lemma ResetForgetsParameters(core: Core)
    ensures Reset(core) == NewCore(0.1, 0.1)
    ensures core.rl.learningRate != 0.1 ==> Reset(core).rl.learningRate != core.rl.learningRate
    ensures core.rl.epsilon != 0.1 ==> Reset(core).rl.epsilon != core.rl.epsilon
  {
  }

  /** The categories `Discover` accepts are exactly the catalog's four. */
  lemma DiscoverAcceptsExactlyCatalogCategories(core: Core, problemType: string, inputSize: int,
                                                roll: real, pick: nat, fitness: real, now: real)
    ensures Discover(core, problemType, inputSize, roll, pick, fitness, now).1.Ok?
            <==> problemType in ["sorting", "searching", "dp", "graph"]
  {
    KnownCategories(problemType);
  }

  /** Discoveries only append: after a run of discoveries the old history is
      a prefix of the new one, and it grew by the number of successful
      calls. */
  lemma {:induction false} HistoryOnlyGrows(core: Core, calls: seq<(string, int, real, nat, real, real)>)
    ensures core.history <= RunDiscoveries(core, calls).history
    ensures |RunDiscoveries(core, calls).history| == |core.history| + Accepted(calls)
    decreases |calls|
  {
    if |calls| > 0 {
      var c := calls[0];
      var step := Discover(core, c.0, c.1, c.2, c.3, c.4, c.5);
      HistoryOnlyGrows(step.0, calls[1..]);
    }
  }

  /** Apply `Discover` for each (category, size, roll, pick, fitness, time). */
  function RunDiscoveries(core: Core, calls: seq<(string, int, real, nat, real, real)>): Core
    decreases |calls|
  {
    if |calls| == 0 then core
    else
      var c := calls[0];
      RunDiscoveries(Discover(core, c.0, c.1, c.2, c.3, c.4, c.5).0, calls[1..])
  }

  /** How many of `calls` name a known category. */
  function Accepted(calls: seq<(string, int, real, nat, real, real)>): nat
    decreases |calls|
  {
    if |calls| == 0 then 0
    else (if GetAlgorithms(calls[0].0) == [] then 0 else 1) + Accepted(calls[1..])
  }
}

=== FILE: algorithm_library.dfy ===
/** The static catalog of the agent: problem category -> algorithm name ->
    {time, space} complexity labels, with the two lookups the agent uses.
    Both lookups are total: an unknown key gives an empty answer. */
module AlgorithmLibrary {
  import opened Wrappers
  import opened Dicts

  /** One catalog entry, the `{'time': ..., 'space': ...}` dictionary. */
  datatype Complexity = Complexity(time: string, space: string)

  type Catalog = Dict<string, Dict<string, Complexity>>

  /** `AlgorithmLibrary.ALGORITHMS`, in its declaration order. */
  function Algorithms(): Catalog
  {
    [ ("sorting",
       [ ("quicksort", Complexity("O(n log n)", "O(log n)")),
         ("mergesort", Complexity("O(n log n)", "O(n)")),
         ("heapsort", Complexity("O(n log n)", "O(1)")),
         ("bubblesort", Complexity("O(n^2)", "O(1)")),
         ("insertion_sort", Complexity("O(n^2)", "O(1)")) ]),
      ("searching",
       [ ("binary_search", Complexity("O(log n)", "O(1)")),
         ("linear_search", Complexity("O(n)", "O(1)")),
         ("hash_search", Complexity("O(1)", "O(n)")) ]),
      ("dp",
       [ ("fibonacci", Complexity("O(n)", "O(n)")),
         ("knapsack", Complexity("O(nW)", "O(nW)")),
         ("lcs", Complexity("O(mn)", "O(mn)")) ]),
      ("graph",
       [ ("dfs", Complexity("O(V+E)", "O(V)")),
         ("bfs", Complexity("O(V+E)", "O(V)")),
         ("dijkstra", Complexity("O((V+E)logV)", "O(V)")) ]) ]
  }

  /** `ALGORITHMS.get(problem_type, {})`. */
  function Category(problemType: string): Dict<string, Complexity>
  {
    GetOr(Algorithms(), problemType, [])
  }

  /** `get_algorithms`: the category's algorithm names in catalog order, or
      the empty list for an unknown category. */
  function GetAlgorithms(problemType: string): (names: seq<string>)
    ensures problemType !in Keys(Algorithms()) ==> names == []
    ensures problemType in Keys(Algorithms()) ==>
              exists entries :: (problemType, entries) in Algorithms() && names == Keys(entries)
  {
    Keys(Category(problemType))
  }

  /** `get_complexity`: the catalog entry, or `None` for Python's empty
      dictionary when the category or the algorithm is unknown. */
  function GetComplexity(problemType: string, algorithm: string): (c: Option<Complexity>)
    ensures c.Some? <==> algorithm in GetAlgorithms(problemType)
    ensures c.Some? ==> (algorithm, c.value) in Category(problemType)
  {
    Get(Category(problemType), algorithm)
  }

  /** Every known category offers at least one algorithm, and names are not
      repeated within a category or across the category list. */
  lemma CatalogWellFormed()
    ensures Wf(Algorithms())
    ensures forall i :: 0 <= i < |Algorithms()| ==> |Algorithms()[i].1| > 0 && Wf(Algorithms()[i].1)
    ensures forall p :: p in Keys(Algorithms()) <==> p in ["sorting", "searching", "dp", "graph"]
  {
    assert Keys(Algorithms()) == ["sorting", "searching", "dp", "graph"];
  }

  /** The categories the agent recognises are exactly the catalog's four, and
      for them the algorithm list is never empty. */
  lemma KnownCategories(problemType: string)
    ensures |GetAlgorithms(problemType)| > 0 <==> problemType in ["sorting", "searching", "dp", "graph"]
  {
    CatalogWellFormed();
    if problemType in Keys(Algorithms()) {
      var i :| 0 <= i < |Algorithms()| && Algorithms()[i].0 == problemType;
      assert Get(Algorithms(), problemType).Some?;
    }
  }

  /** The five sorting algorithms, in catalog order. */
  lemma SortingAlgorithms()
    ensures GetAlgorithms("sorting")
            == ["quicksort", "mergesort", "heapsort", "bubblesort", "insertion_sort"]
  {
    assert IndexOf(Algorithms(), "sorting") == Some(0);
  }
}

=== FILE: complexity_predictor.dfy ===
/** The pattern-based complexity predictor and the comparator's ranking.

    The regular expressions themselves are not interpreted: how many times
    each pattern matches the lower-cased code (`re.findall`), whether a
    pattern occurs at all (`re.search`), the name captured by the first
    `def` and the number of calls of that name are inputs. What is modelled
    is everything the predictor does with those numbers: the per-class
    totals, the first-wins choice of the most frequent class, the
    confidence formula, the loop-line counter, the capped recursion
    estimate and the stable ranking by a score table. */
module ComplexityPredictor {
  import opened Wrappers
  import opened Dicts
  import opened Text
  import opened Maxima
  import opened StableSort

  /** `BigOComplexity`, in the order of the pattern table. */
  datatype BigO = Constant | Logarithmic | Linear | Linearithmic | Quadratic | Cubic | Exponential | Factorial

  function Classes(): seq<BigO>
  {
    [Constant, Logarithmic, Linear, Linearithmic, Quadratic, Cubic, Exponential, Factorial]
  }

  /** Position of a class in the pattern table. */
  function Rank(c: BigO): (k: nat)
    ensures k < |Classes()| && Classes()[k] == c
  {
    match c
    case Constant => 0
    case Logarithmic => 1
    case Linear => 2
    case Linearithmic => 3
    case Quadratic => 4
    case Cubic => 5
    case Exponential => 6
    case Factorial => 7
  }

  /** The value of the `complexity_map` entry for a class. */
  function Label(c: BigO): string
  {
    match c
    case Constant => "O(1)"
    case Logarithmic => "O(log n)"
    case Linear => "O(n)"
    case Linearithmic => "O(n log n)"
    case Quadratic => "O(n^2)"
    case Cubic => "O(n^3)"
    case Exponential => "O(2^n)"
    case Factorial => "O(n!)"
  }

  /** Different classes have different labels. */
  lemma LabelInjective(c: BigO, d: BigO)
    requires Label(c) == Label(d)
    ensures c == d
  {
  }

  /** `complexity_patterns[class]`. */
  function Patterns(c: BigO): seq<string>
  {
    match c
    case Constant => ["return\\s+\\d+", "x\\s*=\\s*\\d+", "print\\("]
    case Logarithmic => ["while.*//\\s*2", "log", "binary.?search"]
    case Linear => ["for\\s+\\w+\\s+in\\s+range\\s*\\(\\s*n\\s*\\)", "for\\s+\\w+\\s+in\\s+\\w+", "while\\s+\\w+\\s*<\\s*len"]
    case Linearithmic => ["sorted\\(", "merge.?sort", "heap.?sort", "quick.?sort.*random"]
    case Quadratic => ["for.*for.*range\\s*\\(\\s*n", "nested.*loop", "bubble.?sort", "insertion.?sort"]
    case Cubic => ["for.*for.*for.*range\\s*\\(\\s*n", "triple.*nested"]
    case Exponential => ["fibonacci\\s*\\(", "2\\s*\\*\\*\\s*n", "recursive.*without.*memo"]
    case Factorial => ["permutation", "n\\s*!"]
  }

  /** The number of matches of every pattern in the lower-cased code. */
  type Findall = string -> nat

  /** `sum(len(re.findall(p, code)) for p in patterns)`. */
  function SumMatches(patterns: seq<string>, findall: Findall): nat
    decreases |patterns|
  {
    if |patterns| == 0 then 0 else findall(patterns[0]) + SumMatches(patterns[1..], findall)
  }

  /** The per-class totals the predictor works with. */
  type Counts = BigO -> nat

  /** The total number of matches of each class's patterns. */
  function ClassCounts(findall: Findall): Counts
  {
    c => SumMatches(Patterns(c), findall)
  }

  /** A class matches only when at least one of its patterns does. */
  lemma {:induction false} SumMatchesPositive(patterns: seq<string>, findall: Findall)
    ensures SumMatches(patterns, findall) > 0 <==> exists i :: 0 <= i < |patterns| && findall(patterns[i]) > 0
    decreases |patterns|
  {
    if |patterns| > 0 {
      SumMatchesPositive(patterns[1..], findall);
      if exists i :: 0 <= i < |patterns[1..]| && findall(patterns[1..][i]) > 0 {
        var i :| 0 <= i < |patterns[1..]| && findall(patterns[1..][i]) > 0;
        assert findall(patterns[i + 1]) > 0;
      }
      if i :| 0 <= i < |patterns| && findall(patterns[i]) > 0 {
        if i > 0 {
          assert findall(patterns[1..][i - 1]) > 0;
        }
      }
    }
  }

  /** Class `c` has an entry in `m`. */
  predicate Listed(m: Dict<BigO, nat>, c: BigO)
  {
    exists i :: 0 <= i < |m| && m[i].0 == c
  }

  lemma ListedCons(e: (BigO, nat), rest: Dict<BigO, nat>)
    ensures forall d :: Listed([e] + rest, d) <==> d == e.0 || Listed(rest, d)
  {
    var m := [e] + rest;
    forall d | Listed(rest, d) ensures Listed(m, d) {
      var i :| 0 <= i < |rest| && rest[i].0 == d;
      assert m[i + 1].0 == d;
    }
    forall d | Listed(m, d) && d != e.0 ensures Listed(rest, d) {
      var i :| 0 <= i < |m| && m[i].0 == d;
      assert rest[i - 1].0 == d;
    }
    assert m[0].0 == e.0;
  }

  /** The classes of rank `k` and above whose count is positive, with
      their counts, in table order. */
  function MatchesFrom(count: Counts, k: nat): (m: Dict<BigO, nat>)
    requires k <= |Classes()|
    ensures forall i :: 0 <= i < |m| ==> k <= Rank(m[i].0) && m[i].1 == count(m[i].0) && m[i].1 > 0
    ensures forall i, j :: 0 <= i < j < |m| ==> Rank(m[i].0) < Rank(m[j].0)
    ensures forall c :: Listed(m, c) <==> k <= Rank(c) && count(c) > 0
    decreases |Classes()| - k
  {
    if k == |Classes()| then []
    else
      var c := Classes()[k];
      var rest := MatchesFrom(count, k + 1);
      RankOfClass(k);
      if count(c) > 0 then
        ListedCons((c, count(c)), rest);
        ConsInOrder(count, k, rest);
        [(c, count(c))] + rest
      else rest
  }

  lemma RankOfClass(k: nat)
    requires k < |Classes()|
    ensures Rank(Classes()[k]) == k
  {
  }

  /** Putting the class of rank `k` in front of matches of higher rank
      keeps them in table order. */
  lemma ConsInOrder(count: Counts, k: nat, rest: Dict<BigO, nat>)
    requires k < |Classes()| && count(Classes()[k]) > 0 && Rank(Classes()[k]) == k
    requires forall i :: 0 <= i < |rest| ==> k + 1 <= Rank(rest[i].0) && rest[i].1 == count(rest[i].0) && rest[i].1 > 0
    requires forall i, j :: 0 <= i < j < |rest| ==> Rank(rest[i].0) < Rank(rest[j].0)
    ensures var m := [(Classes()[k], count(Classes()[k]))] + rest;
            && (forall i :: 0 <= i < |m| ==> k <= Rank(m[i].0) && m[i].1 == count(m[i].0) && m[i].1 > 0)
            && (forall i, j :: 0 <= i < j < |m| ==> Rank(m[i].0) < Rank(m[j].0))
  {
    var m := [(Classes()[k], count(Classes()[k]))] + rest;
    assert forall i :: 0 < i < |m| ==> m[i] == rest[i - 1];
  }

  /** The `matches` dictionary: exactly the classes with a positive count,
      each with its count, in table order. */
  function Matches(count: Counts): (m: Dict<BigO, nat>)
    ensures forall i :: 0 <= i < |m| ==> m[i].1 == count(m[i].0) && m[i].1 > 0
    ensures forall i, j :: 0 <= i < j < |m| ==> Rank(m[i].0) < Rank(m[j].0)
    ensures forall c :: Listed(m, c) <==> count(c) > 0
  {
    MatchesFrom(count, 0)
  }

  /** `sum(matches.values())`. */
  function Total(m: Dict<BigO, nat>): nat
    decreases |m|
  {
    if |m| == 0 then 0 else m[0].1 + Total(m[1..])
  }

  /** The class `max(matches.items(), key=count)` should pick: it has the
      largest count, and every class listed before it has a smaller one. */
  ghost predicate Winner(count: Counts, c: BigO)
  {
    && count(c) > 0
    && (forall d :: count(d) <= count(c))
    && (forall d :: Rank(d) < Rank(c) ==> count(d) < count(c))
  }

  /** At most one class wins. */
  lemma WinnerUnique(count: Counts, c: BigO, d: BigO)
    requires Winner(count, c) && Winner(count, d)
    ensures c == d
  {
  }

  /** The dictionary values compared by `max`. */
  function MatchCount(e: (BigO, nat)): real
  {
    e.1 as real
  }

  /** The first maximal entry of `Matches` is the winning class. */
  lemma FirstMaxIsWinner(count: Counts)
    requires Matches(count) != []
    ensures Winner(count, Matches(count)[FirstMax(Matches(count), MatchCount)].0)
  {
    var m := Matches(count);
    var i := FirstMax(m, MatchCount);
    FirstMaxCounts(m, i);
    forall d ensures count(d) <= count(m[i].0) && (Rank(d) < Rank(m[i].0) ==> count(d) < count(m[i].0)) {
      Compare(count, m, i, d);
    }
  }

  /** `FirstMax` in terms of the counts themselves. */
  lemma FirstMaxCounts(m: Dict<BigO, nat>, i: nat)
    requires m != [] && i == FirstMax(m, MatchCount)
    ensures i < |m|
    ensures forall j :: 0 <= j < |m| ==> m[j].1 <= m[i].1
    ensures forall j :: 0 <= j < i ==> m[j].1 < m[i].1
  {
    forall j | 0 <= j < |m| ensures m[j].1 <= m[i].1 {
      assert MatchCount(m[j]) <= MatchCount(m[i]);
    }
    forall j | 0 <= j < i ensures m[j].1 < m[i].1 {
      assert MatchCount(m[j]) < MatchCount(m[i]);
    }
  }

  /** The entry at `i` beats class `d`, and beats it strictly when `d` comes
      first in the table. */
  lemma Compare(count: Counts, m: Dict<BigO, nat>, i: nat, d: BigO)
    requires forall j :: 0 <= j < |m| ==> m[j].1 == count(m[j].0)
    requires forall j, k :: 0 <= j < k < |m| ==> Rank(m[j].0) < Rank(m[k].0)
    requires forall c :: Listed(m, c) <==> count(c) > 0
    requires i < |m|
    requires forall j :: 0 <= j < |m| ==> m[j].1 <= m[i].1
    requires forall j :: 0 <= j < i ==> m[j].1 < m[i].1
    ensures count(d) <= count(m[i].0)
    ensures Rank(d) < Rank(m[i].0) ==> count(d) < count(m[i].0)
  {
    if count(d) > 0 {
      assert Listed(m, d);
      var j :| 0 <= j < |m| && m[j].0 == d;
      if i < j {
        assert Rank(m[i].0) < Rank(m[j].0);
      }
    }
  }

  /** What `_predict_complexity` returns. */
  datatype Prediction = Prediction(predicted: string, confidence: int, patternMatches: Dict<BigO, nat>)

  /** The prediction from the per-class totals: the label of the most
      frequent class (first in table order on a tie), `O(n)` when nothing
      matches, and a confidence of 15 points per match plus 15, capped at
      100. */
  function Predict(count: Counts): (p: Prediction)
    ensures p.patternMatches == Matches(count)
    ensures p.patternMatches == [] ==> p.predicted == "O(n)"
    ensures p.patternMatches != [] ==> exists c :: Winner(count, c) && p.predicted == Label(c)
    ensures 15 <= p.confidence <= 100
    ensures p.confidence == 15 <==> p.patternMatches == []
    ensures p.confidence == 100 <==> Total(p.patternMatches) >= 6
    ensures p.confidence == if (Total(p.patternMatches) + 1) * 15 < 100 then (Total(p.patternMatches) + 1) * 15 else 100
  {
    var m := Matches(count);
    var predicted := if m == [] then "O(n)" else Label(m[FirstMax(m, MatchCount)].0);
    assert m != [] ==> Winner(count, m[FirstMax(m, MatchCount)].0) by {
      if m != [] {
        FirstMaxIsWinner(count);
      }
    }
    assert Total(m) == 0 <==> m == [] by {
      if m != [] {
        assert m[0].1 > 0;
      }
    }
    var scaled := (Total(m) + 1) * 15;
    Prediction(predicted, if scaled < 100 then scaled else 100, m)
  }

  /** `_predict_complexity(code, complexity_type)`, with the pattern match
      counts of the lower-cased code as `findall`. `complexity_type` is not
      used. */
  function PredictComplexity(findall: Findall, complexityType: string): (p: Prediction)
    ensures p.patternMatches == Matches(ClassCounts(findall))
    ensures p.patternMatches == [] ==> p.predicted == "O(n)"
    ensures p.patternMatches != [] ==> exists c :: Winner(ClassCounts(findall), c) && p.predicted == Label(c)
    ensures 15 <= p.confidence <= 100
    ensures p.confidence == 15 <==> p.patternMatches == []
    ensures p.confidence == 100 <==> Total(p.patternMatches) >= 6
    ensures p.confidence == if (Total(p.patternMatches) + 1) * 15 < 100 then (Total(p.patternMatches) + 1) * 15 else 100
  {
    Predict(ClassCounts(findall))
  }

  /** Confidence 15 (and the default `O(n)`) comes exactly from code in
      which no class has a match. */
  lemma NothingMatched(count: Counts)
    ensures Predict(count).confidence == 15 <==> forall c :: count(c) == 0
  {
    if Predict(count).confidence != 15 {
      var m := Matches(count);
      assert count(m[0].0) > 0;
    }
  }

  /** On a tie in a positive count, the class listed earlier in the table
      wins. */
  lemma TieGoesToEarlierClass(count: Counts, c: BigO, d: BigO)
    requires Rank(c) < Rank(d)
    requires count(c) == count(d) > 0
    ensures Predict(count).predicted != Label(d)
  {
    var p := Predict(count);
    assert Listed(Matches(count), c);
    var w :| Winner(count, w) && p.predicted == Label(w);
    if Label(w) == Label(d) {
      LabelInjective(w, d);
    }
  }

  /** The prediction never depends on the requested complexity type. */
  lemma PredictionIgnoresType(findall: Findall, t1: string, t2: string)
    ensures PredictComplexity(findall, t1) == PredictComplexity(findall, t2)
  {
  }

  /** `re.match(r'(for|while)\s+', s)`: the line starts with `for` or
      `while` followed by at least one whitespace character. */
  predicate LoopStart(s: string)
  {
    || (StartsWith(s, "for") && |s| > 3 && IsSpace(s[3]))
    || (StartsWith(s, "while") && |s| > 5 && IsSpace(s[5]))
  }

  /** The number of lines whose stripped text starts a loop. */
  function LoopLines(lines: seq<string>): nat
    decreases |lines|
  {
    if |lines| == 0 then 0
    else LoopLines(lines[..|lines| - 1]) + (if LoopStart(Strip(lines[|lines| - 1])) then 1 else 0)
  }

  /** A stripped line starting with `for ` or `while ` already starts a loop,
      so the second branch of the counter is never taken. */
  lemma SecondBranchUnreachable(s: string)
    requires StartsWith(s, "for ") || StartsWith(s, "while ")
    ensures LoopStart(s)
  {
    if StartsWith(s, "for ") {
      assert s[..4][3] == ' ';
    } else {
      assert s[..6][5] == ' ';
    }
  }

  lemma LoopLinesStep(lines: seq<string>, i: nat, stripped: string)
    requires i < |lines| && stripped == Strip(lines[i])
    ensures LoopLines(lines[..i + 1]) == LoopLines(lines[..i]) + (if LoopStart(stripped) then 1 else 0)
    ensures StartsWith(stripped, "for ") || StartsWith(stripped, "while ") ==> LoopStart(stripped)
  {
    assert lines[..i + 1][..i] == lines[..i];
    if StartsWith(stripped, "for ") || StartsWith(stripped, "while ") {
      SecondBranchUnreachable(stripped);
    }
  }

  function Max(a: nat, b: nat): nat
  {
    if a < b then b else a
  }

  /** `_count_nested_loops(code)`. The depth is never decremented, so the
      "maximum nesting" it reports is the number of lines that start a
      loop, wherever they stand. */
  method CountNestedLoops(code: string) returns (maxDepth: nat)
    ensures maxDepth == LoopLines(Split(code, '\n'))
  {
    maxDepth := 0;
    var currentDepth: nat := 0;
    var inLoop := false;
    var lines := Split(code, '\n');
    for i := 0 to |lines|
      invariant currentDepth == maxDepth == LoopLines(lines[..i])
      invariant inLoop <==> maxDepth > 0
    {
      var stripped := Strip(lines[i]);
      LoopLinesStep(lines, i, stripped);
      if LoopStart(stripped) {
        currentDepth := currentDepth + 1;
        maxDepth := Max(maxDepth, currentDepth);
        inLoop := true;
      } else if inLoop && (StartsWith(stripped, "for ") || StartsWith(stripped, "while ")) {
        assert false;
      }
    }
    assert lines[..|lines|] == lines;
  }

  /** The count is additive over blocks of lines: a loop that follows a
      finished loop counts as one more level of nesting. */
  lemma {:induction false} LoopLinesAppend(a: seq<string>, b: seq<string>)
    ensures LoopLines(a + b) == LoopLines(a) + LoopLines(b)
    decreases |b|
  {
    if |b| == 0 {
      assert a + b == a;
    } else {
      var last := b[|b| - 1];
      assert (a + b)[..|a + b| - 1] == a + b[..|b| - 1];
      LoopLinesAppend(a, b[..|b| - 1]);
    }
  }

  /** `_estimate_recursion_depth(code)`. `defName` is the name captured by
      `def\s+(\w+)\s*\(` (`None` when it does not match), and `calls(name)`
      the number of matches of `name\s*\(`, which counts the definition
      itself: on consistent facts it is at least 1 (see `CallsCountDefinition`),
      so the estimate is never negative. */
  function EstimateRecursionDepth(code: string, defName: Option<string>, calls: string -> nat): (d: int)
    ensures !Contains(code, "def ") || defName.None? ==> d == 0
    ensures d <= 10
    ensures Contains(code, "def ") && defName.Some? ==>
              (d == 10 <==> calls(defName.value) >= 11) && (d >= 0 <==> calls(defName.value) >= 1)
    ensures Contains(code, "def ") && defName.Some? ==>
              d == if calls(defName.value) - 1 < 10 then calls(defName.value) - 1 else 10
  {
    if !Contains(code, "def ") then 0
    else if defName.None? then 0
    else
      var callCount := calls(defName.value) - 1;
      if callCount < 10 then callCount else 10
  }

  /** More calls of the defined function never lower the estimate, and
      every further call below ten raises it by one. */
  lemma RecursionDepthMonotone(code: string, name: string, calls: string -> nat, more: string -> nat)
    requires Contains(code, "def ") && calls(name) <= more(name)
    ensures EstimateRecursionDepth(code, Some(name), calls) <= EstimateRecursionDepth(code, Some(name), more)
    ensures more(name) == calls(name) + 1 && calls(name) < 11 ==>
              EstimateRecursionDepth(code, Some(name), more) == EstimateRecursionDepth(code, Some(name), calls) + 1
  {
  }

  /** The facts about one piece of code that the regular expressions
      supply: match counts and occurrences in the lower-cased code, and the
      first defined name with its call counter in the code as given. */
  datatype CodeFacts = CodeFacts(
    findall: Findall,
    search: string -> bool,
    defName: Option<string>,
    calls: string -> nat)

  /** The facts any real code yields: `name\s*\(` matches the definition
      `def name(` that `defName` was captured from, so the call counter of
      the defined name is at least one. */
  predicate CallsCountDefinition(facts: CodeFacts)
  {
    facts.defName.Some? ==> facts.calls(facts.defName.value) >= 1
  }

  /** On consistent facts the estimate lies between 0 and 10. */
  lemma RecursionDepthInRange(code: string, facts: CodeFacts)
    requires CallsCountDefinition(facts)
    ensures 0 <= EstimateRecursionDepth(code, facts.defName, facts.calls) <= 10
  {
  }

  /** `_find_patterns`' table: pattern name -> regular expression. */
  function PatternMap(): Dict<string, string>
  {
    [ ("binary_search", "binary.?search|log|divide.*conquer"),
      ("sorting", "sort|quicksort|mergesort|heapsort"),
      ("dynamic_programming", "dp\\[|memo|dynamic|bottom.?up"),
      ("greedy", "greedy|max|min"),
      ("recursion", "def.*\\(.*\\):|return.*\\("),
      ("iteration", "for|while"),
      ("hash", "dict|hash|set|map") ]
  }

  /** The positions of the table from `k` on whose pattern occurs, in
      increasing order. */
  function MatchingPositions(search: string -> bool, k: nat): (ps: seq<nat>)
    requires k <= |PatternMap()|
    ensures forall i :: 0 <= i < |ps| ==> k <= ps[i] < |PatternMap()|
    ensures forall i, j :: 0 <= i < j < |ps| ==> ps[i] < ps[j]
    ensures forall p :: p in ps <==> k <= p < |PatternMap()| && search(PatternMap()[p].1)
    ensures |ps| <= |PatternMap()| - k
    decreases |PatternMap()| - k
  {
    if k == |PatternMap()| then []
    else
      var rest := MatchingPositions(search, k + 1);
      if search(PatternMap()[k].1) then [k] + rest else rest
  }

  /** The names of the table entries from position `k` on whose pattern
      occurs, in table order. */
  function FoundFrom(search: string -> bool, k: nat): (found: seq<string>)
    requires k <= |PatternMap()|
    ensures |found| == |MatchingPositions(search, k)|
    ensures forall i :: 0 <= i < |found| ==> found[i] == PatternMap()[MatchingPositions(search, k)[i]].0
    decreases |PatternMap()| - k
  {
    if k == |PatternMap()| then []
    else
      var rest := FoundFrom(search, k + 1);
      if search(PatternMap()[k].1) then [PatternMap()[k].0] + rest else rest
  }

  /** The table has no name twice. */
  lemma PatternNamesDistinct()
    ensures forall i, j :: 0 <= i < j < |PatternMap()| ==> PatternMap()[i].0 != PatternMap()[j].0
  {
    var m := PatternMap();
    assert Keys(m) == ["binary_search", "sorting", "dynamic_programming", "greedy", "recursion", "iteration", "hash"];
  }

  /** `_find_patterns(code)`: the names whose pattern occurs in the code,
      each once, in the order of the table. */
  function FindPatterns(search: string -> bool): (found: seq<string>)
    ensures |found| == |MatchingPositions(search, 0)|
    ensures forall i :: 0 <= i < |found| ==> found[i] == PatternMap()[MatchingPositions(search, 0)[i]].0
    ensures forall n :: n in found <==> exists i :: 0 <= i < |PatternMap()| && PatternMap()[i].0 == n && search(PatternMap()[i].1)
    ensures forall n :: n in found ==> n in Keys(PatternMap())
    ensures forall i, j :: 0 <= i < j < |found| ==> found[i] != found[j]
    ensures |found| <= 7
  {
    var found := FoundFrom(search, 0);
    FoundNamesMatch(search, found);
    FoundInTable(search, found);
    FoundDistinct(search, found);
    found
  }

  lemma FoundNamesMatch(search: string -> bool, found: seq<string>)
    requires found == FoundFrom(search, 0)
    ensures forall n :: n in found <==> exists i :: 0 <= i < |PatternMap()| && PatternMap()[i].0 == n && search(PatternMap()[i].1)
  {
    var ps := MatchingPositions(search, 0);
    forall n ensures n in found <==> exists i :: 0 <= i < |PatternMap()| && PatternMap()[i].0 == n && search(PatternMap()[i].1) {
      if n in found {
        var k :| 0 <= k < |found| && found[k] == n;
        assert ps[k] in ps;
      }
      if exists i :: 0 <= i < |PatternMap()| && PatternMap()[i].0 == n && search(PatternMap()[i].1) {
        var i :| 0 <= i < |PatternMap()| && PatternMap()[i].0 == n && search(PatternMap()[i].1);
        var k :| 0 <= k < |ps| && ps[k] == i;
        assert found[k] == n;
      }
    }
  }

  lemma FoundInTable(search: string -> bool, found: seq<string>)
    requires found == FoundFrom(search, 0)
    ensures forall n :: n in found ==> n in Keys(PatternMap())
  {
    var ps := MatchingPositions(search, 0);
    forall n | n in found ensures n in Keys(PatternMap()) {
      var k :| 0 <= k < |found| && found[k] == n;
      assert Keys(PatternMap())[ps[k]] == n;
    }
  }

  lemma FoundDistinct(search: string -> bool, found: seq<string>)
    requires found == FoundFrom(search, 0)
    ensures forall i, j :: 0 <= i < j < |found| ==> found[i] != found[j]
  {
    var ps := MatchingPositions(search, 0);
    PatternNamesDistinct();
    assert forall i, j :: 0 <= i < j < |ps| ==> ps[i] < ps[j];
  }

  /** The dictionary `analyze_code` returns. */
  datatype Analysis = Analysis(
    timeComplexity: Prediction,
    spaceComplexity: Prediction,
    patternsFound: seq<string>,
    nestedLoops: nat,
    recursionDepth: int)

  /** The time and space predictions `analyze_code` reports: the classes
      with a match, the label of the winning class (`O(n)` when nothing
      matched) and 15 points of confidence per match plus 15, capped at
      100. */
  ghost predicate ReportsPrediction(findall: Findall, p: Prediction)
  {
    && p.patternMatches == Matches(ClassCounts(findall))
    && (p.patternMatches == [] ==> p.predicted == "O(n)")
    && (p.patternMatches != [] ==> exists c :: Winner(ClassCounts(findall), c) && p.predicted == Label(c))
    && p.confidence == (var total := Total(p.patternMatches);
                        if (total + 1) * 15 < 100 then (total + 1) * 15 else 100)
  }

  /** The recursion depth `analyze_code` reports: 0 without a definition,
      otherwise the calls of the defined name less the definition, capped
      at 10. */
  predicate ReportsDepth(code: string, facts: CodeFacts, d: int)
  {
    && d <= 10
    && ((!Contains(code, "def ") || facts.defName.None?) ==> d == 0)
    && (Contains(code, "def ") && facts.defName.Some? ==>
          d == if facts.calls(facts.defName.value) - 1 < 10 then facts.calls(facts.defName.value) - 1 else 10)
  }

  /** The patterns `analyze_code` reports: the names of the table entries
      whose pattern occurs, in table order, each once. */
  ghost predicate ReportsPatterns(search: string -> bool, found: seq<string>)
  {
    && |found| == |MatchingPositions(search, 0)|
    && (forall i :: 0 <= i < |found| ==> found[i] == PatternMap()[MatchingPositions(search, 0)[i]].0)
    && (forall i, j :: 0 <= i < j < |found| ==> found[i] != found[j])
    && (forall n :: n in found <==> exists i :: 0 <= i < |PatternMap()| && PatternMap()[i].0 == n && search(PatternMap()[i].1))
  }

  /** `analyze_code(code)`: both predictions come from the same counts of
      the lower-cased code, so the time and space predictions are always
      equal; the loops and the recursion depth are read from the code as
      given. */
  method AnalyzeCode(code: string, facts: CodeFacts) returns (a: Analysis)
    ensures a.timeComplexity == a.spaceComplexity
    ensures a.timeComplexity == PredictComplexity(facts.findall, "time")
    ensures ReportsPrediction(facts.findall, a.timeComplexity)
    ensures a.nestedLoops == LoopLines(Split(code, '\n'))
    ensures a.recursionDepth == EstimateRecursionDepth(code, facts.defName, facts.calls)
    ensures ReportsDepth(code, facts, a.recursionDepth)
    ensures a.patternsFound == FindPatterns(facts.search)
    ensures ReportsPatterns(facts.search, a.patternsFound)
  {
    var time := PredictComplexity(facts.findall, "time");
    var space := PredictComplexity(facts.findall, "space");
    PredictionIgnoresType(facts.findall, "time", "space");
    var loops := CountNestedLoops(code);
    var found := FindPatterns(facts.search);
    var depth := EstimateRecursionDepth(code, facts.defName, facts.calls);
    PredictionFacts(facts.findall);
    DepthFacts(code, facts);
    PatternFacts(facts.search);
    a := Analysis(time, space, found, loops, depth);
  }

  lemma PredictionFacts(findall: Findall)
    ensures ReportsPrediction(findall, PredictComplexity(findall, "time"))
  {
  }

  lemma DepthFacts(code: string, facts: CodeFacts)
    ensures ReportsDepth(code, facts, EstimateRecursionDepth(code, facts.defName, facts.calls))
  {
  }

  lemma PatternFacts(search: string -> bool)
    ensures ReportsPatterns(search, FindPatterns(search))
  {
  }

  /** `_rank_algorithms`' score table: label -> position in the order of
      growth, 1 to 8. */
  function ScoreTable(): Dict<string, int>
  {
    [ ("O(1)", 1), ("O(log n)", 2), ("O(n)", 3), ("O(n log n)", 4),
      ("O(n^2)", 5), ("O(n^3)", 6), ("O(2^n)", 7), ("O(n!)", 8) ]
  }

  /** `complexity_score.get(label, 5)`. */
  function ComplexityScore(complexity: string): (s: int)
    ensures complexity !in Keys(ScoreTable()) ==> s == 5
    ensures 1 <= s <= 8
  {
    GetOr(ScoreTable(), complexity, 5)
  }

  /** The score table orders the predictor's labels by their class: the
      class of rank k scores k + 1. */
  lemma ScoreFollowsClassOrder(c: BigO)
    ensures ComplexityScore(Label(c)) == Rank(c) + 1
  {
    var t := ScoreTable();
    assert t[Rank(c)] == (Label(c), Rank(c) + 1);
    forall j | 0 <= j < Rank(c) ensures t[j].0 != Label(c) {
      assert t[j].0 == Label(Classes()[j]);
      if t[j].0 == Label(c) {
        LabelInjective(Classes()[j], c);
      }
    }
    IndexOfFirst(t, Label(c), Rank(c));
  }

  /** The sort key of a `(name, analysis)` item. */
  function EntryScore(e: (string, Analysis)): int
  {
    ComplexityScore(e.1.timeComplexity.predicted)
  }

  /** What `_rank_algorithms` returns. */
  datatype Ranking = Ranking(
    rankedAlgorithms: seq<string>,
    analysisDetails: Dict<string, Analysis>,
    mostEfficient: Option<string>)

  /** `_rank_algorithms(analyses)`: the names sorted by the score of their
      predicted time complexity, stable, with the first as the most
      efficient. */
  function RankAlgorithms(analyses: Dict<string, Analysis>): (r: Ranking)
    ensures r.analysisDetails == analyses
    ensures |r.rankedAlgorithms| == |analyses|
    ensures multiset(r.rankedAlgorithms) == multiset(Keys(analyses))
    ensures r.mostEfficient.None? <==> analyses == []
    ensures r.mostEfficient.Some? ==> r.mostEfficient.value == r.rankedAlgorithms[0]
    ensures exists items :: && SortedByKey(items, EntryScore)
                            && SameKeyGroups(items, analyses, EntryScore)
                            && r.rankedAlgorithms == Keys(items)
  {
    var ranked := Sort(analyses, EntryScore);
    assert |ranked| == |analyses| by {
      assert |multiset(ranked)| == |multiset(analyses)|;
    }
    MultisetKeys(ranked, analyses);
    Ranking(Keys(ranked), analyses, if ranked == [] then None else Some(ranked[0].0))
  }

  /** Permuting the entries permutes the keys. */
  lemma {:induction false} MultisetKeys<K, V>(a: seq<(K, V)>, b: seq<(K, V)>)
    requires multiset(a) == multiset(b)
    ensures multiset(Keys(a)) == multiset(Keys(b))
    decreases |a|
  {
    if |a| == 0 {
      assert |multiset(b)| == 0;
    } else {
      assert a[0] in multiset(b);
      var k :| 0 <= k < |b| && b[k] == a[0];
      var rest := b[..k] + b[k + 1..];
      RemoveOne(a, b, k);
      MultisetKeys(a[1..], rest);
      KeysOfFirst(a);
      KeysWithout(b, k);
    }
  }

  lemma RemoveOne<T>(a: seq<T>, b: seq<T>, k: nat)
    requires |a| > 0 && k < |b| && b[k] == a[0] && multiset(a) == multiset(b)
    ensures multiset(a[1..]) == multiset(b[..k] + b[k + 1..])
  {
    assert a == [a[0]] + a[1..];
    assert b == b[..k] + [b[k]] + b[k + 1..];
    assert multiset(a[1..]) == multiset(a) - multiset{a[0]};
    assert multiset(b[..k] + b[k + 1..]) == multiset(b) - multiset{b[k]};
  }

  lemma KeysOfFirst<K, V>(a: seq<(K, V)>)
    requires |a| > 0
    ensures multiset(Keys(a)) == multiset{a[0].0} + multiset(Keys(a[1..]))
  {
    assert a == [a[0]] + a[1..];
    KeysAppend([a[0]], a[1..]);
    assert Keys([a[0]]) == [a[0].0];
  }

  lemma KeysWithout<K, V>(b: seq<(K, V)>, k: nat)
    requires k < |b|
    ensures multiset(Keys(b)) == multiset{b[k].0} + multiset(Keys(b[..k] + b[k + 1..]))
  {
    assert b == b[..k] + [b[k]] + b[k + 1..];
    KeysAppend(b[..k] + [b[k]], b[k + 1..]);
    KeysAppend(b[..k], [b[k]]);
    KeysAppend(b[..k], b[k + 1..]);
    assert Keys([b[k]]) == [b[k].0];
  }

  /** Equal scores keep their input order: two items whose predicted labels
      score the same come out in the order they went in. */
  lemma RankingIsStable(analyses: Dict<string, Analysis>)
    ensures var ranked := Sort(analyses, EntryScore);
            && RankAlgorithms(analyses).rankedAlgorithms == Keys(ranked)
            && forall k :: KeyFilter(ranked, EntryScore, k) == KeyFilter(analyses, EntryScore, k)
  {
  }

  /** The most efficient name is one whose predicted time complexity scores
      no worse than any other analysed code. */
  lemma MostEfficientScoresLowest(analyses: Dict<string, Analysis>)
    requires Wf(analyses) && analyses != []
    ensures var best := RankAlgorithms(analyses).mostEfficient;
            && best.Some?
            && Get(analyses, best.value).Some?
            && forall i :: 0 <= i < |analyses| ==>
                 EntryScore((best.value, Get(analyses, best.value).value)) <= EntryScore(analyses[i])
  {
    var ranked := Sort(analyses, EntryScore);
    assert |ranked| == |analyses| by {
      assert |multiset(ranked)| == |multiset(analyses)|;
    }
    assert ranked[0] in multiset(analyses);
    var m :| 0 <= m < |analyses| && analyses[m] == ranked[0];
    GetEntry(analyses, m);
    forall i | 0 <= i < |analyses| ensures EntryScore(ranked[0]) <= EntryScore(analyses[i]) {
      assert analyses[i] in multiset(ranked);
      var j :| 0 <= j < |ranked| && ranked[j] == analyses[i];
      if j > 0 {
        assert EntryScore(ranked[0]) <= EntryScore(ranked[j]);
      }
    }
  }
}

=== FILE: dicts.dfy ===
/** Python's `dict`: a finite map that remembers the order in which keys were
    first inserted. Iteration (`for k in d`, `max(d, key=...)`) follows that
    order, and assigning to an existing key keeps its position. */
module Dicts {
  import opened Wrappers

  type Dict<K, V> = seq<(K, V)>

  /** The keys in insertion order. */
  function Keys<K, V>(d: Dict<K, V>): (ks: seq<K>)
    ensures |ks| == |d|
    ensures forall i :: 0 <= i < |d| ==> ks[i] == d[i].0
  {
    seq(|d|, i requires 0 <= i < |d| => d[i].0)
  }

  /** No key occurs twice: every dictionary built with `Put` has this shape. */
  ghost predicate Wf<K, V>(d: Dict<K, V>)
  {
    forall i, j :: 0 <= i < j < |d| ==> d[i].0 != d[j].0
  }

  /** Position of the first entry with key `k`. */
  function IndexOf<K(==), V>(d: Dict<K, V>, k: K): (r: Option<nat>)
    ensures r.None? <==> k !in Keys(d)
    ensures r.Some? ==> r.value < |d| && d[r.value].0 == k
    ensures r.Some? ==> forall j :: 0 <= j < r.value ==> d[j].0 != k
    decreases |d|
  {
    if |d| == 0 then None
    else if d[0].0 == k then Some(0)
    else
      match IndexOf(d[1..], k)
      case None => None
      case Some(i) => Some(i + 1)
  }

  /** `d.get(k)`: the value stored under `k`, or `None` when `k` is absent. */
  function Get<K(==), V>(d: Dict<K, V>, k: K): (r: Option<V>)
    ensures r.None? <==> k !in Keys(d)
    ensures r.Some? ==> (k, r.value) in d
  {
    match IndexOf(d, k)
    case None => None
    case Some(i) => Some(d[i].1)
  }

  /** `d.get(k, default)`. */
  function GetOr<K(==), V>(d: Dict<K, V>, k: K, default: V): (v: V)
    ensures k !in Keys(d) ==> v == default
    ensures k in Keys(d) ==> (k, v) in d
  {
    match Get(d, k)
    case None => default
    case Some(x) => x
  }

  /** `d[k] = v`: overwrite in place when `k` is present, append otherwise. */
  function Put<K(==,!new), V>(d: Dict<K, V>, k: K, v: V): (r: Dict<K, V>)
    ensures Get(r, k) == Some(v)
    ensures forall k' :: k' != k ==> Get(r, k') == Get(d, k')
    ensures k in Keys(d) ==> Keys(r) == Keys(d)
    ensures k !in Keys(d) ==> Keys(r) == Keys(d) + [k]
    ensures Wf(d) ==> Wf(r)
  {
    match IndexOf(d, k)
    case None =>
      PutAppends(d, k, v);
      d + [(k, v)]
    case Some(i) =>
      PutOverwrites(d, i, k, v);
      d[i := (k, v)]
  }

  lemma PutAppends<K, V>(d: Dict<K, V>, k: K, v: V)
    requires k !in Keys(d)
    ensures var r := d + [(k, v)];
            && Get(r, k) == Some(v)
            && (forall k' :: k' != k ==> Get(r, k') == Get(d, k'))
            && Keys(r) == Keys(d) + [k]
            && (Wf(d) ==> Wf(r))
  {
    var r := d + [(k, v)];
    assert Keys(r) == Keys(d) + [k];
    forall k' | k' != k ensures Get(r, k') == Get(d, k') {
      PrefixIndexOf(d, [(k, v)], k');
    }
    assert IndexOf(r, k) == Some(|d|);
  }

  lemma PutOverwrites<K, V>(d: Dict<K, V>, i: nat, k: K, v: V)
    requires IndexOf(d, k) == Some(i)
    ensures var r := d[i := (k, v)];
            && Get(r, k) == Some(v)
            && (forall k' :: k' != k ==> Get(r, k') == Get(d, k'))
            && Keys(r) == Keys(d)
            && (Wf(d) ==> Wf(r))
  {
    var r := d[i := (k, v)];
    assert Keys(r) == Keys(d);
    forall k' | k' != k ensures Get(r, k') == Get(d, k') {
      SameKeysIndexOf(d, r, k');
    }
    SameKeysIndexOf(d, r, k);
  }

  /** A Python `defaultdict` read `d[k]`: returns the stored value, inserting
      `default` first when `k` is absent. The read never changes a value that
      is already stored. */
  function Touch<K(==,!new), V>(d: Dict<K, V>, k: K, default: V): (r: (Dict<K, V>, V))
    ensures Get(r.0, k) == Some(r.1)
    ensures k in Keys(d) ==> r.0 == d && Get(d, k) == Some(r.1)
    ensures k !in Keys(d) ==> r.0 == d + [(k, default)] && r.1 == default
    ensures forall k' :: k' != k ==> Get(r.0, k') == Get(d, k')
    ensures Wf(d) ==> Wf(r.0)
  {
    match Get(d, k)
    case Some(x) => (d, x)
    case None => (Put(d, k, default), default)
  }

  /** In a well-formed dictionary every entry is what `Get` finds for its key. */
  lemma GetEntry<K, V>(d: Dict<K, V>, i: nat)
    requires Wf(d) && i < |d|
    ensures Get(d, d[i].0) == Some(d[i].1)
  {
    var j := IndexOf(d, d[i].0).value;
    assert j == i;
  }

  lemma {:induction false} PrefixIndexOf<K, V>(d: Dict<K, V>, e: Dict<K, V>, k: K)
    requires k in Keys(d) || k !in Keys(e)
    ensures IndexOf(d + e, k) == IndexOf(d, k)
    decreases |d|
  {
    if |d| > 0 {
      assert (d + e)[1..] == d[1..] + e;
      if d[0].0 != k {
        assert Keys(d) == [d[0].0] + Keys(d[1..]);
        PrefixIndexOf(d[1..], e, k);
      }
    } else {
      assert d + e == e;
    }
  }

  /** The position of a key depends only on the key sequence. */
  lemma {:induction false} SameKeysIndexOf<K, V>(d: Dict<K, V>, e: Dict<K, V>, k: K)
    requires Keys(d) == Keys(e)
    ensures IndexOf(d, k) == IndexOf(e, k)
    decreases |d|
  {
    if |d| > 0 {
      assert d[0].0 == Keys(d)[0] == Keys(e)[0] == e[0].0;
      assert Keys(d[1..]) == Keys(d)[1..] == Keys(e)[1..] == Keys(e[1..]);
      SameKeysIndexOf(d[1..], e[1..], k);
    }
  }

  /** The keys of two dictionaries laid end to end. */
  lemma KeysAppend<K, V>(d: Dict<K, V>, e: Dict<K, V>)
    ensures Keys(d + e) == Keys(d) + Keys(e)
  {
  }

  /** The first entry with key `k` is where `IndexOf` finds it. */
  lemma IndexOfFirst<K, V>(d: Dict<K, V>, k: K, i: nat)
    requires i < |d| && d[i].0 == k
    requires forall j :: 0 <= j < i ==> d[j].0 != k
    ensures IndexOf(d, k) == Some(i)
    ensures Get(d, k) == Some(d[i].1)
  {
    assert Keys(d)[i] == k;
  }
}

=== FILE: evolution.dfy ===
/** The generation loop of the genetic optimizer: evaluate the initial
    population, then for each generation record the best and the mean
    fitness, keep the best individual unchanged (elitism) and breed the rest
    of the next population by tournament selection, crossover and mutation.

    The fitness function is a parameter `fit`; the model assumes it is a
    pure function of the genes. The draws for the `i`-th child bred in
    generation `g` (the one after the elite and `i` earlier children) are
    `draws.child(g, i)`. */
module Evolution {
  import opened Wrappers
  import opened Dicts
  import Maxima
  import opened Genetic

  /** The constructor arguments of `GeneticAlgorithm`. */
  datatype Config = Config(populationSize: int, generations: int, mutationRate: real, crossoverRate: real)

  /** `best_fitness_history` and `avg_fitness_history`: they belong to the
      optimizer object and are never cleared, so they accumulate across runs. */
  datatype Stats = Stats(best: seq<real>, avg: seq<real>)

  datatype GA = GA(config: Config, stats: Stats)

  function NewGA(populationSize: int, generations: int, mutationRate: real, crossoverRate: real): GA
  {
    GA(Config(populationSize, generations, mutationRate, crossoverRate), Stats([], []))
  }

  /** `GeneticAlgorithm()` with its default arguments. */
  function DefaultGA(): GA
  {
    NewGA(50, 100, 0.1, 0.8)
  }

  /** The tournament size `evolve` uses (the default of `selection`). */
  const TournamentSize := 3

  /** The draws made while breeding one child: the crossover roll, the two
      tournaments, the per-key parent choices, the mutation roll and the
      Gaussian noise. Without crossover only `first` is used. */
  datatype ChildDraws = ChildDraws(
    crossRoll: real,
    first: nat -> nat,
    second: nat -> nat,
    genePicks: nat -> nat,
    mutationRoll: real,
    noise: (string, real) -> real)

  /** All draws of a run: the template choices of `create_population`, and
      the child draws per (generation, child). */
  datatype Draws = Draws(templatePicks: nat -> nat, child: (nat, nat) -> ChildDraws)

  /** How many individuals `create_population` makes. */
  function PopSize(config: Config): nat
  {
    if config.populationSize < 0 then 0 else config.populationSize
  }

  function Fitnesses(pop: seq<Individual>): (fs: seq<real>)
    ensures |fs| == |pop|
    ensures forall i :: 0 <= i < |pop| ==> fs[i] == pop[i].fitness
  {
    seq(|pop|, i requires 0 <= i < |pop| => pop[i].fitness)
  }

  /** `max(fitnesses)`. */
  function Best(pop: seq<Individual>): (b: real)
    requires |pop| > 0
    ensures exists i :: 0 <= i < |pop| && pop[i].fitness == b
    ensures forall i :: 0 <= i < |pop| ==> pop[i].fitness <= b
  {
    var fs := Fitnesses(pop);
    var b := Maxima.MaxValue(fs);
    assert exists i :: 0 <= i < |pop| && pop[i].fitness == b by {
      var i :| 0 <= i < |fs| && fs[i] == b;
      assert pop[i].fitness == b;
    }
    b
  }

  function Sum(xs: seq<real>): real
    decreases |xs|
  {
    if |xs| == 0 then 0.0 else Sum(xs[..|xs| - 1]) + xs[|xs| - 1]
  }

  /** `np.mean(xs)`. */
  function Mean(xs: seq<real>): real
    requires |xs| > 0
  {
    Sum(xs) / (|xs| as real)
  }

  /** `n·lo <= Sum(xs) <= n·hi` for `n` values. */
  predicate SumWithin(xs: seq<real>, lo: real, hi: real)
  {
    (|xs| as real) * lo <= Sum(xs) <= (|xs| as real) * hi
  }

  lemma {:induction false} SumBounds(xs: seq<real>, lo: real, hi: real)
    requires forall i :: 0 <= i < |xs| ==> lo <= xs[i] <= hi
    ensures SumWithin(xs, lo, hi)
    decreases |xs|
  {
    if |xs| > 0 {
      var n := |xs| - 1;
      SumBounds(xs[..n], lo, hi);
      assert (n as real + 1.0) * lo == (n as real) * lo + lo;
      assert (n as real + 1.0) * hi == (n as real) * hi + hi;
    }
  }

  /** The mean lies between the smallest and the largest value. */
  lemma MeanBetween(xs: seq<real>)
    requires |xs| > 0
    ensures Maxima.MinValue(xs) <= Mean(xs) <= Maxima.MaxValue(xs)
  {
    SumBounds(xs, Maxima.MinValue(xs), Maxima.MaxValue(xs));
    MeanWithin(xs, Maxima.MinValue(xs), Maxima.MaxValue(xs));
  }

  lemma MeanWithin(xs: seq<real>, lo: real, hi: real)
    requires |xs| > 0 && SumWithin(xs, lo, hi)
    ensures lo <= Mean(xs) <= hi
  {
    var n := |xs| as real;
    var m := Sum(xs) / n;
    assert Sum(xs) == n * m;
  }

  /** Every individual's fitness is its genes' value under `fit`. */
  ghost predicate Evaluated(pop: seq<Individual>, fit: Genome -> real)
  {
    forall i :: 0 <= i < |pop| ==> pop[i].fitness == fit(pop[i].genes)
  }

  /** `evaluate_fitness(individual, fitness_function)`. */
  function Evaluate(ind: Individual, fit: Genome -> real): (r: Individual)
    ensures r.genes == ind.genes && r.fitness == fit(ind.genes)
  {
    Individual(ind.genes, fit(ind.genes))
  }

  /** One pass of the breeding loop's body: a crossover child of two
      tournament winners when the roll is below the crossover rate, otherwise
      a copy of one winner; then mutation and evaluation. Fails when the
      population is too small for a tournament, or when the mutation fires
      and asks for a Gaussian draw with a negative scale. */
  function Breed(config: Config, pop: seq<Individual>, fit: Genome -> real,
                 params: MutationParams, d: ChildDraws): (r: Result<Individual>)
    ensures |pop| < TournamentSize ==> r == Err(SampleTooLarge)
    ensures |pop| >= TournamentSize ==>
              var m := Mutate(Parent(config, pop, d).value, params, config.mutationRate, d.mutationRoll, d.noise);
              && (m.Err? ==> r == Err(NegativeScale))
              && (m.Ok? ==> r == Ok(Evaluate(m.value, fit)))
    ensures r.Err? ==> r.error == if |pop| < TournamentSize then SampleTooLarge else NegativeScale
    ensures r.Ok? ==> r.value.fitness == fit(r.value.genes)
    ensures StdsValid(params) ==> (r.Ok? <==> |pop| >= TournamentSize)
  {
    var child := Parent(config, pop, d);
    if child.Err? then Err(child.error)
    else
      ValidStdsNeverRaise(child.value.genes, params);
      var m := Mutate(child.value, params, config.mutationRate, d.mutationRoll, d.noise);
      if m.Err? then Err(m.error)
      else Ok(Evaluate(m.value, fit))
  }

  /** The child before mutation: a crossover child of the winners of the
      `first` and `second` tournaments when the roll is below the crossover
      rate, otherwise the winner of the `first` tournament itself. */
  function Parent(config: Config, pop: seq<Individual>, d: ChildDraws): (r: Result<Individual>)
    ensures r.Ok? <==> |pop| >= TournamentSize
    ensures r.Err? ==> r.error == SampleTooLarge
    ensures r.Ok? ==>
              var w1 := Selection(pop, TournamentSize, d.first).value;
              r.value == if d.crossRoll < config.crossoverRate
                         then Crossover(w1, Selection(pop, TournamentSize, d.second).value, d.genePicks)
                         else w1
  {
    var p1 := Selection(pop, TournamentSize, d.first);
    if p1.Err? then Err(p1.error)
    else if d.crossRoll < config.crossoverRate then
      // the second tournament draws from the same population, so it
      // cannot fail once the first has succeeded
      var p2 := Selection(pop, TournamentSize, d.second);
      Ok(Crossover(p1.value, p2.value, d.genePicks))
    else Ok(p1.value)
  }

  /** The breeding steps of generation `gen`: child `i` fills slot `i + 1`,
      after the elite in slot 0, and is bred from that slot's draws. */
  function Breeding(config: Config, pop: seq<Individual>, count: nat, gen: nat,
                    fit: Genome -> real, params: MutationParams, draws: Draws): (steps: seq<Result<Individual>>)
    ensures |steps| == count
    ensures forall i :: 0 <= i < count ==> steps[i] == Breed(config, pop, fit, params, draws.child(gen, i))
  {
    seq(count, i requires 0 <= i < count => Breed(config, pop, fit, params, draws.child(gen, i)))
  }

  /** The breeding loop: `count` children, bred one after the other; the
      first failure ends the loop. */
  function Offspring(config: Config, pop: seq<Individual>, count: nat, gen: nat,
                     fit: Genome -> real, params: MutationParams, draws: Draws): (r: Result<seq<Individual>>)
    ensures r.Ok? <==> forall i :: 0 <= i < count ==> Breed(config, pop, fit, params, draws.child(gen, i)).Ok?
    ensures count > 0 && |pop| < TournamentSize ==> r == Err(SampleTooLarge)
    ensures |pop| >= TournamentSize && r.Err? ==> r.error == NegativeScale
    ensures StdsValid(params) ==> (r.Ok? <==> count == 0 || |pop| >= TournamentSize)
    ensures r.Ok? ==> |r.value| == count && Evaluated(r.value, fit)
    ensures r.Ok? ==>
              forall i :: 0 <= i < count ==> Breed(config, pop, fit, params, draws.child(gen, i)) == Ok(r.value[i])
  {
    var r := Collect(Breeding(config, pop, count, gen, fit, params, draws));
    BreedingEvaluated(config, pop, count, gen, fit, params, draws, r);
    BreedingTooSmall(config, pop, count, gen, fit, params, draws, r);
    BreedingRaises(config, pop, count, gen, fit, params, draws, r);
    r
  }

  /** When every breeding step succeeds, every child is evaluated. */
  lemma BreedingEvaluated(config: Config, pop: seq<Individual>, count: nat, gen: nat,
                          fit: Genome -> real, params: MutationParams, draws: Draws, r: Result<seq<Individual>>)
    requires r == Collect(Breeding(config, pop, count, gen, fit, params, draws))
    ensures r.Ok? ==> Evaluated(r.value, fit)
  {
    if r.Ok? {
      forall i | 0 <= i < count ensures r.value[i].fitness == fit(r.value[i].genes) {
        assert Breed(config, pop, fit, params, draws.child(gen, i)) == Ok(r.value[i]);
      }
    }
  }

  /** A population too small for a tournament fails at the first step. */
  lemma BreedingTooSmall(config: Config, pop: seq<Individual>, count: nat, gen: nat,
                         fit: Genome -> real, params: MutationParams, draws: Draws, r: Result<seq<Individual>>)
    requires r == Collect(Breeding(config, pop, count, gen, fit, params, draws))
    ensures count > 0 && |pop| < TournamentSize ==> r == Err(SampleTooLarge)
  {
    var steps := Breeding(config, pop, count, gen, fit, params, draws);
    if count > 0 && |pop| < TournamentSize {
      assert steps[0] == Err(SampleTooLarge);
      var i :| 0 <= i < count && steps[i] == Err(r.error) && forall j :: 0 <= j < i ==> steps[j].Ok?;
      assert i == 0;
    }
  }

  /** Once the tournaments can be held, only the mutation can fail. */
  lemma BreedingRaises(config: Config, pop: seq<Individual>, count: nat, gen: nat,
                       fit: Genome -> real, params: MutationParams, draws: Draws, r: Result<seq<Individual>>)
    requires r == Collect(Breeding(config, pop, count, gen, fit, params, draws))
    ensures |pop| >= TournamentSize && r.Err? ==> r.error == NegativeScale
  {
    var steps := Breeding(config, pop, count, gen, fit, params, draws);
    if |pop| >= TournamentSize && r.Err? {
      var i :| 0 <= i < count && steps[i] == Err(r.error) && forall j :: 0 <= j < i ==> steps[j].Ok?;
      assert Breed(config, pop, fit, params, draws.child(gen, i)) == Err(r.error);
    }
  }

  /** The individual `max(population, key=fitness)` returns. */
  function Fittest(pop: seq<Individual>): (w: Individual)
    requires |pop| > 0
    ensures w in pop && w.fitness == Best(pop)
  {
    var i := Maxima.FirstMax(pop, Fitness);
    assert forall j :: 0 <= j < |pop| ==> pop[j].fitness <= pop[i].fitness by {
      forall j | 0 <= j < |pop| ensures pop[j].fitness <= pop[i].fitness {
        assert Fitness(pop[j]) <= Fitness(pop[i]);
      }
    }
    pop[i]
  }

  /** One generation: record the statistics, keep the elite, breed the rest
      up to the population size. The statistics are recorded before any
      breeding, so they stay recorded when breeding fails. */
  function Generation(config: Config, stats: Stats, pop: seq<Individual>, gen: nat,
                      fit: Genome -> real, params: MutationParams, draws: Draws): (r: (Stats, Result<seq<Individual>>))
    requires |pop| == PopSize(config)
    ensures |pop| == 0 ==> r == (stats, Err(EmptyMax))
    ensures |pop| > 0 ==> r.0 == Stats(stats.best + [Best(pop)], stats.avg + [Mean(Fitnesses(pop))])
    ensures r.1.Ok? ==> |pop| == 1 || |pop| >= TournamentSize
    ensures |pop| == 2 ==> r.1 == Err(SampleTooLarge)
    ensures (|pop| == 1 || |pop| >= TournamentSize) && r.1.Err? ==> r.1.error == NegativeScale
    ensures StdsValid(params) ==> (r.1.Ok? <==> |pop| == 1 || |pop| >= TournamentSize)
    ensures r.1.Ok? ==> |r.1.value| == |pop|
    ensures r.1.Ok? ==> r.1.value[0] in pop && r.1.value[0].fitness == Best(pop)
    ensures r.1.Ok? && Evaluated(pop, fit) ==> Evaluated(r.1.value, fit)
  {
    if |pop| == 0 then (stats, Err(EmptyMax))
    else
      var recorded := Stats(stats.best + [Best(pop)], stats.avg + [Mean(Fitnesses(pop))]);
      var elite := Fittest(pop);
      var children := Offspring(config, pop, |pop| - 1, gen, fit, params, draws);
      if children.Err? then (recorded, Err(children.error))
      else
        var next := [elite] + children.value;
        EliteAndChildren(pop, elite, children.value, fit);
        (recorded, Ok(next[..config.populationSize]))
  }

  lemma EliteAndChildren(pop: seq<Individual>, elite: Individual, children: seq<Individual>, fit: Genome -> real)
    requires elite in pop && Evaluated(children, fit)
    ensures Evaluated(pop, fit) ==> Evaluated([elite] + children, fit)
  {
    var next := [elite] + children;
    if Evaluated(pop, fit) {
      forall j | 0 <= j < |next| ensures next[j].fitness == fit(next[j].genes) {
        if j > 0 {
          assert next[j] == children[j - 1];
        }
      }
    }
  }

  /** From position `from` on, `best` never decreases and stays at or
      below `top`. */
  ghost predicate Rising(best: seq<real>, from: nat, top: real)
  {
    && from <= |best|
    && (forall i :: from <= i < |best| ==> best[i] <= top)
    && (forall i, j :: from <= i < j < |best| ==> best[i] <= best[j])
  }

  /** From position `from` on, `best` stays at or above `low`. */
  ghost predicate AtLeast(best: seq<real>, from: nat, low: real)
  {
    forall i :: from <= i < |best| ==> low <= best[i]
  }

  lemma RisingStep(best: seq<real>, from: nat, b: real, next: real, top: real)
    requires from < |best| && best[from] == b && b <= next && b <= top
    requires Rising(best, from + 1, top) && AtLeast(best, from + 1, next)
    ensures Rising(best, from, top) && AtLeast(best, from, b)
  {
  }

  lemma RecordedFirst(before: seq<real>, recorded: seq<real>, after: seq<real>, b: real)
    requires recorded == before + [b] && recorded <= after
    ensures |before| < |after| && after[|before|] == b
  {
    assert after[|before|] == recorded[|before|];
  }

  /** Generations `gen`, `gen + 1`, ... up to `config.generations`. */
  function Run(config: Config, stats: Stats, pop: seq<Individual>, gen: nat,
               fit: Genome -> real, params: MutationParams, draws: Draws): (r: (Stats, Result<seq<Individual>>))
    requires |pop| == PopSize(config)
    ensures stats.best <= r.0.best && stats.avg <= r.0.avg
    ensures |r.0.best| - |stats.best| == |r.0.avg| - |stats.avg| <= Remaining(config, gen)
    ensures r.1.Ok? ==> Remaining(config, gen) == 0 || |pop| == 1 || |pop| >= TournamentSize
    ensures StdsValid(params) ==> (r.1.Ok? <==> Remaining(config, gen) == 0 || |pop| == 1 || |pop| >= TournamentSize)
    ensures r.1.Err? ==> r.1.error == NegativeScale || (Remaining(config, gen) > 0 && (|pop| == 0 || |pop| == 2))
    ensures r.1 == Err(NegativeScale) ==> !StdsValid(params)
    ensures r.1.Ok? ==> |r.1.value| == |pop| && |r.0.best| == |stats.best| + Remaining(config, gen)
    ensures r.1.Ok? && Evaluated(pop, fit) ==> Evaluated(r.1.value, fit)
    ensures r.1.Ok? && |pop| > 0 ==>
              && Best(pop) <= Best(r.1.value)
              && Rising(r.0.best, |stats.best|, Best(r.1.value))
              && AtLeast(r.0.best, |stats.best|, Best(pop))
    ensures |pop| == 0 && Remaining(config, gen) > 0 ==> r == (stats, Err(EmptyMax))
    ensures |pop| == 2 && Remaining(config, gen) > 0 ==>
              |r.0.best| == |stats.best| + 1 && r.1 == Err(SampleTooLarge)
    decreases Remaining(config, gen)
  {
    if gen >= config.generations then (stats, Ok(pop))
    else
      var step := Generation(config, stats, pop, gen, fit, params, draws);
      if step.1.Err? then step
      else
        var r := Run(config, step.0, step.1.value, gen + 1, fit, params, draws);
        RunStep(config, stats, pop, gen, fit, params, draws, step, r);
        r
  }

  /** A generation that succeeds followed by the remaining ones meets the
      contract of `Run` from generation `gen` on. */
  lemma RunStep(config: Config, stats: Stats, pop: seq<Individual>, gen: nat,
                fit: Genome -> real, params: MutationParams, draws: Draws,
                step: (Stats, Result<seq<Individual>>), r: (Stats, Result<seq<Individual>>))
    requires |pop| == PopSize(config) && gen < config.generations
    requires step == Generation(config, stats, pop, gen, fit, params, draws) && step.1.Ok?
    requires step.0.best <= r.0.best && step.0.avg <= r.0.avg
    requires |r.0.best| - |step.0.best| == |r.0.avg| - |step.0.avg| <= Remaining(config, gen + 1)
    requires r.1.Ok? ==> Remaining(config, gen + 1) == 0 || |pop| == 1 || |pop| >= TournamentSize
    requires StdsValid(params) ==> (r.1.Ok? <==> Remaining(config, gen + 1) == 0 || |pop| == 1 || |pop| >= TournamentSize)
    requires r.1.Err? ==> r.1.error == NegativeScale || (Remaining(config, gen + 1) > 0 && (|pop| == 0 || |pop| == 2))
    requires r.1 == Err(NegativeScale) ==> !StdsValid(params)
    requires r.1.Ok? ==> |r.1.value| == |pop| && |r.0.best| == |step.0.best| + Remaining(config, gen + 1)
    requires r.1.Ok? && Evaluated(step.1.value, fit) ==> Evaluated(r.1.value, fit)
    requires r.1.Ok? ==>
               && Best(step.1.value) <= Best(r.1.value)
               && Rising(r.0.best, |step.0.best|, Best(r.1.value))
               && AtLeast(r.0.best, |step.0.best|, Best(step.1.value))
    ensures stats.best <= r.0.best && stats.avg <= r.0.avg
    ensures |r.0.best| - |stats.best| == |r.0.avg| - |stats.avg| <= Remaining(config, gen)
    ensures r.1.Ok? ==> Remaining(config, gen) == 0 || |pop| == 1 || |pop| >= TournamentSize
    ensures StdsValid(params) ==> (r.1.Ok? <==> Remaining(config, gen) == 0 || |pop| == 1 || |pop| >= TournamentSize)
    ensures r.1.Err? ==> r.1.error == NegativeScale || (Remaining(config, gen) > 0 && (|pop| == 0 || |pop| == 2))
    ensures r.1 == Err(NegativeScale) ==> !StdsValid(params)
    ensures r.1.Ok? ==> |r.1.value| == |pop| && |r.0.best| == |stats.best| + Remaining(config, gen)
    ensures r.1.Ok? && Evaluated(pop, fit) ==> Evaluated(r.1.value, fit)
    ensures r.1.Ok? && |pop| > 0 ==>
              && Best(pop) <= Best(r.1.value)
              && Rising(r.0.best, |stats.best|, Best(r.1.value))
              && AtLeast(r.0.best, |stats.best|, Best(pop))
  {
    var next := step.1.value;
    assert Best(pop) <= Best(next) by {
      assert next[0].fitness == Best(pop);
    }
    if r.1.Ok? {
      RecordedFirst(stats.best, step.0.best, r.0.best, Best(pop));
      RisingStep(r.0.best, |stats.best|, Best(pop), Best(next), Best(r.1.value));
    }
  }

  /** How many generations are left from `gen` on. */
  function Remaining(config: Config, gen: nat): nat
  {
    if gen >= config.generations then 0 else config.generations - gen
  }

  /** `evolve(gene_templates, fitness_function, mutation_params)`. */
  function Evolve(ga: GA, templates: seq<Genome>, fit: Genome -> real,
                  params: Option<MutationParams>, draws: Draws): (r: (GA, Result<Individual>))
    ensures r.0.config == ga.config
    ensures ga.stats.best <= r.0.stats.best && ga.stats.avg <= r.0.stats.avg
    ensures |r.0.stats.best| - |ga.stats.best| == |r.0.stats.avg| - |ga.stats.avg|
    ensures r.1.Ok? ==>
              ga.config.populationSize >= 1 && templates != []
              && (ga.config.populationSize != 2 || ga.config.generations <= 0)
    ensures StdsValid(MutationParamsOf(params)) ==>
              (r.1.Ok? <==>
                 ga.config.populationSize >= 1 && templates != []
                 && (ga.config.populationSize != 2 || ga.config.generations <= 0))
    ensures r.1.Err? && ga.config.populationSize >= 1 && templates != []
              && (ga.config.populationSize != 2 || ga.config.generations <= 0) ==>
              r.1.error == NegativeScale && !StdsValid(MutationParamsOf(params))
    ensures ga.config.populationSize == 2 && templates != [] && ga.config.generations > 0 ==>
              r.1 == Err(SampleTooLarge)
    ensures r.1.Ok? ==> r.1.value.fitness == fit(r.1.value.genes)
    ensures r.1.Ok? ==> |r.0.stats.best| == |ga.stats.best| + Remaining(ga.config, 0)
    ensures r.1.Ok? ==> Rising(r.0.stats.best, |ga.stats.best|, r.1.value.fitness)
    ensures ga.config.populationSize <= 0 ==> r == (ga, Err(EmptyMax))
    ensures ga.config.populationSize >= 1 && templates == [] ==> r == (ga, Err(EmptyChoice))
    ensures r.1.Ok? <==>
              FinalPopulation(ga, templates, fit, params, draws).Ok?
              && |FinalPopulation(ga, templates, fit, params, draws).value| > 0
    ensures FinalPopulation(ga, templates, fit, params, draws).Err? ==>
              r.1 == Err(FinalPopulation(ga, templates, fit, params, draws).error)
    ensures r.1.Ok? ==>
              r.1.value == FinalPopulation(ga, templates, fit, params, draws).value[
                             Maxima.FirstMax(FinalPopulation(ga, templates, fit, params, draws).value, Fitness)]
    ensures r.1.Ok? ==>
              && r.1.value in FinalPopulation(ga, templates, fit, params, draws).value
              && forall x :: x in FinalPopulation(ga, templates, fit, params, draws).value ==>
                   x.fitness <= r.1.value.fitness
  {
    var config := ga.config;
    var mutationParams := MutationParamsOf(params);
    var created := CreatePopulation(config.populationSize, templates, draws.templatePicks);
    if created.Err? then
      assert FinalPopulation(ga, templates, fit, params, draws) == Err(created.error);
      (ga, Err(created.error))
    else
      var pop := EvaluateAll(created.value, fit);
      var run := Run(config, ga.stats, pop, 0, fit, mutationParams, draws);
      assert run.1 == FinalPopulation(ga, templates, fit, params, draws);
      var after := GA(config, run.0);
      if run.1.Err? then (after, Err(run.1.error))
      else if |run.1.value| == 0 then (after, Err(EmptyMax))
      else
        var winner := Fittest(run.1.value);
        FittestEvaluated(run.1.value, fit);
        (after, Ok(winner))
  }

  /** The population `evolve` ends with: the created and evaluated
      initial population, run through every generation. */
  function FinalPopulation(ga: GA, templates: seq<Genome>, fit: Genome -> real,
                           params: Option<MutationParams>, draws: Draws): Result<seq<Individual>>
  {
    var created := CreatePopulation(ga.config.populationSize, templates, draws.templatePicks);
    if created.Err? then Err(created.error)
    else Run(ga.config, ga.stats, EvaluateAll(created.value, fit), 0, fit, MutationParamsOf(params), draws).1
  }

  /** `mutation_params`, with `None` read as `{}`. */
  function MutationParamsOf(params: Option<MutationParams>): MutationParams
  {
    if params.None? then [] else params.value
  }

  /** The evaluation loop over the initial population. */
  function EvaluateAll(pop: seq<Individual>, fit: Genome -> real): (r: seq<Individual>)
    ensures |r| == |pop| && Evaluated(r, fit)
    ensures forall i :: 0 <= i < |pop| ==> r[i].genes == pop[i].genes
  {
    seq(|pop|, i requires 0 <= i < |pop| => Evaluate(pop[i], fit))
  }

  lemma FittestEvaluated(pop: seq<Individual>, fit: Genome -> real)
    requires |pop| > 0 && Evaluated(pop, fit)
    ensures Fittest(pop).fitness == fit(Fittest(pop).genes)
  {
    var i :| 0 <= i < |pop| && pop[i] == Fittest(pop);
  }

  /** `get_statistics()`. */
  function GetStatistics(ga: GA): Stats
  {
    ga.stats
  }
}

/** `AlgorithmOptimizer`: one genetic run seeded with a single template, the
    initial parameters. The optimizer keeps its `GeneticAlgorithm`, so the
    statistics of successive runs accumulate. */
module Optimizer {
  import opened Wrappers
  import opened Dicts
  import opened Genetic
  import opened Evolution

  /** `GeneticAlgorithm(population_size=50, generations=100)`. */
  const OptimizerConfig := Config(50, 100, 0.1, 0.8)

  datatype AlgorithmOptimizer = AlgorithmOptimizer(algorithmName: string, initialParams: Genome, stats: Stats)

  function NewOptimizer(algorithmName: string, initialParams: Genome): AlgorithmOptimizer
  {
    AlgorithmOptimizer(algorithmName, initialParams, Stats([], []))
  }

  /** The dictionary `optimize` returns. */
  datatype OptimizeResult = OptimizeResult(algorithm: string, optimizedParameters: Genome, fitness: real, statistics: Stats)

  /** `optimize(fitness_function, mutation_params)`. The population of 50
      is large enough for tournaments of three, so it fails only when a
      mutation asks for a Gaussian draw with a negative scale; the
      generations recorded before that stay in the statistics. */
  function Optimize(opt: AlgorithmOptimizer, fit: Genome -> real, params: Option<MutationParams>,
                    draws: Draws): (r: (AlgorithmOptimizer, Result<OptimizeResult>))
    ensures r.0.algorithmName == opt.algorithmName && r.0.initialParams == opt.initialParams
    ensures opt.stats.best <= r.0.stats.best && opt.stats.avg <= r.0.stats.avg
    ensures |r.0.stats.best| - |opt.stats.best| == |r.0.stats.avg| - |opt.stats.avg|
    ensures r.1.Err? ==> r.1.error == NegativeScale && !StdsValid(MutationParamsOf(params))
    ensures StdsValid(MutationParamsOf(params)) ==> r.1.Ok?
    ensures r.1.Ok? ==>
              && r.1.value.algorithm == opt.algorithmName
              && r.1.value.fitness == fit(r.1.value.optimizedParameters)
              && r.1.value.statistics == r.0.stats
    ensures r.1.Ok? ==> |r.0.stats.best| == |opt.stats.best| + 100
    ensures r.1.Ok? ==> Rising(r.0.stats.best, |opt.stats.best|, r.1.value.fitness)
    ensures r.1.Ok? ==>
              && Evolve(GA(OptimizerConfig, opt.stats), [opt.initialParams], fit, params, draws).1.Ok?
              && r.1.value.optimizedParameters == Evolve(GA(OptimizerConfig, opt.stats), [opt.initialParams], fit, params, draws).1.value.genes
              && r.1.value.fitness == Evolve(GA(OptimizerConfig, opt.stats), [opt.initialParams], fit, params, draws).1.value.fitness
    ensures r.1.Ok? ==>
              && FinalPopulation(GA(OptimizerConfig, opt.stats), [opt.initialParams], fit, params, draws).Ok?
              && forall x :: x in FinalPopulation(GA(OptimizerConfig, opt.stats), [opt.initialParams], fit, params, draws).value ==>
                   x.fitness <= r.1.value.fitness
  {
    var ga := GA(OptimizerConfig, opt.stats);
    assert ga.config.populationSize == 50 && ga.config.generations == 100;
    assert Remaining(ga.config, 0) == 100;
    var run := Evolve(ga, [opt.initialParams], fit, params, draws);
    var after := opt.(stats := run.0.stats);
    if run.1.Err? then (after, Err(run.1.error))
    else
      var best := run.1.value;
      (after, Ok(OptimizeResult(opt.algorithmName, best.genes, best.fitness, run.0.stats)))
  }

  /** A gene the mutation never touches: no parameters for its key, or a
      value that is not a number. */
  predicate Frozen(e: (string, Gene), params: MutationParams)
  {
    e.0 !in Keys(params) || !IsNumeric(e.1)
  }

  /** `ind` has the keys of `initial` in the same order, the same kind of
      value at each key, and the initial value at each frozen key. */
  ghost predicate Conforms(ind: Individual, initial: Genome, params: MutationParams)
  {
    && |ind.genes| == |initial|
    && forall j :: 0 <= j < |initial| ==>
         && ind.genes[j].0 == initial[j].0
         && IsNumeric(ind.genes[j].1) == IsNumeric(initial[j].1)
         && (Frozen(initial[j], params) ==> ind.genes[j].1 == initial[j].1)
  }

  ghost predicate AllConform(pop: seq<Individual>, initial: Genome, params: MutationParams)
  {
    forall x :: x in pop ==> Conforms(x, initial, params)
  }

  lemma SameKeysAsInitial(ind: Individual, initial: Genome, params: MutationParams)
    requires Wf(initial) && Conforms(ind, initial, params)
    ensures Keys(ind.genes) == Keys(initial) && Wf(ind.genes)
  {
  }

  /** A crossover child of two conforming parents conforms: both parents
      have the same keys, so the child has them too, and at every position
      it takes one of the parents' values. */
  lemma CrossoverConforms(p1: Individual, p2: Individual, picks: nat -> nat, initial: Genome, params: MutationParams)
    requires Wf(initial) && Conforms(p1, initial, params) && Conforms(p2, initial, params)
    ensures Conforms(Crossover(p1, p2, picks), initial, params)
  {
    var child := Crossover(p1, p2, picks).genes;
    SameKeysAsInitial(p1, initial, params);
    SameKeysAsInitial(p2, initial, params);
    CommonOfSameKeys(Keys(p1.genes), p2.genes);
    forall j | 0 <= j < |initial|
      ensures child[j] == p1.genes[j] || child[j] == p2.genes[j]
    {
      EntryFromParents(child, p1.genes, p2.genes, j);
    }
  }

  /** In a child with its parents' keys, each entry is one of the parents'
      entries at the same position. */
  lemma EntryFromParents(child: Genome, g1: Genome, g2: Genome, j: nat)
    requires Keys(child) == Keys(g1) && Keys(g2) == Keys(g1) && Wf(g1) && Wf(g2)
    requires j < |child|
    requires child[j] in g1 || Get(g2, child[j].0) == Some(child[j].1)
    ensures child[j] == g1[j] || child[j] == g2[j]
  {
    assert child[j].0 == Keys(g1)[j] == g1[j].0 == Keys(g2)[j] == g2[j].0;
    if child[j] in g1 {
      var m :| 0 <= m < |g1| && g1[m] == child[j];
      assert g1[m].0 == g1[j].0;
    } else {
      GetEntry(g2, j);
    }
  }

  lemma MutateConforms(ind: Individual, params: MutationParams, rate: real, roll: real,
                       noise: (string, real) -> real, initial: Genome)
    requires Conforms(ind, initial, params)
    ensures Mutate(ind, params, rate, roll, noise).Ok? ==>
              Conforms(Mutate(ind, params, rate, roll, noise).value, initial, params)
  {
    var m := Mutate(ind, params, rate, roll, noise);
    if m.Ok? {
      forall j | 0 <= j < |initial|
        ensures m.value.genes[j].0 == initial[j].0
        ensures IsNumeric(m.value.genes[j].1) == IsNumeric(initial[j].1)
        ensures Frozen(initial[j], params) ==> m.value.genes[j].1 == initial[j].1
      {
        assert Keys(m.value.genes)[j] == Keys(ind.genes)[j];
      }
    }
  }

  lemma BreedConforms(config: Config, pop: seq<Individual>, fit: Genome -> real, params: MutationParams,
                      d: ChildDraws, initial: Genome)
    requires Wf(initial) && AllConform(pop, initial, params)
    ensures Breed(config, pop, fit, params, d).Ok? ==>
              Conforms(Breed(config, pop, fit, params, d).value, initial, params)
  {
    var child := Parent(config, pop, d);
    if child.Ok? {
      ParentConforms(config, pop, d, initial, params);
      MutateConforms(child.value, params, config.mutationRate, d.mutationRoll, d.noise, initial);
    }
  }

  /** Whether the mutation raises depends only on the keys and on which
      values are numbers, so it is the same for every conforming
      individual. */
  lemma ConformsRaises(ind: Individual, initial: Genome, params: MutationParams)
    requires Conforms(ind, initial, params)
    ensures MutationRaises(ind.genes, params) == MutationRaises(initial, params)
  {
    if MutationRaises(ind.genes, params) {
      var j :| 0 <= j < |ind.genes| && ScaleFails(ind.genes[j], params);
      assert ScaleFails(initial[j], params);
    }
    if MutationRaises(initial, params) {
      var j :| 0 <= j < |initial| && ScaleFails(initial[j], params);
      assert ScaleFails(ind.genes[j], params);
    }
  }

  /** In a conforming population of at least three whose template does not
      make the mutation raise, every child is bred. */
  lemma BreedSucceeds(config: Config, pop: seq<Individual>, fit: Genome -> real, params: MutationParams,
                      d: ChildDraws, initial: Genome)
    requires Wf(initial) && AllConform(pop, initial, params) && |pop| >= TournamentSize
    requires !MutationRaises(initial, params)
    ensures Breed(config, pop, fit, params, d).Ok?
  {
    ParentConforms(config, pop, d, initial, params);
    ConformsRaises(Parent(config, pop, d).value, initial, params);
  }

  lemma GenerationSucceeds(config: Config, stats: Stats, pop: seq<Individual>, gen: nat,
                           fit: Genome -> real, params: MutationParams, draws: Draws, initial: Genome)
    requires |pop| == PopSize(config) && (|pop| == 1 || |pop| >= TournamentSize)
    requires Wf(initial) && AllConform(pop, initial, params) && !MutationRaises(initial, params)
    ensures Generation(config, stats, pop, gen, fit, params, draws).1.Ok?
  {
    forall i | 0 <= i < |pop| - 1 ensures Breed(config, pop, fit, params, draws.child(gen, i)).Ok? {
      BreedSucceeds(config, pop, fit, params, draws.child(gen, i), initial);
    }
    assert Offspring(config, pop, |pop| - 1, gen, fit, params, draws).Ok?;
  }

  /** Every generation of a conforming population succeeds when its
      template does not make the mutation raise. */
  lemma {:induction false} RunSucceeds(config: Config, stats: Stats, pop: seq<Individual>, gen: nat,
                                       fit: Genome -> real, params: MutationParams, draws: Draws, initial: Genome)
    requires |pop| == PopSize(config) && (|pop| == 1 || |pop| >= TournamentSize)
    requires Wf(initial) && AllConform(pop, initial, params) && !MutationRaises(initial, params)
    ensures Run(config, stats, pop, gen, fit, params, draws).1.Ok?
    decreases Remaining(config, gen)
  {
    if gen < config.generations {
      var step := Generation(config, stats, pop, gen, fit, params, draws);
      GenerationSucceeds(config, stats, pop, gen, fit, params, draws, initial);
      GenerationConforms(config, stats, pop, gen, fit, params, draws, initial);
      RunSucceeds(config, step.0, step.1.value, gen + 1, fit, params, draws, initial);
      assert Run(config, stats, pop, gen, fit, params, draws) == Run(config, step.0, step.1.value, gen + 1, fit, params, draws);
    }
  }

  lemma ParentConforms(config: Config, pop: seq<Individual>, d: ChildDraws, initial: Genome, params: MutationParams)
    requires Wf(initial) && AllConform(pop, initial, params)
    ensures Parent(config, pop, d).Ok? ==> Conforms(Parent(config, pop, d).value, initial, params)
  {
    var r := Parent(config, pop, d);
    if r.Ok? {
      var p1 := Selection(pop, TournamentSize, d.first).value;
      SelectedConforms(pop, d.first, initial, params);
      if d.crossRoll < config.crossoverRate {
        var p2 := Selection(pop, TournamentSize, d.second).value;
        SelectedConforms(pop, d.second, initial, params);
        CrossoverConforms(p1, p2, d.genePicks, initial, params);
        assert r.value == Crossover(p1, p2, d.genePicks);
      } else {
        assert r.value == p1;
      }
    }
  }

  /** A tournament winner is a member of the population. */
  lemma SelectedConforms(pop: seq<Individual>, below: nat -> nat, initial: Genome, params: MutationParams)
    requires AllConform(pop, initial, params) && |pop| >= TournamentSize
    ensures Conforms(Selection(pop, TournamentSize, below).value, initial, params)
  {
  }

  lemma OffspringConforms(config: Config, pop: seq<Individual>, count: nat, gen: nat,
                          fit: Genome -> real, params: MutationParams, draws: Draws, initial: Genome)
    requires Wf(initial) && AllConform(pop, initial, params)
    ensures Offspring(config, pop, count, gen, fit, params, draws).Ok? ==>
              AllConform(Offspring(config, pop, count, gen, fit, params, draws).value, initial, params)
  {
    var r := Offspring(config, pop, count, gen, fit, params, draws);
    if r.Ok? {
      forall x | x in r.value ensures Conforms(x, initial, params) {
        var i :| 0 <= i < count && r.value[i] == x;
        BreedConforms(config, pop, fit, params, draws.child(gen, i), initial);
        assert Breed(config, pop, fit, params, draws.child(gen, i)) == Ok(x);
      }
    }
  }

  lemma GenerationConforms(config: Config, stats: Stats, pop: seq<Individual>, gen: nat,
                           fit: Genome -> real, params: MutationParams, draws: Draws, initial: Genome)
    requires |pop| == PopSize(config)
    requires Wf(initial) && AllConform(pop, initial, params)
    ensures Generation(config, stats, pop, gen, fit, params, draws).1.Ok? ==>
              AllConform(Generation(config, stats, pop, gen, fit, params, draws).1.value, initial, params)
  {
    if |pop| > 0 {
      var elite := Fittest(pop);
      var children := Offspring(config, pop, |pop| - 1, gen, fit, params, draws);
      OffspringConforms(config, pop, |pop| - 1, gen, fit, params, draws, initial);
      if children.Ok? {
        EliteConforms(elite, children.value, config.populationSize, initial, params);
      }
    }
  }

  lemma EliteConforms(elite: Individual, children: seq<Individual>, n: int, initial: Genome, params: MutationParams)
    requires Conforms(elite, initial, params) && AllConform(children, initial, params)
    requires 0 <= n <= |children| + 1
    ensures AllConform(([elite] + children)[..n], initial, params)
  {
    var next := [elite] + children;
    forall x | x in next[..n] ensures Conforms(x, initial, params) {
      var i :| 0 <= i < n && next[i] == x;
      if i > 0 {
        assert x == children[i - 1];
      }
    }
  }

  lemma {:induction false} RunConforms(config: Config, stats: Stats, pop: seq<Individual>, gen: nat,
                                       fit: Genome -> real, params: MutationParams, draws: Draws, initial: Genome)
    requires |pop| == PopSize(config)
    requires Wf(initial) && AllConform(pop, initial, params)
    ensures Run(config, stats, pop, gen, fit, params, draws).1.Ok? ==>
              AllConform(Run(config, stats, pop, gen, fit, params, draws).1.value, initial, params)
    decreases Remaining(config, gen)
  {
    if gen < config.generations {
      var step := Generation(config, stats, pop, gen, fit, params, draws);
      GenerationConforms(config, stats, pop, gen, fit, params, draws, initial);
      if step.1.Ok? {
        RunConforms(config, step.0, step.1.value, gen + 1, fit, params, draws, initial);
        assert Run(config, stats, pop, gen, fit, params, draws) == Run(config, step.0, step.1.value, gen + 1, fit, params, draws);
      }
    }
  }

  /** The optimized parameters have exactly the keys of the initial
      parameters, in the same order; every key without mutation parameters,
      and every non-numeric value, keeps its initial value. */
  lemma OptimizeKeepsShape(opt: AlgorithmOptimizer, fit: Genome -> real, params: Option<MutationParams>, draws: Draws)
    requires Wf(opt.initialParams)
    ensures var r := Optimize(opt, fit, params, draws).1;
            r.Ok? ==>
              var result := r.value.optimizedParameters;
              && Keys(result) == Keys(opt.initialParams)
              && |result| == |opt.initialParams|
              && forall j :: 0 <= j < |result| && Frozen(opt.initialParams[j], MutationParamsOf(params)) ==>
                   result[j] == opt.initialParams[j]
  {
    var initial := opt.initialParams;
    var mp := MutationParamsOf(params);
    var run := Evolve(GA(OptimizerConfig, opt.stats), [initial], fit, params, draws);
    EvolveConforms(GA(OptimizerConfig, opt.stats), initial, fit, params, draws);
    if run.1.Ok? {
      SameKeysAsInitial(run.1.value, initial, mp);
    }
  }

  /** `optimize` succeeds whenever the initial parameters do not make the
      mutation raise: every individual has their keys and kinds of value. */
  lemma OptimizeSucceeds(opt: AlgorithmOptimizer, fit: Genome -> real, params: Option<MutationParams>, draws: Draws)
    requires Wf(opt.initialParams) && !MutationRaises(opt.initialParams, MutationParamsOf(params))
    ensures Optimize(opt, fit, params, draws).1.Ok?
  {
    var initial := opt.initialParams;
    var mp := MutationParamsOf(params);
    var created := CreatePopulation(OptimizerConfig.populationSize, [initial], draws.templatePicks);
    var pop := EvaluateAll(created.value, fit);
    InitialConforms(created.value, fit, initial, mp);
    RunSucceeds(OptimizerConfig, opt.stats, pop, 0, fit, mp, draws, initial);
  }

  /** Every individual of the first population is a copy of the template. */
  lemma InitialConforms(created: seq<Individual>, fit: Genome -> real, initial: Genome, mp: MutationParams)
    requires forall i :: 0 <= i < |created| ==> created[i].genes in [initial]
    ensures AllConform(EvaluateAll(created, fit), initial, mp)
  {
    var pop := EvaluateAll(created, fit);
    forall x | x in pop ensures Conforms(x, initial, mp) {
      var i :| 0 <= i < |pop| && pop[i] == x;
      assert x.genes == created[i].genes == initial;
    }
  }

  /** Evolving from a single template yields an individual shaped like it. */
  lemma EvolveConforms(ga: GA, initial: Genome, fit: Genome -> real, params: Option<MutationParams>, draws: Draws)
    requires Wf(initial)
    ensures var r := Evolve(ga, [initial], fit, params, draws);
            r.1.Ok? ==> Conforms(r.1.value, initial, MutationParamsOf(params))
  {
    var mp := MutationParamsOf(params);
    var created := CreatePopulation(ga.config.populationSize, [initial], draws.templatePicks);
    if created.Ok? {
      var pop := EvaluateAll(created.value, fit);
      InitialConforms(created.value, fit, initial, mp);
      RunConforms(ga.config, ga.stats, pop, 0, fit, mp, draws, initial);
    }
  }
}

=== FILE: genetic.dfy ===
/** The genetic operators: individuals, population creation, tournament
    selection, key-wise uniform crossover and clamped Gaussian mutation.

    Every random draw is a parameter: `pick` for `random.choice`, an oracle
    `below` for the `_randbelow` draws behind `random.sample`, `roll` for
    `random.random()` and an oracle `noise` for `np.random.normal`. The
    model says what holds for EVERY outcome of the draws. */
module Genetic {
  import opened Wrappers
  import opened Dicts
  import Maxima

  /** A gene value. Python's `bool` is a subclass of `int`, so a `Flag`
      counts as numeric for mutation; anything that is neither a number nor
      a flag is a `Text` (strings, lists, `None`, ...). */
  datatype Gene = Num(x: real) | Flag(b: bool) | Text(s: string)

  type Genome = Dict<string, Gene>

  /** `Individual(genes, fitness)`. */
  datatype Individual = Individual(genes: Genome, fitness: real)

  /** The message Python raises for `random.choice([])`. */
  const EmptyChoice := "Cannot choose from an empty sequence"
  /** The message Python raises for a `random.sample` larger than the population. */
  const SampleTooLarge := "Sample larger than population or is negative"
  /** The message Python raises for `max([])`. */
  const EmptyMax := "max() arg is an empty sequence"
  /** numpy's error for a normal draw with a negative scale. */
  const NegativeScale := "scale < 0"

  predicate IsNumeric(g: Gene)
  {
    g.Num? || g.Flag?
  }

  /** The number a numeric gene stands for (`True` is 1). */
  function NumericValue(g: Gene): real
    requires IsNumeric(g)
  {
    match g
    case Num(x) => x
    case Flag(b) => if b then 1.0 else 0.0
  }

  // ---------------------------------------------------------------------
  // create_population

  /** `create_population(gene_templates)`: `size` individuals, the i-th a
      copy of the template drawn by `pick(i)`, all with fitness 0. */
  function CreatePopulation(size: int, templates: seq<Genome>, pick: nat -> nat): (r: Result<seq<Individual>>)
    ensures r.Err? <==> size >= 1 && templates == []
    ensures r.Err? ==> r.error == EmptyChoice
    ensures r.Ok? ==> |r.value| == (if size < 0 then 0 else size)
    ensures r.Ok? ==> forall i :: 0 <= i < |r.value| ==> r.value[i].genes in templates && r.value[i].fitness == 0.0
  {
    if size <= 0 then Ok([])
    else if templates == [] then Err(EmptyChoice)
    else Ok(seq(size, i requires 0 <= i < size => Individual(templates[pick(i) % |templates|], 0.0)))
  }

  /** Every template can be the genome of any individual. */
  lemma EveryTemplateCanBeDrawn(size: int, templates: seq<Genome>, t: nat, i: nat)
    requires t < |templates| && i < size
    ensures CreatePopulation(size, templates, _ => t).Ok?
    ensures CreatePopulation(size, templates, _ => t).value[i].genes == templates[t]
  {
    assert t % |templates| == t;
  }

  // ---------------------------------------------------------------------
  // selection

  predicate Distinct(s: seq<nat>)
  {
    forall i, j :: 0 <= i < j < |s| ==> s[i] != s[j]
  }

  /** `[0, 1, ..., n-1]`. */
  function Range(n: nat): (r: seq<nat>)
    ensures |r| == n && Distinct(r)
    ensures forall i :: 0 <= i < n ==> r[i] == i
  {
    seq(n, i requires 0 <= i < n => i)
  }

  /** The pool after the pool method has taken position `j`: the last live
      entry moves into slot `j` and the live part shrinks by one. */
  function Remove(pool: seq<nat>, j: nat): (r: seq<nat>)
    requires j < |pool|
    ensures |r| == |pool| - 1
    ensures forall x :: x in r ==> x in pool
    ensures Distinct(pool) ==> Distinct(r) && pool[j] !in r
  {
    var last := |pool| - 1;
    var r := pool[j := pool[last]][..last];
    assert forall x :: x in r ==> x in pool by {
      forall x | x in r ensures x in pool {
        var i :| 0 <= i < |r| && r[i] == x;
        if i == j {
          assert x == pool[last];
        } else {
          assert x == pool[i];
        }
      }
    }
    assert Distinct(pool) ==> pool[j] !in r by {
      if Distinct(pool) {
        forall i | 0 <= i < |r| ensures r[i] != pool[j] {
          if i == j {
            assert r[i] == pool[last];
          } else {
            assert r[i] == pool[i];
          }
        }
      }
    }
    r
  }

  /** The pool method of `random.sample`: the i-th draw takes the position
      at `below(i) % |pool|` of the live pool. */
  function PoolDraw(pool: seq<nat>, k: nat, below: nat -> nat, i: nat): (r: seq<nat>)
    requires k <= |pool|
    ensures |r| == k
    ensures forall x :: x in r ==> x in pool
    ensures Distinct(pool) ==> Distinct(r)
    decreases k
  {
    if k == 0 then []
    else
      var j := below(i) % |pool|;
      var rest := PoolDraw(Remove(pool, j), k - 1, below, i + 1);
      var r := [pool[j]] + rest;
      assert forall x :: x in r ==> x in pool;
      assert Distinct(pool) ==> Distinct(r) by {
        if Distinct(pool) {
          assert pool[j] !in rest;
          forall a, b | 0 <= a < b < |r| ensures r[a] != r[b] {
            if a > 0 {
              assert r[a] == rest[a - 1] && r[b] == rest[b - 1];
            } else {
              assert r[b] in rest;
            }
          }
        }
      }
      r
  }

  /** The positions `random.sample(population, k)` takes from a population
      of `n`: `k` different positions below `n`. */
  function SamplePositions(n: nat, k: nat, below: nat -> nat): (ps: seq<nat>)
    requires k <= n
    ensures |ps| == k && Distinct(ps)
    ensures forall i :: 0 <= i < k ==> ps[i] < n
  {
    var ps := PoolDraw(Range(n), k, below, 0);
    assert forall i :: 0 <= i < k ==> ps[i] < n by {
      forall i | 0 <= i < k ensures ps[i] < n {
        assert ps[i] in Range(n);
      }
    }
    ps
  }

  /** The competitors of a tournament, in the order `random.sample` drew them. */
  function Tournament(pop: seq<Individual>, k: nat, below: nat -> nat): (t: seq<Individual>)
    requires k <= |pop|
    ensures |t| == k
    ensures forall x :: x in t ==> x in pop
  {
    var ps := SamplePositions(|pop|, k, below);
    seq(k, i requires 0 <= i < k => pop[ps[i]])
  }

  function Fitness(ind: Individual): real
  {
    ind.fitness
  }

  /** `selection(population, tournament_size)`: the fittest of a random
      sample, the first drawn among equals. A sample larger than the
      population, or a negative one, raises; an empty tournament makes
      `max` raise. */
  function Selection(pop: seq<Individual>, k: int, below: nat -> nat): (r: Result<Individual>)
    ensures r.Ok? <==> 0 < k <= |pop|
    ensures !(0 <= k <= |pop|) ==> r == Err(SampleTooLarge)
    ensures r.Ok? ==> r.value in Tournament(pop, k, below) && r.value in pop
    ensures r.Ok? ==> forall x :: x in Tournament(pop, k, below) ==> x.fitness <= r.value.fitness
    ensures r.Ok? ==>
              exists w :: 0 <= w < k && r.value == Tournament(pop, k, below)[w]
                && forall j :: 0 <= j < w ==> Tournament(pop, k, below)[j].fitness < r.value.fitness
  {
    if k < 0 || k > |pop| then Err(SampleTooLarge)
    else if k == 0 then Err(EmptyMax)
    else
      var t := Tournament(pop, k, below);
      var w := Maxima.FirstMax(t, Fitness);
      assert forall x :: x in t ==> x.fitness <= t[w].fitness by {
        forall x | x in t ensures x.fitness <= t[w].fitness {
          var i :| 0 <= i < |t| && t[i] == x;
          assert Fitness(t[i]) <= Fitness(t[w]);
        }
      }
      Ok(t[w])
  }

  /** When the tournament is the whole population the winner is the
      population's fittest. */
  lemma FullTournamentPicksFittest(pop: seq<Individual>, below: nat -> nat, x: Individual)
    requires |pop| > 0 && x in pop
    ensures Selection(pop, |pop|, below).Ok?
    ensures x.fitness <= Selection(pop, |pop|, below).value.fitness
  {
    var ps := SamplePositions(|pop|, |pop|, below);
    var t := Tournament(pop, |pop|, below);
    var i :| 0 <= i < |pop| && pop[i] == x;
    DistinctCovers(ps, |pop|, i);
    var j :| 0 <= j < |ps| && ps[j] == i;
    assert t[j] == x;
  }

  /** `n` different positions below `n` are all of them. */
  lemma DistinctCovers(ps: seq<nat>, n: nat, i: nat)
    requires |ps| == n && Distinct(ps) && forall j :: 0 <= j < n ==> ps[j] < n
    requires i < n
    ensures i in ps
  {
    var all := Image(Range(n));
    SizeOfImage(ps);
    SizeOfImage(Range(n));
    assert i in all by {
      assert Range(n)[i] == i;
    }
    if i !in ps {
      var rest := all - {i};
      forall x | x in Image(ps) ensures x in rest {
        var j :| 0 <= j < n && ps[j] == x;
        assert Range(n)[x] == x;
      }
      SubsetSize(Image(ps), rest);
    }
  }

  /** The set of values in `ps`. */
  function Image(ps: seq<nat>): set<nat>
  {
    set x | x in ps
  }

  lemma {:induction false} SubsetSize(a: set<nat>, b: set<nat>)
    requires a <= b
    ensures |a| <= |b|
    decreases |b|
  {
    if a != {} {
      var x :| x in a;
      SubsetSize(a - {x}, b - {x});
    }
  }

  lemma {:induction false} SizeOfImage(ps: seq<nat>)
    requires Distinct(ps)
    ensures |Image(ps)| == |ps|
    decreases |ps|
  {
    if |ps| > 0 {
      var init := ps[..|ps| - 1];
      var last := ps[|ps| - 1];
      assert Distinct(init);
      SizeOfImage(init);
      assert ps == init + [last];
      assert Image(ps) == Image(init) + {last};
      assert last !in Image(init);
    }
  }

  // ---------------------------------------------------------------------
  // crossover

  /** The keys of `ks` that `d` also has, in the order of `ks`. */
  function Common(ks: seq<string>, d: Genome): (r: seq<string>)
    ensures forall k :: k in r <==> k in ks && k in Keys(d)
    decreases |ks|
  {
    if |ks| == 0 then []
    else (if ks[0] in Keys(d) then [ks[0]] else []) + Common(ks[1..], d)
  }

  /** The child genome, from position `i` of `g1` on: each key of `g1` that
      `g2` also has gets the value of the parent `picks(i)` chooses. */
  function CrossGenes(g1: Genome, g2: Genome, picks: nat -> nat, i: nat): (child: Genome)
    ensures Keys(child) == Common(Keys(g1), g2)
    ensures forall j :: 0 <= j < |child| ==> child[j] in g1 || Get(g2, child[j].0) == Some(child[j].1)
    decreases |g1|
  {
    if |g1| == 0 then []
    else
      var k := g1[0].0;
      var rest := CrossGenes(g1[1..], g2, picks, i + 1);
      var here: Genome :=
        if k in Keys(g2) then [(k, if picks(i) % 2 == 0 then g1[0].1 else Get(g2, k).value)] else [];
      CrossStep(g1, g2, here, rest);
      here + rest
  }

  lemma CrossStep(g1: Genome, g2: Genome, here: Genome, rest: Genome)
    requires |g1| > 0
    requires g1[0].0 in Keys(g2) ==> |here| == 1 && here[0].0 == g1[0].0
                                     && (here[0] == g1[0] || Get(g2, g1[0].0) == Some(here[0].1))
    requires g1[0].0 !in Keys(g2) ==> here == []
    requires Keys(rest) == Common(Keys(g1[1..]), g2)
    requires forall j :: 0 <= j < |rest| ==> rest[j] in g1[1..] || Get(g2, rest[j].0) == Some(rest[j].1)
    ensures Keys(here + rest) == Common(Keys(g1), g2)
    ensures forall j :: 0 <= j < |here + rest| ==>
              (here + rest)[j] in g1 || Get(g2, (here + rest)[j].0) == Some((here + rest)[j].1)
  {
    CrossKeys(g1, g2, here, rest);
    assert g1 == [g1[0]] + g1[1..];
    FromEitherParent(g1, g2, here, rest);
  }

  lemma CrossKeys(g1: Genome, g2: Genome, here: Genome, rest: Genome)
    requires |g1| > 0
    requires g1[0].0 in Keys(g2) ==> |here| == 1 && here[0].0 == g1[0].0
    requires g1[0].0 !in Keys(g2) ==> here == []
    requires Keys(rest) == Common(Keys(g1[1..]), g2)
    ensures Keys(here + rest) == Common(Keys(g1), g2)
  {
    var ks := Keys(g1);
    assert ks[1..] == Keys(g1[1..]);
    assert Common(ks, g2) == (if ks[0] in Keys(g2) then [ks[0]] else []) + Common(ks[1..], g2);
    KeysAppend(here, rest);
    if g1[0].0 in Keys(g2) {
      assert Keys(here) == [ks[0]];
    } else {
      assert Keys(here) == [];
    }
  }

  /** Joining two runs of entries that each come from one of the parents. */
  lemma FromEitherParent(g1: Genome, g2: Genome, here: Genome, rest: Genome)
    requires forall j :: 0 <= j < |here| ==> here[j] in g1 || Get(g2, here[j].0) == Some(here[j].1)
    requires forall j :: 0 <= j < |rest| ==> rest[j] in g1 || Get(g2, rest[j].0) == Some(rest[j].1)
    ensures forall j :: 0 <= j < |here + rest| ==>
              (here + rest)[j] in g1 || Get(g2, (here + rest)[j].0) == Some((here + rest)[j].1)
  {
    forall j | 0 <= j < |here + rest|
      ensures (here + rest)[j] in g1 || Get(g2, (here + rest)[j].0) == Some((here + rest)[j].1)
    {
      if j >= |here| {
        assert (here + rest)[j] == rest[j - |here|];
      } else {
        assert (here + rest)[j] == here[j];
      }
    }
  }

  /** `crossover(parent1, parent2)`: `pick(i)` is the `random.choice` made
      for the i-th key of the first parent (0 takes the first parent's
      value). The child is not yet evaluated. */
  function Crossover(p1: Individual, p2: Individual, picks: nat -> nat): (child: Individual)
    ensures forall k :: k in Keys(child.genes) <==> k in Keys(p1.genes) && k in Keys(p2.genes)
    ensures Keys(child.genes) == Common(Keys(p1.genes), p2.genes)
    ensures forall j :: 0 <= j < |child.genes| ==>
              child.genes[j] in p1.genes || Get(p2.genes, child.genes[j].0) == Some(child.genes[j].1)
    ensures child.fitness == 0.0
  {
    Individual(CrossGenes(p1.genes, p2.genes, picks, 0), 0.0)
  }

  lemma {:induction false} CommonSubsequence(ks: seq<string>, d: Genome)
    requires forall i, j :: 0 <= i < j < |ks| ==> ks[i] != ks[j]
    ensures forall i, j :: 0 <= i < j < |Common(ks, d)| ==> Common(ks, d)[i] != Common(ks, d)[j]
    decreases |ks|
  {
    if |ks| > 0 {
      CommonSubsequence(ks[1..], d);
      assert ks[0] !in ks[1..];
    }
  }

  /** A child of parents without repeated keys has no repeated keys. */
  lemma CrossoverWellFormed(p1: Individual, p2: Individual, picks: nat -> nat)
    requires Wf(p1.genes)
    ensures Wf(Crossover(p1, p2, picks).genes)
  {
    var child := Crossover(p1, p2, picks).genes;
    CommonSubsequence(Keys(p1.genes), p2.genes);
    forall i, j | 0 <= i < j < |child| ensures child[i].0 != child[j].0 {
      assert Keys(child)[i] != Keys(child)[j];
    }
  }

  /** Parents with the same keys in the same order have a child with those
      keys in that order. */
  lemma {:induction false} CommonOfSameKeys(ks: seq<string>, d: Genome)
    requires forall k :: k in ks ==> k in Keys(d)
    ensures Common(ks, d) == ks
    decreases |ks|
  {
    if |ks| > 0 {
      CommonOfSameKeys(ks[1..], d);
    }
  }

  /** Crossing an individual with itself gives back its genes, whatever the
      draws. */
  lemma SelfCrossover(p: Individual, picks: nat -> nat)
    requires Wf(p.genes)
    ensures Crossover(p, p, picks).genes == p.genes
  {
    SelfCrossGenes(p.genes, picks, 0, p.genes);
  }

  lemma {:induction false} SelfCrossGenes(g: Genome, picks: nat -> nat, i: nat, whole: Genome)
    requires Wf(whole) && forall e :: e in g ==> e in whole
    ensures CrossGenes(g, whole, picks, i) == g
    decreases |g|
  {
    if |g| > 0 {
      var k := g[0].0;
      assert g == [g[0]] + g[1..];
      assert g[0] in whole;
      var j :| 0 <= j < |whole| && whole[j] == g[0];
      GetEntry(whole, j);
      assert Keys(whole)[j] == k;
      SelfCrossGenes(g[1..], picks, i + 1, whole);
      assert CrossGenes(g, whole, picks, i) == [g[0]] + CrossGenes(g[1..], whole, picks, i + 1);
    }
  }

  // ---------------------------------------------------------------------
  // mutate

  /** `mutation_params[key]`: the `std`, `min` and `max` entries it may have. */
  datatype MutationSpec = MutationSpec(std: Option<real>, lo: Option<real>, hi: Option<real>)

  type MutationParams = Dict<string, MutationSpec>

  function StdOf(spec: MutationSpec): real
  {
    if spec.std.Some? then spec.std.value else 0.1
  }

  function LowerOf(spec: MutationSpec): real
  {
    if spec.lo.Some? then spec.lo.value else 0.0
  }

  function UpperOf(spec: MutationSpec): real
  {
    if spec.hi.Some? then spec.hi.value else 100.0
  }

  /** Python's two-argument `max(a, b)`: `b` only when strictly larger. */
  function PyMax(a: real, b: real): real
  {
    if b > a then b else a
  }

  /** Python's two-argument `min(a, b)`: `b` only when strictly smaller. */
  function PyMin(a: real, b: real): real
  {
    if b < a then b else a
  }

  /** `max(lo, min(hi, x))`. */
  function Clamp(lo: real, hi: real, x: real): (y: real)
    ensures lo <= hi ==> lo <= y <= hi
    ensures lo <= hi && lo <= x <= hi ==> y == x
    ensures lo <= hi && x > hi ==> y == hi
    ensures x < lo ==> y == lo
    ensures hi < lo ==> y == lo
  {
    PyMax(lo, PyMin(hi, x))
  }

  /** The new value of one gene when the mutation fires. `noise(key, std)`
      is the Gaussian draw; it is only taken when the scale is valid (see
      `MutationRaises`). */
  function MutateGene(key: string, g: Gene, params: MutationParams, noise: (string, real) -> real): (r: Gene)
    ensures key !in Keys(params) || !IsNumeric(g) ==> r == g
    ensures key in Keys(params) && IsNumeric(g) ==>
              var spec := Get(params, key).value;
              r == Num(Clamp(LowerOf(spec), UpperOf(spec), NumericValue(g) + noise(key, StdOf(spec))))
    ensures key in Keys(params) && IsNumeric(g) ==>
              var spec := Get(params, key).value;
              && (LowerOf(spec) <= UpperOf(spec) ==> LowerOf(spec) <= r.x <= UpperOf(spec))
              && (UpperOf(spec) < LowerOf(spec) ==> r.x == LowerOf(spec))
  {
    match Get(params, key)
    case None => g
    case Some(spec) =>
      if IsNumeric(g) then
        Num(Clamp(LowerOf(spec), UpperOf(spec), NumericValue(g) + noise(key, StdOf(spec))))
      else g
  }

  function MutateGenes(genes: Genome, params: MutationParams, noise: (string, real) -> real): (r: Genome)
    ensures Keys(r) == Keys(genes)
    ensures forall j :: 0 <= j < |genes| ==> r[j].1 == MutateGene(genes[j].0, genes[j].1, params, noise)
  {
    seq(|genes|, j requires 0 <= j < |genes| => (genes[j].0, MutateGene(genes[j].0, genes[j].1, params, noise)))
  }

  /** The Gaussian draw for entry `e` would be asked for with a negative
      scale: the value is numeric and its key has parameters whose `std`
      is negative. */
  predicate ScaleFails(e: (string, Gene), params: MutationParams)
  {
    IsNumeric(e.1) && Get(params, e.0).Some? && StdOf(Get(params, e.0).value) < 0.0
  }

  /** Some gene of `genes` makes `np.random.normal(0, std)` raise. */
  predicate MutationRaises(genes: Genome, params: MutationParams)
  {
    exists j :: 0 <= j < |genes| && ScaleFails(genes[j], params)
  }

  /** Every `std` in the mutation parameters (or its default) is a valid
      scale. */
  predicate StdsValid(params: MutationParams)
  {
    forall i :: 0 <= i < |params| ==> StdOf(params[i].1) >= 0.0
  }

  /** With valid scales no genome makes the mutation raise. */
  lemma ValidStdsNeverRaise(genes: Genome, params: MutationParams)
    ensures StdsValid(params) ==> !MutationRaises(genes, params)
  {
    if StdsValid(params) {
      forall j | 0 <= j < |genes| && IsNumeric(genes[j].1) && Get(params, genes[j].0).Some?
        ensures StdOf(Get(params, genes[j].0).value) >= 0.0
      {
        var spec := Get(params, genes[j].0).value;
        var i :| 0 <= i < |params| && params[i] == (genes[j].0, spec);
        assert StdOf(params[i].1) >= 0.0;
      }
    }
  }

  /** `mutate(individual, mutation_params)` with mutation rate `rate`: when
      the draw `roll` is below the rate, every numeric gene with parameters
      gets noise added and is clamped; keys and fitness never change. When
      the mutation fires and some such gene has a negative `std`, the
      Gaussian draw raises. */
  function Mutate(ind: Individual, params: MutationParams, rate: real, roll: real,
                  noise: (string, real) -> real): (r: Result<Individual>)
    ensures r.Err? <==> roll < rate && MutationRaises(ind.genes, params)
    ensures r.Err? ==> r.error == NegativeScale
    ensures roll >= rate ==> r == Ok(ind)
    ensures r.Ok? ==> r.value.fitness == ind.fitness && Keys(r.value.genes) == Keys(ind.genes)
    ensures r.Ok? && roll < rate ==>
              forall j :: 0 <= j < |ind.genes| ==>
                r.value.genes[j].1 == MutateGene(ind.genes[j].0, ind.genes[j].1, params, noise)
    ensures r.Ok? ==>
              forall j :: 0 <= j < |ind.genes| && (ind.genes[j].0 !in Keys(params) || !IsNumeric(ind.genes[j].1))
                ==> r.value.genes[j] == ind.genes[j]
    ensures r.Ok? ==> forall j :: 0 <= j < |ind.genes| ==> IsNumeric(r.value.genes[j].1) == IsNumeric(ind.genes[j].1)
  {
    if roll >= rate then Ok(ind)
    else if MutationRaises(ind.genes, params) then Err(NegativeScale)
    else Ok(Individual(MutateGenes(ind.genes, params, noise), ind.fitness))
  }

  /** When the mutation fires, a numeric gene with parameters ends up inside
      its bounds, or at the lower bound when the bounds are crossed. */
  lemma MutationStaysInBounds(ind: Individual, params: MutationParams, rate: real, roll: real,
                              noise: (string, real) -> real, j: nat)
    requires j < |ind.genes| && roll < rate
    requires ind.genes[j].0 in Keys(params) && IsNumeric(ind.genes[j].1)
    ensures var spec := Get(params, ind.genes[j].0).value;
            var m := Mutate(ind, params, rate, roll, noise);
            m.Ok? ==>
              && m.value.genes[j].1.Num?
              && (LowerOf(spec) <= UpperOf(spec) ==> LowerOf(spec) <= m.value.genes[j].1.x <= UpperOf(spec))
              && (UpperOf(spec) < LowerOf(spec) ==> m.value.genes[j].1.x == LowerOf(spec))
  {
  }
}

=== FILE: maxima.dfy ===
/** Python's `max(...)` over a non-empty sequence. Python keeps the running
    best and replaces it only by a strictly larger key, so among equal keys
    the FIRST one wins. */
module Maxima {

  /** `max(xs)` for numbers: an element of `xs` no smaller than any other. */
  function MaxValue(xs: seq<real>): (m: real)
    requires |xs| > 0
    ensures m in xs
    ensures forall i :: 0 <= i < |xs| ==> xs[i] <= m
    decreases |xs|
  {
    if |xs| == 1 then xs[0]
    else
      var m := MaxValue(xs[1..]);
      assert forall i :: 1 <= i < |xs| ==> xs[i] == xs[1..][i - 1];
      if xs[0] >= m then xs[0] else m
  }

  /** `min(xs)` for numbers: an element of `xs` no larger than any other. */
  function MinValue(xs: seq<real>): (m: real)
    requires |xs| > 0
    ensures m in xs
    ensures forall i :: 0 <= i < |xs| ==> m <= xs[i]
    decreases |xs|
  {
    if |xs| == 1 then xs[0]
    else
      var m := MinValue(xs[1..]);
      assert forall i :: 1 <= i < |xs| ==> xs[i] == xs[1..][i - 1];
      if xs[0] <= m then xs[0] else m
  }

  /** The scan Python's `max(xs, key=key)` performs, from position `i` on,
      with `best` the position of the best element seen so far. */
  function ScanMax<T>(xs: seq<T>, key: T -> real, i: nat, best: nat): (r: nat)
    requires best < i <= |xs|
    requires forall j :: 0 <= j < i ==> key(xs[j]) <= key(xs[best])
    requires forall j :: 0 <= j < best ==> key(xs[j]) < key(xs[best])
    ensures best <= r < |xs|
    ensures forall j :: 0 <= j < |xs| ==> key(xs[j]) <= key(xs[r])
    ensures forall j :: 0 <= j < r ==> key(xs[j]) < key(xs[r])
    decreases |xs| - i
  {
    if i == |xs| then best
    else if key(xs[i]) > key(xs[best]) then ScanMax(xs, key, i + 1, i)
    else ScanMax(xs, key, i + 1, best)
  }

  /** Position of the element `max(xs, key=key)` returns: maximal, and
      strictly larger than everything before it. */
  function FirstMax<T>(xs: seq<T>, key: T -> real): (r: nat)
    requires |xs| > 0
    ensures r < |xs|
    ensures forall j :: 0 <= j < |xs| ==> key(xs[j]) <= key(xs[r])
    ensures forall j :: 0 <= j < r ==> key(xs[j]) < key(xs[r])
  {
    ScanMax(xs, key, 1, 0)
  }

  /** The maximal value is the value at the first maximal position. */
  lemma FirstMaxValue(xs: seq<real>)
    requires |xs| > 0
    ensures xs[FirstMax(xs, x => x)] == MaxValue(xs)
  {
    var m := MaxValue(xs);
    var i :| 0 <= i < |xs| && xs[i] == m;
    assert xs[i] <= xs[FirstMax(xs, x => x)];
  }
}

=== FILE: qlearning.dfy ===
/** The Q-learning selector: a table of action values per state, a per-state
    visit counter, epsilon-greedy selection, the one-step Q-learning update
    and the best-action lookup.

    The table is Python's `defaultdict(lambda: defaultdict(float))`: READING
    `q_values[s][a]` inserts `s` (with an empty inner dictionary) and then
    `a` (with value 0.0) when they are missing. Reads never change a value
    that is stored, but they do make a state's inner dictionary non-empty,
    which `get_best_algorithm` can observe. Inner dictionaries keep insertion
    order, which decides ties in `get_best_algorithm`.

    The random draws are parameters: `roll` is `np.random.random()` and
    `pick` is the draw behind `np.random.choice(xs)`, which returns
    `xs[pick % |xs|]`. */
module QLearning {
  import opened Wrappers
  import opened Dicts
  import Maxima

  type State = string
  type Action = string
  type QTable = map<State, Dict<Action, real>>

  datatype QAgent = QAgent(
    learningRate: real,
    discountFactor: real,
    epsilon: real,
    qValues: QTable,
    stateVisits: map<State, int>)

  /** `QLearningAgent(learning_rate, discount_factor, epsilon)`: empty tables. */
  function NewAgent(learningRate: real, discountFactor: real, epsilon: real): QAgent
  {
    QAgent(learningRate, discountFactor, epsilon, map[], map[])
  }

  /** `QLearningAgent()` with its default parameters. */
  function DefaultAgent(): QAgent
  {
    NewAgent(0.1, 0.95, 0.1)
  }

  /** The value `q_values[s][a]` denotes: 0.0 for an entry never written. */
  function QOf(q: QTable, s: State, a: Action): real
  {
    if s in q then GetOr(q[s], a, 0.0) else 0.0
  }

  /** `state_visits[s]` as a `defaultdict(int)` read. */
  function Visits(agent: QAgent, s: State): int
  {
    if s in agent.stateVisits then agent.stateVisits[s] else 0
  }

  /** Actions that have an entry in the inner dictionary of `s`, in order. */
  function InnerKeys(q: QTable, s: State): seq<Action>
  {
    if s in q then Keys(q[s]) else []
  }

  /** Only the entries of `s` may differ; every other state is untouched. */
  ghost predicate OthersUnchanged(q: QTable, q': QTable, s: State)
  {
    && (forall t :: t != s ==> (t in q' <==> t in q))
    && (forall t :: t != s && t in q ==> q'[t] == q[t])
  }

  /** No stored value differs between the two tables. */
  ghost predicate SameValues(q: QTable, q': QTable)
  {
    forall t, b :: QOf(q', t, b) == QOf(q, t, b)
  }

  /** A defaulting read stores 0.0, which is what the entry already denoted. */
  lemma TouchKeepsValues(d: Dict<Action, real>, a: Action)
    ensures forall b :: GetOr(Touch(d, a, 0.0).0, b, 0.0) == GetOr(d, b, 0.0)
  {
    forall b ensures GetOr(Touch(d, a, 0.0).0, b, 0.0) == GetOr(d, b, 0.0) {
      if b != a {
        assert Get(Touch(d, a, 0.0).0, b) == Get(d, b);
      }
    }
  }

  /** One defaulting read `q_values[s][a]`. */
  function ReadQ(q: QTable, s: State, a: Action): (r: (QTable, real))
    ensures r.1 == QOf(q, s, a)
    ensures SameValues(q, r.0) && OthersUnchanged(q, r.0, s)
    ensures s in r.0
    ensures forall b :: b in InnerKeys(r.0, s) <==> b in InnerKeys(q, s) || b == a
    ensures TableWf(q) ==> TableWf(r.0)
  {
    var inner := if s in q then q[s] else [];
    var t := Touch(inner, a, 0.0);
    var q' := q[s := t.0];
    TouchKeepsValues(inner, a);
    assert Keys(t.0) == Keys(inner) || Keys(t.0) == Keys(inner) + [a];
    (q', t.1)
  }

  /** `[q_values[s][a] for a in actions]`: the values, read in order. */
  function ReadAll(q: QTable, s: State, actions: seq<Action>): (r: (QTable, seq<real>))
    ensures |r.1| == |actions|
    ensures forall i :: 0 <= i < |actions| ==> r.1[i] == QOf(q, s, actions[i])
    ensures SameValues(q, r.0) && OthersUnchanged(q, r.0, s)
    ensures |actions| > 0 ==> s in r.0
    ensures |actions| == 0 ==> r.0 == q
    ensures forall b :: b in InnerKeys(r.0, s) <==> b in InnerKeys(q, s) || b in actions
    ensures TableWf(q) ==> TableWf(r.0)
    decreases |actions|
  {
    if |actions| == 0 then (q, [])
    else
      var first := ReadQ(q, s, actions[0]);
      var rest := ReadAll(first.0, s, actions[1..]);
      assert ReadOutcome(first.0, s, actions[1..], rest.0, rest.1);
      ReadAllStep(q, s, actions, first.0, first.1, rest.0, rest.1);
      (rest.0, [first.1] + rest.1)
  }

  /** What reading the values of `actions` in state `s` from `q` leaves:
      the table `q'` and the values `vals` read. */
  ghost predicate ReadOutcome(q: QTable, s: State, actions: seq<Action>, q': QTable, vals: seq<real>)
  {
    && |vals| == |actions|
    && (forall i :: 0 <= i < |actions| ==> vals[i] == QOf(q, s, actions[i]))
    && SameValues(q, q') && OthersUnchanged(q, q', s)
    && (|actions| > 0 ==> s in q')
    && (|actions| == 0 ==> q' == q)
    && (forall b :: b in InnerKeys(q', s) <==> b in InnerKeys(q, s) || b in actions)
    && (TableWf(q) ==> TableWf(q'))
  }

  /** One read followed by the reads of the remaining actions. */
  lemma ReadAllStep(q: QTable, s: State, actions: seq<Action>, q1: QTable, v: real, q2: QTable, vs: seq<real>)
    requires |actions| > 0
    requires v == QOf(q, s, actions[0]) && SameValues(q, q1) && OthersUnchanged(q, q1, s) && s in q1
    requires forall b :: b in InnerKeys(q1, s) <==> b in InnerKeys(q, s) || b == actions[0]
    requires TableWf(q) ==> TableWf(q1)
    requires ReadOutcome(q1, s, actions[1..], q2, vs)
    ensures ReadOutcome(q, s, actions, q2, [v] + vs)
  {
    var r := [v] + vs;
    forall i | 1 <= i < |actions| ensures r[i] == QOf(q, s, actions[i]) {
      assert r[i] == vs[i - 1] && actions[i] == actions[1..][i - 1];
    }
    assert forall b :: b in actions <==> b == actions[0] || b in actions[1..] by {
      assert actions == [actions[0]] + actions[1..];
    }
  }

  /** `[a for a, v in zip(actions, q_vals) if v == m]`, where `q_vals` holds the
      values of `actions` in state `s` (`ReadAll` shows the reads return them). */
  function ActionsWithValue(q: QTable, s: State, actions: seq<Action>, m: real): (best: seq<Action>)
    ensures forall b :: b in best <==> b in actions && QOf(q, s, b) == m
    decreases |actions|
  {
    if |actions| == 0 then []
    else
      assert actions == [actions[0]] + actions[1..];
      (if QOf(q, s, actions[0]) == m then [actions[0]] else []) + ActionsWithValue(q, s, actions[1..], m)
  }

  /** `q_vals`: the values of `actions` in state `s`, in order. */
  function ValuesOf(q: QTable, s: State, actions: seq<Action>): (vs: seq<real>)
    ensures |vs| == |actions|
    ensures forall i :: 0 <= i < |actions| ==> vs[i] == QOf(q, s, actions[i])
  {
    seq(|actions|, i requires 0 <= i < |actions| => QOf(q, s, actions[i]))
  }

  /** The largest value among `actions` in state `s`. */
  function MaxQ(q: QTable, s: State, actions: seq<Action>): (m: real)
    requires |actions| > 0
    ensures forall b :: b in actions ==> QOf(q, s, b) <= m
    ensures exists b :: b in actions && QOf(q, s, b) == m
  {
    var vs := ValuesOf(q, s, actions);
    var m := Maxima.MaxValue(vs);
    assert forall b :: b in actions ==> QOf(q, s, b) <= m by {
      forall b | b in actions ensures QOf(q, s, b) <= m {
        var i :| 0 <= i < |actions| && actions[i] == b;
        assert vs[i] == QOf(q, s, b);
      }
    }
    assert exists b :: b in actions && QOf(q, s, b) == m by {
      var i :| 0 <= i < |vs| && vs[i] == m;
      assert actions[i] in actions && QOf(q, s, actions[i]) == m;
    }
    m
  }

  /** The actions whose value is maximal among `actions`, in order: the
      candidates of the greedy branch. */
  function Maximizers(q: QTable, s: State, actions: seq<Action>): (best: seq<Action>)
    requires |actions| > 0
    ensures |best| > 0
    ensures forall b :: b in best <==> b in actions && forall c :: c in actions ==> QOf(q, s, c) <= QOf(q, s, b)
  {
    var m := MaxQ(q, s, actions);
    var best := ActionsWithValue(q, s, actions, m);
    assert exists b :: b in best;
    best
  }

  /** Outcome of `select_action`: the agent after the call and the chosen
      action, or `None` where Python raises `ValueError` (an empty action list;
      the visit counter has already been incremented by then). */
  datatype Selection = Selection(agent: QAgent, action: Option<Action>)

  /** `select_action(state, available_actions)`. */
  function SelectAction(agent: QAgent, state: State, actions: seq<Action>, roll: real, pick: nat): (r: Selection)
    ensures Visits(r.agent, state) == Visits(agent, state) + 1
    ensures forall t :: t != state ==> Visits(r.agent, t) == Visits(agent, t)
    ensures r.agent.learningRate == agent.learningRate
    ensures r.agent.discountFactor == agent.discountFactor
    ensures r.agent.epsilon == agent.epsilon
    ensures SameValues(agent.qValues, r.agent.qValues)
    ensures OthersUnchanged(agent.qValues, r.agent.qValues, state)
    ensures r.action.None? <==> |actions| == 0
    ensures r.action.Some? ==> r.action.value in actions
    ensures roll < agent.epsilon ==> r.agent.qValues == agent.qValues
    ensures roll < agent.epsilon && |actions| > 0 ==> r.action == Some(actions[pick % |actions|])
    ensures roll >= agent.epsilon && |actions| > 0 ==>
              r.action == Some(Maximizers(agent.qValues, state, actions)[pick % |Maximizers(agent.qValues, state, actions)|])
    ensures roll >= agent.epsilon && r.action.Some? ==>
              forall b :: b in actions ==>
                QOf(agent.qValues, state, b) <= QOf(agent.qValues, state, r.action.value)
    ensures roll >= agent.epsilon ==>
              forall b :: b in InnerKeys(r.agent.qValues, state) <==>
                b in InnerKeys(agent.qValues, state) || b in actions
    ensures TableWf(agent.qValues) ==> TableWf(r.agent.qValues)
  {
    var visited := agent.(stateVisits := agent.stateVisits[state := Visits(agent, state) + 1]);
    if roll < agent.epsilon then
      if |actions| == 0 then Selection(visited, None)
      else Selection(visited, Some(actions[pick % |actions|]))
    else
      var read := ReadAll(agent.qValues, state, actions);
      assert read.1 == ValuesOf(agent.qValues, state, actions);
      var maxQ := if |read.1| > 0 then Maxima.MaxValue(read.1) else 0.0;
      var best := ActionsWithValue(agent.qValues, state, actions, maxQ);
      var after := visited.(qValues := read.0);
      if |best| == 0 then
        Selection(after, None)
      else
        assert best == Maximizers(agent.qValues, state, actions);
        var chosen := best[pick % |best|];
        assert chosen in best;
        Selection(after, Some(chosen))
  }

  /** Writing `v` under `(s, a)` into a table that already holds the entry
      changes that one value and nothing else. */
  lemma WriteFacts(q: QTable, s: State, a: Action, v: real)
    requires s in q
    ensures QOf(q[s := Put(q[s], a, v)], s, a) == v
    ensures forall t, b :: (t, b) != (s, a) ==> QOf(q[s := Put(q[s], a, v)], t, b) == QOf(q, t, b)
    ensures forall b :: b in InnerKeys(q[s := Put(q[s], a, v)], s) <==> b in InnerKeys(q, s) || b == a
    ensures OthersUnchanged(q, q[s := Put(q[s], a, v)], s)
    ensures TableWf(q) ==> TableWf(q[s := Put(q[s], a, v)])
  {
    var inner := Put(q[s], a, v);
    assert forall b :: b != a ==> GetOr(inner, b, 0.0) == GetOr(q[s], b, 0.0);
  }

  /** `update_q_value(state, action, reward, next_state, next_actions)`. */
  function UpdateQValue(agent: QAgent, s: State, a: Action, reward: real, s2: State, next: seq<Action>): (r: QAgent)
    ensures QOf(r.qValues, s, a)
            == Bootstrap(QOf(agent.qValues, s, a), agent.learningRate, agent.discountFactor,
                         reward, MaxNext(agent.qValues, s2, next))
    ensures forall t, b :: (t, b) != (s, a) ==> QOf(r.qValues, t, b) == QOf(agent.qValues, t, b)
    ensures r.stateVisits == agent.stateVisits
    ensures r.learningRate == agent.learningRate && r.discountFactor == agent.discountFactor
    ensures r.epsilon == agent.epsilon
  {
    var q := agent.qValues;
    var first := ReadQ(q, s, a);
    var current := first.1;
    var read := ReadAll(first.0, s2, next);
    var maxNext := if |next| > 0 then Maxima.MaxValue(read.1) else 0.0;
    var newQ := Bootstrap(current, agent.learningRate, agent.discountFactor, reward, maxNext);
    UpdateFacts(q, s, a, s2, next, first.0, read.0, read.1, maxNext, newQ);
    UpdatedValue(q, s, a, s2, next, read.0, agent.learningRate, agent.discountFactor, reward, current, maxNext, newQ);
    agent.(qValues := read.0[s := Put(read.0[s], a, newQ)])
  }

  /** The defaulting reads of `update_q_value` leave entries behind: `(s, a)`
      and every `(s2, b)` for `b` in `next` are stored afterwards. No state
      other than `s` and `s2` appears or disappears. */
  lemma UpdateStoresEntries(agent: QAgent, s: State, a: Action, reward: real, s2: State, next: seq<Action>)
    ensures var r := UpdateQValue(agent, s, a, reward, s2, next);
            && a in InnerKeys(r.qValues, s)
            && (forall b :: b in next ==> b in InnerKeys(r.qValues, s2))
            && (forall t :: t != s && t != s2 ==> (t in r.qValues <==> t in agent.qValues))
            && (TableWf(agent.qValues) ==> TableWf(r.qValues))
  {
    var q := agent.qValues;
    var first := ReadQ(q, s, a);
    var read := ReadAll(first.0, s2, next);
    var maxNext := if |next| > 0 then Maxima.MaxValue(read.1) else 0.0;
    var newQ := Bootstrap(first.1, agent.learningRate, agent.discountFactor, reward, maxNext);
    UpdateFacts(q, s, a, s2, next, first.0, read.0, read.1, maxNext, newQ);
    assert UpdateQValue(agent, s, a, reward, s2, next).qValues == read.0[s := Put(read.0[s], a, newQ)];
  }

  lemma UpdatedValue(q: QTable, s: State, a: Action, s2: State, next: seq<Action>, q2: QTable,
                     alpha: real, gamma: real, reward: real, current: real, maxNext: real, newQ: real)
    requires s in q2
    requires current == QOf(q, s, a) && maxNext == MaxNext(q, s2, next)
    requires newQ == Bootstrap(current, alpha, gamma, reward, maxNext)
    requires QOf(q2[s := Put(q2[s], a, newQ)], s, a) == newQ
    ensures QOf(q2[s := Put(q2[s], a, newQ)], s, a)
            == Bootstrap(QOf(q, s, a), alpha, gamma, reward, MaxNext(q, s2, next))
  {
  }

  /** The one-step Q-learning rule: `old + α·(reward + γ·maxNext − old)`. */
  function Bootstrap(current: real, alpha: real, gamma: real, reward: real, maxNext: real): real
  {
    current + alpha * (reward + gamma * maxNext - current)
  }

  /** The value of the best next action, and 0.0 when there is none. */
  function MaxNext(q: QTable, s2: State, next: seq<Action>): real
  {
    if |next| == 0 then 0.0 else MaxQ(q, s2, next)
  }

  lemma UpdateFacts(q: QTable, s: State, a: Action, s2: State, next: seq<Action>,
                    q1: QTable, q2: QTable, vals: seq<real>, maxNext: real, newQ: real)
    requires q1 == ReadQ(q, s, a).0
    requires q2 == ReadAll(q1, s2, next).0 && vals == ReadAll(q1, s2, next).1
    requires maxNext == if |next| > 0 then Maxima.MaxValue(vals) else 0.0
    ensures s in q2
    ensures maxNext == MaxNext(q, s2, next)
    ensures QOf(q2[s := Put(q2[s], a, newQ)], s, a) == newQ
    ensures forall t, b :: (t, b) != (s, a) ==> QOf(q2[s := Put(q2[s], a, newQ)], t, b) == QOf(q, t, b)
    ensures a in InnerKeys(q2[s := Put(q2[s], a, newQ)], s)
    ensures forall b :: b in next ==> b in InnerKeys(q2[s := Put(q2[s], a, newQ)], s2)
    ensures forall t :: t != s && t != s2 ==> (t in q2[s := Put(q2[s], a, newQ)] <==> t in q)
    ensures TableWf(q) ==> TableWf(q2[s := Put(q2[s], a, newQ)])
  {
    ReadBoth(q, s, a, s2, next, q1, q2, vals);
    WriteOver(q, q2, s, a, s2, next, newQ);
  }

  /** The two rounds of defaulting reads keep every value, leave `s` and the
      actions of `next` stored, and touch no state but `s` and `s2`. */
  lemma ReadBoth(q: QTable, s: State, a: Action, s2: State, next: seq<Action>,
                 q1: QTable, q2: QTable, vals: seq<real>)
    requires q1 == ReadQ(q, s, a).0
    requires q2 == ReadAll(q1, s2, next).0 && vals == ReadAll(q1, s2, next).1
    ensures s in q2
    ensures SameValues(q, q2)
    ensures vals == ValuesOf(q, s2, next)
    ensures forall b :: b in next ==> b in InnerKeys(q2, s2)
    ensures forall t :: t != s && t != s2 ==> (t in q2 <==> t in q)
    ensures TableWf(q) ==> TableWf(q2)
  {
    assert s in q1;
    assert s in q2 by {
      if s != s2 {
        assert OthersUnchanged(q1, q2, s2);
      }
    }
    assert SameValues(q, q1) && SameValues(q1, q2);
    assert forall i :: 0 <= i < |next| ==> vals[i] == QOf(q1, s2, next[i]) == QOf(q, s2, next[i]);
    forall t | t != s && t != s2 ensures t in q2 <==> t in q {
      assert t in q1 <==> t in q;
      assert t in q2 <==> t in q1;
    }
  }

  /** Writing `newQ` under `(s, a)` after the reads: only that value
      changes with respect to the original table. */
  lemma WriteOver(q: QTable, q2: QTable, s: State, a: Action, s2: State, next: seq<Action>, newQ: real)
    requires s in q2
    requires SameValues(q, q2)
    requires forall b :: b in next ==> b in InnerKeys(q2, s2)
    requires forall t :: t != s && t != s2 ==> (t in q2 <==> t in q)
    ensures QOf(q2[s := Put(q2[s], a, newQ)], s, a) == newQ
    ensures forall t, b :: (t, b) != (s, a) ==> QOf(q2[s := Put(q2[s], a, newQ)], t, b) == QOf(q, t, b)
    ensures a in InnerKeys(q2[s := Put(q2[s], a, newQ)], s)
    ensures forall b :: b in next ==> b in InnerKeys(q2[s := Put(q2[s], a, newQ)], s2)
    ensures forall t :: t != s && t != s2 ==> (t in q2[s := Put(q2[s], a, newQ)] <==> t in q)
    ensures TableWf(q2) ==> TableWf(q2[s := Put(q2[s], a, newQ)])
  {
    var q3 := q2[s := Put(q2[s], a, newQ)];
    WriteFacts(q2, s, a, newQ);
    forall t, b | (t, b) != (s, a) ensures QOf(q3, t, b) == QOf(q, t, b) {
      assert QOf(q3, t, b) == QOf(q2, t, b);
    }
    forall b | b in next ensures b in InnerKeys(q3, s2) {
      assert b in InnerKeys(q2, s2);
    }
  }

  /** The inner dictionary of `s`, empty when `s` was never read. */
  function Inner(q: QTable, s: State): Dict<Action, real>
  {
    if s in q then q[s] else []
  }

  /** `get_best_algorithm(state)`: `None` exactly when the state's inner
      dictionary is empty; otherwise the key of the first entry, in insertion
      order, whose value is maximal. The lookup `q_values[state]` inserts an
      empty inner dictionary for a state never seen. */
  function GetBestAlgorithm(agent: QAgent, s: State): (r: (QAgent, Option<Action>))
    ensures r.1.None? <==> |Inner(agent.qValues, s)| == 0
    ensures r.1.Some? ==>
              exists i :: 0 <= i < |Inner(agent.qValues, s)| && Inner(agent.qValues, s)[i].0 == r.1.value
                          && FirstMaximal(Inner(agent.qValues, s), i)
    ensures SameValues(agent.qValues, r.0.qValues)
    ensures s in r.0.qValues && OthersUnchanged(agent.qValues, r.0.qValues, s)
    ensures Inner(r.0.qValues, s) == Inner(agent.qValues, s)
    ensures r.0.stateVisits == agent.stateVisits
    ensures TableWf(agent.qValues) ==> TableWf(r.0.qValues)
  {
    var q' := if s in agent.qValues then agent.qValues else agent.qValues[s := []];
    var inner := q'[s];
    if |inner| == 0 then
      (agent.(qValues := q'), None)
    else
      var i := Maxima.FirstMax(inner, (e: (Action, real)) => e.1);
      (agent.(qValues := q'), Some(inner[i].0))
  }

  /** Entry `i` has a value no other entry exceeds, and every earlier entry's
      value is strictly smaller: what Python's `max` returns. */
  ghost predicate FirstMaximal(d: Dict<Action, real>, i: int)
    requires 0 <= i < |d|
  {
    && (forall j :: 0 <= j < |d| ==> d[j].1 <= d[i].1)
    && (forall j :: 0 <= j < i ==> d[j].1 < d[i].1)
  }

  /** Every inner dictionary is a proper dictionary (no repeated key). */
  ghost predicate TableWf(q: QTable)
  {
    forall t :: t in q ==> Wf(q[t])
  }
}

/** Properties relating several calls of the Q-learning selector. */
module QLearningProperties {
  import opened Wrappers
  import opened Dicts
  import opened QLearning

  /** The update moves a value toward the bootstrap target
      `reward + γ·maxNext` by the fraction α of the remaining distance. */
  lemma UpdateContracts(current: real, alpha: real, gamma: real, reward: real, maxNext: real)
    ensures Bootstrap(current, alpha, gamma, reward, maxNext) - (reward + gamma * maxNext)
            == (1.0 - alpha) * (current - (reward + gamma * maxNext))
    ensures 0.0 <= alpha <= 1.0 ==>
              Abs(Bootstrap(current, alpha, gamma, reward, maxNext) - (reward + gamma * maxNext))
              <= Abs(current - (reward + gamma * maxNext))
  {
    var t := reward + gamma * maxNext;
    var d := current - t;
    assert Bootstrap(current, alpha, gamma, reward, maxNext) - t == (1.0 - alpha) * d;
    if 0.0 <= alpha <= 1.0 {
      if d >= 0.0 {
        ProductNonNegative(1.0 - alpha, d);
        ProductNonNegative(alpha, d);
        assert d - (1.0 - alpha) * d == alpha * d;
      } else {
        ProductNonNegative(1.0 - alpha, -d);
        ProductNonNegative(alpha, -d);
        assert (1.0 - alpha) * d == -((1.0 - alpha) * -d);
        assert (1.0 - alpha) * -d - -d == alpha * d;
        assert alpha * d == -(alpha * -d);
      }
    }
  }

  lemma ProductNonNegative(x: real, y: real)
    requires x >= 0.0 && y >= 0.0
    ensures x * y >= 0.0
  {
  }

  lemma SmallRemainder(j: nat, n: nat)
    requires j < n
    ensures j % n == j
  {
  }

  function Abs(x: real): real
  {
    if x < 0.0 then -x else x
  }

  /** A state whose only successor is itself through the same single action:
      one update moves the value toward `reward / (1 − γ)` by the factor
      `1 − α·(1 − γ)`, so repeated updates converge there when 0 < α ≤ 1 and
      0 ≤ γ < 1. */
  lemma SelfLoopUpdate(agent: QAgent, s: State, a: Action, reward: real)
    requires agent.discountFactor != 1.0
    ensures Contracts(QOf(UpdateQValue(agent, s, a, reward, s, [a]).qValues, s, a), QOf(agent.qValues, s, a),
                      SelfLoopFactor(agent), SelfLoopFixpoint(agent, reward))
  {
    var v := QOf(agent.qValues, s, a);
    var after := QOf(UpdateQValue(agent, s, a, reward, s, [a]).qValues, s, a);
    assert after == Bootstrap(v, agent.learningRate, agent.discountFactor, reward, v) by {
      SelfLoopValue(agent, s, a, reward);
    }
    SelfLoopArithmetic(agent, v, reward, after);
  }

  /** With the updated action as the only next action, the bootstrap uses
      the value being updated. */
  lemma SelfLoopValue(agent: QAgent, s: State, a: Action, reward: real)
    ensures var v := QOf(agent.qValues, s, a);
            QOf(UpdateQValue(agent, s, a, reward, s, [a]).qValues, s, a)
            == Bootstrap(v, agent.learningRate, agent.discountFactor, reward, v)
  {
    assert ValuesOf(agent.qValues, s, [a]) == [QOf(agent.qValues, s, a)];
  }

  /** The real arithmetic behind `SelfLoopUpdate`. */
  lemma SelfLoopArithmetic(agent: QAgent, v: real, reward: real, after: real)
    requires agent.discountFactor != 1.0
    requires after == Bootstrap(v, agent.learningRate, agent.discountFactor, reward, v)
    ensures Contracts(after, v, SelfLoopFactor(agent), SelfLoopFixpoint(agent, reward))
  {
    var alpha, gamma := agent.learningRate, agent.discountFactor;
    var g := 1.0 - gamma;
    var f := reward / g;
    assert f == SelfLoopFixpoint(agent, reward);
    assert SelfLoopFactor(agent) == 1.0 - alpha * g;
    assert reward == f * g;
    assert reward + gamma * v - v == g * (f - v);
    assert after == v + alpha * (g * (f - v));
    assert alpha * (g * (f - v)) == (alpha * g) * (f - v);
    assert v + (alpha * g) * (f - v) - f == (1.0 - alpha * g) * (v - f);
  }

  /** Going from `before` to `after` multiplies the distance to `target` by `factor`. */
  predicate Contracts(after: real, before: real, factor: real, target: real)
  {
    after - target == factor * (before - target)
  }

  /** `1 − α·(1 − γ)`: how much of the distance to the fixpoint one update keeps. */
  function SelfLoopFactor(agent: QAgent): real
  {
    1.0 - agent.learningRate * (1.0 - agent.discountFactor)
  }

  /** `reward / (1 − γ)`: the value a self-loop with a constant reward settles at. */
  function SelfLoopFixpoint(agent: QAgent, reward: real): real
    requires agent.discountFactor != 1.0
  {
    reward / (1.0 - agent.discountFactor)
  }

  /** In the exploring branch every available action can be drawn. */
  lemma ExploreReachesEveryAction(agent: QAgent, state: State, actions: seq<Action>, roll: real, b: Action)
    requires roll < agent.epsilon && b in actions
    ensures exists pick: nat :: SelectAction(agent, state, actions, roll, pick).action == Some(b)
  {
    var i :| 0 <= i < |actions| && actions[i] == b;
    SmallRemainder(i, |actions|);
    assert SelectAction(agent, state, actions, roll, i).action == Some(b);
  }

  /** In the greedy branch an action can be drawn exactly when its value is
      the maximum over the available actions: ties are broken by the draw,
      never by catalog order. */
  lemma GreedyReachesExactlyTheMaximizers(agent: QAgent, state: State, actions: seq<Action>, roll: real, b: Action)
    requires roll >= agent.epsilon && b in actions
    ensures (exists pick: nat :: SelectAction(agent, state, actions, roll, pick).action == Some(b))
            <==> forall c :: c in actions ==> QOf(agent.qValues, state, c) <= QOf(agent.qValues, state, b)
  {
    var q := agent.qValues;
    var best := Maximizers(q, state, actions);
    if forall c :: c in actions ==> QOf(q, state, c) <= QOf(q, state, b) {
      assert b in best;
      var j :| 0 <= j < |best| && best[j] == b;
      SmallRemainder(j, |best|);
      assert SelectAction(agent, state, actions, roll, j).action == Some(b);
    }
  }

  /** An action whose value is strictly larger than every other available
      action's is chosen in the greedy branch whatever the draw. */
  lemma GreedyPicksUniqueBest(agent: QAgent, state: State, actions: seq<Action>, roll: real, pick: nat, b: Action)
    requires roll >= agent.epsilon && b in actions
    requires forall c :: c in actions && c != b ==> QOf(agent.qValues, state, c) < QOf(agent.qValues, state, b)
    ensures SelectAction(agent, state, actions, roll, pick).action == Some(b)
  {
    var r := SelectAction(agent, state, actions, roll, pick);
    var c := r.action.value;
    assert QOf(agent.qValues, state, b) <= QOf(agent.qValues, state, c);
  }

  /** A greedy selection reads every available action, so afterwards
      `get_best_algorithm` has an answer for that state. */
  lemma GreedySelectionEnablesBest(agent: QAgent, state: State, actions: seq<Action>, roll: real, pick: nat)
    requires roll >= agent.epsilon && |actions| > 0
    ensures GetBestAlgorithm(SelectAction(agent, state, actions, roll, pick).agent, state).1.Some?
  {
    var r := SelectAction(agent, state, actions, roll, pick);
    assert actions[0] in InnerKeys(r.agent.qValues, state);
  }

  /** In a well-formed table the action `get_best_algorithm` returns has the
      largest value among the actions recorded for the state. */
  lemma BestHasMaximalValue(agent: QAgent, s: State)
    requires TableWf(agent.qValues)
    ensures var best := GetBestAlgorithm(agent, s).1;
            best.Some? ==>
              best.value in InnerKeys(agent.qValues, s)
              && forall b :: b in InnerKeys(agent.qValues, s) ==>
                   QOf(agent.qValues, s, b) <= QOf(agent.qValues, s, best.value)
  {
    var best := GetBestAlgorithm(agent, s).1;
    if best.Some? {
      var d := Inner(agent.qValues, s);
      var i :| 0 <= i < |d| && d[i].0 == best.value && FirstMaximal(d, i);
      GetEntry(d, i);
      forall b | b in InnerKeys(agent.qValues, s)
        ensures QOf(agent.qValues, s, b) <= QOf(agent.qValues, s, best.value) {
        var j :| 0 <= j < |d| && d[j].0 == b;
        GetEntry(d, j);
      }
    }
  }
}

=== FILE: recommender.dfy ===
/** The interactive front end's recommendation engine: a fixed table of
    algorithms per problem category, a score out of 100 per algorithm that
    drops when the caller names a time limit, a memory limit or a large
    input, and the category's algorithms listed from best to worst score.

    Only the presence of `time_limit` and `memory_limit` matters (their
    values are never read); `size` is compared with 100000. */
module Recommender {
  import opened Wrappers
  import opened Dicts
  import opened Text
  import opened StableSort

  /** One algorithm's description. Each category's entries carry a
      different subset of keys, so every field is optional. */
  datatype Specs = Specs(
    best: Option<string>,
    avg: Option<string>,
    worst: Option<string>,
    space: Option<string>,
    time: Option<string>,
    approach: Option<string>,
    stable: Option<bool>)

  /** The caller's constraints dictionary: whether `time_limit` and
      `memory_limit` are present, and the value of `size` when present. */
  datatype Constraints = Constraints(timeLimit: bool, memoryLimit: bool, size: Option<int>)

  /** One entry of the returned list: `{'algorithm', 'score', 'specs'}`. */
  datatype Recommendation = Recommendation(algorithm: string, score: int, specs: Specs)

  function Sorting(best: string, avg: string, worst: string, space: string, stable: bool): Specs
  {
    Specs(Some(best), Some(avg), Some(worst), Some(space), None, None, Some(stable))
  }

  function Searching(best: string, avg: string, worst: string, space: string): Specs
  {
    Specs(Some(best), Some(avg), Some(worst), Some(space), None, None, None)
  }

  function Dynamic(approach: string, time: string, space: string): Specs
  {
    Specs(None, None, None, Some(space), Some(time), Some(approach), None)
  }

  /** `AlgorithmRecommender().algorithms`, in its declaration order. */
  function Database(): Dict<string, Dict<string, Specs>>
  {
    [ ("sorting",
       [ ("bubble_sort", Sorting("O(n)", "O(n^2)", "O(n^2)", "O(1)", true)),
         ("quick_sort", Sorting("O(n log n)", "O(n log n)", "O(n^2)", "O(log n)", false)),
         ("merge_sort", Sorting("O(n log n)", "O(n log n)", "O(n log n)", "O(n)", true)),
         ("heap_sort", Sorting("O(n log n)", "O(n log n)", "O(n log n)", "O(1)", false)),
         ("insertion_sort", Sorting("O(n)", "O(n^2)", "O(n^2)", "O(1)", true)) ]),
      ("searching",
       [ ("linear_search", Searching("O(1)", "O(n)", "O(n)", "O(1)")),
         ("binary_search", Searching("O(1)", "O(log n)", "O(log n)", "O(1)")) ]),
      ("dynamic_programming",
       [ ("fibonacci", Dynamic("Memoization/Tabulation", "O(n)", "O(n)")),
         ("knapsack", Dynamic("DP with 2D table", "O(nW)", "O(nW)")),
         ("longest_common_subsequence", Dynamic("DP with 2D table", "O(mn)", "O(mn)")) ]) ]
  }

  /** `self.algorithms[problem_type]`, empty for an unknown category. */
  function Category(problemType: string): Dict<string, Specs>
  {
    GetOr(Database(), problemType, [])
  }

  /** `specs.get(key, '')`. */
  function Field(value: Option<string>): string
  {
    if value.Some? then value.value else ""
  }

  /** Points lost to a time limit: only a quadratic or factorial worst case
      costs anything, and a quadratic one is checked first. */
  function TimeDeduction(specs: Specs, c: Constraints): (d: int)
    ensures d == 0 || d == 20 || d == 40
    ensures d == 20 <==> c.timeLimit && Contains(Field(specs.worst), "O(n^2)")
    ensures d == 40 <==> c.timeLimit && !Contains(Field(specs.worst), "O(n^2)") && Contains(Field(specs.worst), "O(n!)")
  {
    if c.timeLimit && specs.worst.Some? then
      if Contains(specs.worst.value, "O(n^2)") then 20
      else if Contains(specs.worst.value, "O(n!)") then 40
      else 0
    else 0
  }

  /** Points lost to a memory limit: linear space first, then quadratic. */
  function MemoryDeduction(specs: Specs, c: Constraints): (d: int)
    ensures d == 0 || d == 15 || d == 30
    ensures d == 15 <==> c.memoryLimit && Contains(Field(specs.space), "O(n)")
    ensures d == 30 <==> c.memoryLimit && !Contains(Field(specs.space), "O(n)") && Contains(Field(specs.space), "O(n^2)")
  {
    if c.memoryLimit then
      if Contains(Field(specs.space), "O(n)") then 15
      else if Contains(Field(specs.space), "O(n^2)") then 30
      else 0
    else 0
  }

  /** Points lost to an input of more than 100000 items with a quadratic
      worst case. */
  function SizeDeduction(specs: Specs, c: Constraints): (d: int)
    ensures d == 0 || d == 30
    ensures d == 30 <==> LargeInput(c) && Contains(Field(specs.worst), "O(n^2)")
  {
    if c.size.Some? && c.size.value > 100000 then
      if Contains(Field(specs.worst), "O(n^2)") then 30 else 0
    else 0
  }

  predicate LargeInput(c: Constraints)
  {
    c.size.Some? && c.size.value > 100000
  }

  /** `max(0, score)` after the three deductions from 100. A quadratic
      worst case costs at most 20 + 30 and any other at most 40, so with the
      memory deduction no score drops below 20. */
  function Score(specs: Specs, c: Constraints): (s: int)
    ensures 20 <= s <= 100
    ensures s == 100 <==>
              && TimeDeduction(specs, c) == 0
              && MemoryDeduction(specs, c) == 0
              && SizeDeduction(specs, c) == 0
  {
    var raw := 100 - TimeDeduction(specs, c) - MemoryDeduction(specs, c) - SizeDeduction(specs, c);
    if raw < 0 then 0 else raw
  }

  /** The deductions add up to at most 100, so the `max(0, ...)` never
      changes a score. */
  lemma ClampNeverApplies(specs: Specs, c: Constraints)
    ensures Score(specs, c) == 100 - TimeDeduction(specs, c) - MemoryDeduction(specs, c) - SizeDeduction(specs, c)
  {
  }

  /** `c2` names every constraint `c1` names, and a large input in `c1` is a
      large input in `c2`. */
  predicate AtLeastAsStrict(c2: Constraints, c1: Constraints)
  {
    && (c1.timeLimit ==> c2.timeLimit)
    && (c1.memoryLimit ==> c2.memoryLimit)
    && (LargeInput(c1) ==> LargeInput(c2))
  }

  /** Adding constraints never raises a score. */
  lemma ScoreMonotone(specs: Specs, c1: Constraints, c2: Constraints)
    requires AtLeastAsStrict(c2, c1)
    ensures Score(specs, c2) <= Score(specs, c1)
  {
  }

  /** Without constraints every algorithm scores 100. */
  lemma UnconstrainedScoresFull(specs: Specs, size: Option<int>)
    requires size.None? || size.value <= 100000
    ensures Score(specs, Constraints(false, false, size)) == 100
  {
  }

  /** An entry without a worst case (the dynamic-programming ones) is only
      ever judged on its space: the time limit and the input size do not
      affect it. */
  lemma NoWorstCaseIgnoresTimeAndSize(specs: Specs, c: Constraints)
    requires specs.worst.None?
    ensures Score(specs, c) == Score(specs, Constraints(false, c.memoryLimit, None))
  {
    assert !Contains("", "O(n^2)") && !Contains("", "O(n!)");
  }

  /** The category's entries with their scores, in catalog order (the list
      the loop of `recommend` builds). */
  function Scored(entries: Dict<string, Specs>, c: Constraints): (rs: seq<Recommendation>)
    ensures |rs| == |entries|
    ensures forall i :: 0 <= i < |entries| ==>
              rs[i] == Recommendation(entries[i].0, Score(entries[i].1, c), entries[i].1)
  {
    seq(|entries|, i requires 0 <= i < |entries| => Recommendation(entries[i].0, Score(entries[i].1, c), entries[i].1))
  }

  /** The sort key of `sorted(..., key=score, reverse=True)`: ascending
      order of the negated score is descending order of the score, and
      Python's sort keeps equal scores in their original order either way. */
  function Descending(r: Recommendation): int
  {
    -r.score
  }

  /** `recommend(problem_type, constraints)`: every algorithm of the
      category once, from highest to lowest score, ties in catalog order. */
  function Recommend(problemType: string, c: Constraints): (r: seq<Recommendation>)
    ensures problemType !in Keys(Database()) ==> r == []
    ensures forall i, j :: 0 <= i < j < |r| ==> r[i].score >= r[j].score
    ensures multiset(r) == multiset(Scored(Category(problemType), c))
    ensures SameKeyGroups(r, Scored(Category(problemType), c), Descending)
  {
    var unsorted := Scored(Category(problemType), c);
    var sorted := Sort(unsorted, Descending);
    assert forall i, j :: 0 <= i < j < |sorted| ==> sorted[i].score >= sorted[j].score by {
      forall i, j | 0 <= i < j < |sorted| ensures sorted[i].score >= sorted[j].score {
        assert Descending(sorted[i]) <= Descending(sorted[j]);
      }
    }
    sorted
  }

  /** The categories the recommender knows, each with distinct names. */
  lemma DatabaseWellFormed()
    ensures forall p :: p in Keys(Database()) <==> p in ["sorting", "searching", "dynamic_programming"]
    ensures Wf(Database())
    ensures forall i :: 0 <= i < |Database()| ==> Wf(Database()[i].1)
  {
    assert Keys(Database()) == ["sorting", "searching", "dynamic_programming"];
  }

  lemma CategoryWellFormed(problemType: string)
    ensures Wf(Category(problemType))
  {
    DatabaseWellFormed();
    if problemType in Keys(Database()) {
      assert (problemType, Category(problemType)) in Database();
    }
  }

  /** Every element of a permutation comes from the original. */
  lemma PermutationMember<T>(r: seq<T>, u: seq<T>, i: nat)
    requires multiset(r) == multiset(u) && i < |r|
    ensures exists m :: 0 <= m < |u| && r[i] == u[m]
  {
    assert r[i] in multiset(u);
  }

  lemma OccursOnce<T>(u: seq<T>, m: nat)
    requires forall a, b :: 0 <= a < b < |u| ==> u[a] != u[b]
    requires m < |u|
    ensures multiset(u)[u[m]] == 1
  {
    assert u == u[..m] + [u[m]] + u[m + 1..];
    assert u[m] !in u[..m] by {
      forall k | 0 <= k < m ensures u[..m][k] != u[m] {
        assert u[..m][k] == u[k];
      }
    }
    assert u[m] !in u[m + 1..] by {
      var tail := u[m + 1..];
      forall k | 0 <= k < |tail| ensures tail[k] != u[m] {
        assert tail[k] == u[m + 1 + k];
      }
    }
  }

  lemma OccursTwice<T>(r: seq<T>, i: nat, j: nat)
    requires i < j < |r| && r[i] == r[j]
    ensures multiset(r)[r[i]] >= 2
  {
    assert r == r[..i] + [r[i]] + r[i + 1..j] + [r[j]] + r[j + 1..];
  }

  /** A permutation of a sequence without repeats has no repeats. */
  lemma PermutationDistinct<T>(r: seq<T>, u: seq<T>, i: nat, j: nat)
    requires multiset(r) == multiset(u)
    requires forall m, n :: 0 <= m < n < |u| ==> u[m] != u[n]
    requires i < j < |r|
    ensures r[i] != r[j]
  {
    if r[i] == r[j] {
      PermutationMember(r, u, i);
      var m :| 0 <= m < |u| && r[i] == u[m];
      OccursTwice(r, i, j);
      OccursOnce(u, m);
    }
  }

  /** Any reordering of the scored entries of a dictionary lists each of
      its algorithms once, with its own specs and score. */
  lemma PermutedScored(r: seq<Recommendation>, entries: Dict<string, Specs>, c: Constraints)
    requires Wf(entries)
    requires multiset(r) == multiset(Scored(entries, c))
    ensures |r| == |entries|
    ensures forall i :: 0 <= i < |r| ==>
              Get(entries, r[i].algorithm) == Some(r[i].specs) && r[i].score == Score(r[i].specs, c)
    ensures forall a :: a in Keys(entries) <==> exists i :: 0 <= i < |r| && r[i].algorithm == a
    ensures forall i, j :: 0 <= i < j < |r| ==> r[i].algorithm != r[j].algorithm
  {
    var unsorted := Scored(entries, c);
    assert |r| == |unsorted| by {
      assert |multiset(r)| == |multiset(unsorted)|;
    }
    forall i | 0 <= i < |r|
      ensures Get(entries, r[i].algorithm) == Some(r[i].specs) && r[i].score == Score(r[i].specs, c)
    {
      PermutationMember(r, unsorted, i);
      var m :| 0 <= m < |entries| && r[i] == unsorted[m];
      GetEntry(entries, m);
    }
    forall a | a in Keys(entries)
      ensures exists i :: 0 <= i < |r| && r[i].algorithm == a
    {
      var m :| 0 <= m < |entries| && entries[m].0 == a;
      PermutationMember(unsorted, r, m);
    }
    forall i, j | 0 <= i < j < |r|
      ensures r[i].algorithm != r[j].algorithm
    {
      PermutationDistinct(r, unsorted, i, j);
      PermutationMember(r, unsorted, i);
      PermutationMember(r, unsorted, j);
    }
  }

  /** Each recommendation names an algorithm of the category with its own
      specs and its score under `c`, and every algorithm of the category is
      recommended exactly once. */
  lemma RecommendListsCategory(problemType: string, c: Constraints)
    ensures var r := Recommend(problemType, c);
            && |r| == |Category(problemType)|
            && (forall i :: 0 <= i < |r| ==>
                  && Get(Category(problemType), r[i].algorithm) == Some(r[i].specs)
                  && r[i].score == Score(r[i].specs, c))
            && (forall a :: a in Keys(Category(problemType)) <==> exists i :: 0 <= i < |r| && r[i].algorithm == a)
            && (forall i, j :: 0 <= i < j < |r| ==> r[i].algorithm != r[j].algorithm)
  {
    CategoryWellFormed(problemType);
    PermutedScored(Recommend(problemType, c), Category(problemType), c);
  }

  /** A sequence whose entries all share one score is its own ordering. */
  lemma {:induction false} SortKeepsTies(s: seq<Recommendation>)
    requires forall i :: 0 <= i < |s| ==> s[i].score == 100
    ensures Sort(s, Descending) == s
  {
    assert SortedByKey(s, Descending);
    SortUnique(Sort(s, Descending), s, Descending);
  }

  /** `recommend('sorting', {'size': 10000})`: no deduction applies, so the
      five sorting algorithms come back with 100 points each, in catalog
      order. */
  lemma SmallSortingInput()
    ensures var r := Recommend("sorting", Constraints(false, false, Some(10000)));
            && |r| == 5
            && (forall i :: 0 <= i < 5 ==> r[i].score == 100)
            && [r[0].algorithm, r[1].algorithm, r[2].algorithm, r[3].algorithm, r[4].algorithm]
               == ["bubble_sort", "quick_sort", "merge_sort", "heap_sort", "insertion_sort"]
  {
    var c := Constraints(false, false, Some(10000));
    assert IndexOf(Database(), "sorting") == Some(0);
    var unsorted := Scored(Category("sorting"), c);
    SortKeepsTies(unsorted);
  }

  /** The key group of `k` in a five-element sequence, element by element. */
  lemma KeyFilterOfFive<T>(s: seq<T>, key: T -> int, k: int)
    requires |s| == 5
    ensures KeyFilter(s, key, k)
            == Keep(s[0], key, k) + Keep(s[1], key, k) + Keep(s[2], key, k) + Keep(s[3], key, k) + Keep(s[4], key, k)
  {
    KeyFilterFrom(s, 0, key, k);
    KeyFilterFrom(s, 1, key, k);
    KeyFilterFrom(s, 2, key, k);
    KeyFilterFrom(s, 3, key, k);
    KeyFilterFrom(s, 4, key, k);
    assert s[0..] == s;
  }

  lemma KeyFilterFrom<T>(s: seq<T>, i: nat, key: T -> int, k: int)
    requires i < |s|
    ensures KeyFilter(s[i..], key, k) == Keep(s[i], key, k) + KeyFilter(s[i + 1..], key, k)
  {
    assert s[i..][1..] == s[i + 1..];
  }

  /** The two worst cases of the sorting table, judged for a large input. */
  lemma LargeInputScores(specs: Specs)
    requires specs.worst == Some("O(n^2)") || specs.worst == Some("O(n log n)")
    ensures Score(specs, Constraints(false, false, Some(200000))) == if specs.worst == Some("O(n^2)") then 70 else 100
  {
    var c := Constraints(false, false, Some(200000));
    assert TimeDeduction(specs, c) == 0 && MemoryDeduction(specs, c) == 0;
    if specs.worst == Some("O(n^2)") {
      assert Contains("O(n^2)", "O(n^2)");
    } else {
      LinearithmicIsNotQuadratic();
    }
  }

  lemma LinearithmicIsNotQuadratic()
    ensures !Contains("O(n log n)", "O(n^2)")
  {
    var s, p := "O(n log n)", "O(n^2)";
    forall i | 0 <= i <= |s| - |p| ensures !OccursAt(s, p, i) {
      if i == 0 {
        assert s[3] != p[3];
      } else {
        assert s[i] != p[0];
      }
    }
  }

  /** The sorting entries scored for an input of 200000 items. */
  lemma LargeSortingScores()
    ensures var u := Scored(Category("sorting"), Constraints(false, false, Some(200000)));
            && |u| == 5
            && [u[0].algorithm, u[1].algorithm, u[2].algorithm, u[3].algorithm, u[4].algorithm]
               == ["bubble_sort", "quick_sort", "merge_sort", "heap_sort", "insertion_sort"]
            && u[0].score == 70 && u[1].score == 70 && u[2].score == 100 && u[3].score == 100 && u[4].score == 70
  {
    assert IndexOf(Database(), "sorting") == Some(0);
    var entries := Database()[0].1;
    assert Category("sorting") == entries;
    forall i | 0 <= i < 5 ensures entries[i].1.worst == Some("O(n^2)") || entries[i].1.worst == Some("O(n log n)") {
    }
    LargeInputScores(entries[0].1);
    LargeInputScores(entries[1].1);
    LargeInputScores(entries[2].1);
    LargeInputScores(entries[3].1);
    LargeInputScores(entries[4].1);
  }

  lemma AsFive<T>(u: seq<T>)
    requires |u| == 5
    ensures u == [u[0], u[1], u[2], u[3], u[4]]
  {
  }

  /** Moving the two 100-point entries of a five-entry list scored
      70, 70, 100, 100, 70 to the front is its stable descending order. */
  lemma TwoToFront(u: seq<Recommendation>)
    requires |u| == 5
    requires u[0].score == 70 && u[1].score == 70 && u[2].score == 100 && u[3].score == 100 && u[4].score == 70
    ensures Sort(u, Descending) == [u[2], u[3], u[0], u[1], u[4]]
  {
    var a, b, c, d, e := u[0], u[1], u[2], u[3], u[4];
    AsFive(u);
    var expected := [c, d, a, b, e];
    assert SortedByKey(expected, Descending);
    forall k ensures KeyFilter(expected, Descending, k) == KeyFilter(u, Descending, k) {
      KeyFilterOfFive(expected, Descending, k);
      KeyFilterOfFive(u, Descending, k);
    }
    SortUnique(Sort(u, Descending), expected, Descending);
  }

  /** `recommend('sorting', {'size': 200000})`: the three algorithms with a
      quadratic worst case lose 30 points and move behind the other two,
      and within each score the catalog order is kept. */
  lemma LargeSortingInput()
    ensures var r := Recommend("sorting", Constraints(false, false, Some(200000)));
            && |r| == 5
            && [r[0].algorithm, r[1].algorithm, r[2].algorithm, r[3].algorithm, r[4].algorithm]
               == ["merge_sort", "heap_sort", "bubble_sort", "quick_sort", "insertion_sort"]
            && [r[0].score, r[1].score, r[2].score, r[3].score, r[4].score] == [100, 100, 70, 70, 70]
  {
    var u := Scored(Category("sorting"), Constraints(false, false, Some(200000)));
    LargeSortingScores();
    TwoToFront(u);
  }
}

=== FILE: stable_sort.dfy ===
/** Python's `sorted(xs, key=f)` for an integer-valued key. `sorted` is
    stable, so its result is fully determined by two facts: keys ascend, and
    the elements sharing any one key keep their original relative order.
    `sorted(..., reverse=True)` is the same sort on the negated key. */
module StableSort {

  /** The elements of `s` whose key is `k`, in their order in `s`. */
  function KeyFilter<T>(s: seq<T>, key: T -> int, k: int): seq<T>
    decreases |s|
  {
    if |s| == 0 then []
    else Keep(s[0], key, k) + KeyFilter(s[1..], key, k)
  }

  /** `[x]` when `x` has key `k`, otherwise nothing. */
  function Keep<T>(x: T, key: T -> int, k: int): seq<T>
  {
    if key(x) == k then [x] else []
  }

  lemma KeyFilterCons<T>(x: T, s: seq<T>, key: T -> int, k: int)
    ensures KeyFilter([x] + s, key, k) == Keep(x, key, k) + KeyFilter(s, key, k)
  {
    assert ([x] + s)[1..] == s;
  }

  /** Keys never decrease from left to right. */
  ghost predicate SortedByKey<T>(s: seq<T>, key: T -> int)
  {
    forall i, j :: 0 <= i < j < |s| ==> key(s[i]) <= key(s[j])
  }

  /** Every key group is exactly as in `t`: stability plus permutation. */
  ghost predicate SameKeyGroups<T>(s: seq<T>, t: seq<T>, key: T -> int)
  {
    forall k :: KeyFilter(s, key, k) == KeyFilter(t, key, k)
  }

  /** Insert `x` in front of every element whose key is not smaller. */
  function Insert<T>(x: T, s: seq<T>, key: T -> int): (r: seq<T>)
    requires SortedByKey(s, key)
    ensures SortedByKey(r, key)
    ensures multiset(r) == multiset(s) + multiset{x}
    decreases |s|
  {
    if |s| == 0 || key(x) <= key(s[0]) then
      var r := [x] + s;
      assert r[1..] == s;
      r
    else
      var t := Insert(x, s[1..], key);
      var r := [s[0]] + t;
      assert r[1..] == t;
      InsertLowerBound(x, s, t, key);
      assert s == [s[0]] + s[1..];
      r
  }

  /** What `Insert` puts behind `s[0]` has keys no smaller than `s[0]`'s. */
  lemma InsertLowerBound<T>(x: T, s: seq<T>, t: seq<T>, key: T -> int)
    requires |s| > 0 && SortedByKey(s, key) && key(s[0]) < key(x)
    requires SortedByKey(t, key) && multiset(t) == multiset(s[1..]) + multiset{x}
    ensures SortedByKey([s[0]] + t, key)
  {
    forall j | 0 <= j < |t| ensures key(s[0]) <= key(t[j]) {
      assert t[j] in multiset(t);
      if t[j] != x {
        assert t[j] in multiset(s[1..]);
        var l :| 0 <= l < |s[1..]| && s[1..][l] == t[j];
        assert key(s[0]) <= key(s[l + 1]);
      }
    }
    var r := [s[0]] + t;
    forall i, j | 0 <= i < j < |r| ensures key(r[i]) <= key(r[j]) {
      assert r[j] == t[j - 1];
      if i > 0 {
        assert r[i] == t[i - 1];
      }
    }
  }

  /** `Insert` puts `x` in front of the other elements of its key group. */
  lemma {:induction false} InsertKeyFilter<T>(x: T, s: seq<T>, key: T -> int, k: int)
    requires SortedByKey(s, key)
    ensures KeyFilter(Insert(x, s, key), key, k) == Keep(x, key, k) + KeyFilter(s, key, k)
    decreases |s|
  {
    if |s| == 0 || key(x) <= key(s[0]) {
      KeyFilterCons(x, s, key, k);
    } else {
      var t := Insert(x, s[1..], key);
      InsertKeyFilter(x, s[1..], key, k);
      KeyFilterCons(s[0], t, key, k);
      KeyFilterCons(s[0], s[1..], key, k);
      assert s == [s[0]] + s[1..];
      // `x` and `s[0]` have different keys, so at most one joins the group
      assert Keep(x, key, k) == [] || Keep(s[0], key, k) == [];
    }
  }

  /** Insertion sort: a stable sort. */
  function Sort<T>(s: seq<T>, key: T -> int): (r: seq<T>)
    ensures SortedByKey(r, key)
    ensures multiset(r) == multiset(s)
    ensures SameKeyGroups(r, s, key)
    decreases |s|
  {
    if |s| == 0 then []
    else
      var t := Sort(s[1..], key);
      var r := Insert(s[0], t, key);
      assert s == [s[0]] + s[1..];
      assert SameKeyGroups(r, s, key) by {
        forall k ensures KeyFilter(r, key, k) == KeyFilter(s, key, k) {
          InsertKeyFilter(s[0], t, key, k);
        }
      }
      r
  }

  lemma {:induction false} KeyFilterOfMember<T>(s: seq<T>, key: T -> int, i: nat)
    requires i < |s|
    ensures s[i] in KeyFilter(s, key, key(s[i]))
    decreases |s|
  {
    if i > 0 {
      KeyFilterOfMember(s[1..], key, i - 1);
    }
  }

  lemma {:induction false} KeyFilterMembers<T>(s: seq<T>, key: T -> int, k: int, x: T)
    requires x in KeyFilter(s, key, k)
    ensures x in s && key(x) == k
    decreases |s|
  {
    if |s| > 0 && !(key(s[0]) == k && x == s[0]) {
      KeyFilterMembers(s[1..], key, k, x);
    }
  }

  /** Sorted sequences with the same key groups are equal: the two facts in
      `Sort`'s contract pin down the result of every stable sort. */
  lemma {:induction false} SortUnique<T>(a: seq<T>, b: seq<T>, key: T -> int)
    requires SortedByKey(a, key) && SortedByKey(b, key)
    requires SameKeyGroups(a, b, key)
    ensures a == b
    decreases |a| + |b|
  {
    if |a| > 0 && |b| > 0 {
      var m, n := key(a[0]), key(b[0]);
      KeyFilterOfMember(a, key, 0);
      KeyFilterOfMember(b, key, 0);
      assert KeyFilter(b, key, m) == KeyFilter(a, key, m);
      KeyFilterMembers(b, key, m, a[0]);
      KeyFilterMembers(a, key, n, b[0]);
      assert n <= m by {
        var j :| 0 <= j < |b| && b[j] == a[0];
        assert key(b[0]) <= key(b[j]);
      }
      assert m <= n by {
        var j :| 0 <= j < |a| && a[j] == b[0];
        assert key(a[0]) <= key(a[j]);
      }
      assert KeyFilter(a, key, m)[0] == a[0];
      assert KeyFilter(b, key, m)[0] == b[0];
      assert a[0] == b[0];
      forall k ensures KeyFilter(a[1..], key, k) == KeyFilter(b[1..], key, k) {
        var h: seq<T> := if key(a[0]) == k then [a[0]] else [];
        assert KeyFilter(a, key, k) == h + KeyFilter(a[1..], key, k);
        assert KeyFilter(b, key, k) == h + KeyFilter(b[1..], key, k);
        assert KeyFilter(a[1..], key, k) == KeyFilter(a, key, k)[|h|..];
        assert KeyFilter(b[1..], key, k) == KeyFilter(b, key, k)[|h|..];
      }
      SortUnique(a[1..], b[1..], key);
      assert a == [a[0]] + a[1..];
      assert b == [b[0]] + b[1..];
    } else if |a| > 0 {
      KeyFilterOfMember(a, key, 0);
    } else if |b| > 0 {
      KeyFilterOfMember(b, key, 0);
    }
  }
}

=== FILE: text.dfy ===
/** The handful of Python `str` operations the modelled code relies on:
    `p in s`, `s.startswith(p)`, `s.strip()`, `s.split('\n')` and the decimal
    rendering of an `int` inside an f-string. */
module Text {

  /** `s.startswith(p)`. */
  predicate StartsWith(s: string, p: string)
  {
    |p| <= |s| && s[..|p|] == p
  }

  /** `p` occurs in `s` starting at position `i`. */
  predicate OccursAt(s: string, p: string, i: int)
  {
    0 <= i <= |s| - |p| && s[i..i + |p|] == p
  }

  /** `p in s`: `p` occurs in `s` as a contiguous substring. */
  function Contains(s: string, p: string): (b: bool)
    ensures b <==> exists i :: OccursAt(s, p, i)
    decreases |s|
  {
    if StartsWith(s, p) then
      assert OccursAt(s, p, 0);
      true
    else if |s| == 0 then
      false
    else
      var b := Contains(s[1..], p);
      ContainsStep(s, p);
      b
  }

  lemma ContainsStep(s: string, p: string)
    requires |s| > 0 && !StartsWith(s, p)
    ensures (exists i :: OccursAt(s[1..], p, i)) <==> (exists i :: OccursAt(s, p, i))
  {
    if i :| OccursAt(s[1..], p, i) {
      assert s[1..][i..i + |p|] == s[i + 1..i + 1 + |p|];
      assert OccursAt(s, p, i + 1);
    }
    if i :| OccursAt(s, p, i) {
      assert i != 0;
      assert s[1..][i - 1..i - 1 + |p|] == s[i..i + |p|];
      assert OccursAt(s[1..], p, i - 1);
    }
  }

  /** Python's `str.isspace()` for one character (the Unicode whitespace set,
      which is also what `\s` matches in a `str` regular expression). */
  predicate IsSpace(c: char)
  {
    || ('\U{9}' <= c <= '\U{D}')
    || ('\U{1C}' <= c <= '\U{20}')
    || c == '\U{85}' || c == '\U{A0}' || c == '\U{1680}'
    || ('\U{2000}' <= c <= '\U{200A}')
    || c == '\U{2028}' || c == '\U{2029}' || c == '\U{202F}' || c == '\U{205F}' || c == '\U{3000}'
  }

  /** Drop leading whitespace. */
  function TrimStart(s: string): (r: string)
    ensures |r| <= |s| && r == s[|s| - |r|..]
    ensures forall i :: 0 <= i < |s| - |r| ==> IsSpace(s[i])
    ensures |r| > 0 ==> !IsSpace(r[0])
    decreases |s|
  {
    if |s| > 0 && IsSpace(s[0]) then TrimStart(s[1..]) else s
  }

  /** Drop trailing whitespace. */
  function TrimEnd(s: string): (r: string)
    ensures |r| <= |s| && r == s[..|r|]
    ensures forall i :: |r| <= i < |s| ==> IsSpace(s[i])
    ensures |r| > 0 ==> !IsSpace(r[|r| - 1])
    decreases |s|
  {
    if |s| > 0 && IsSpace(s[|s| - 1]) then TrimEnd(s[..|s| - 1]) else s
  }

  /** `r` sits at position `i` of `s` with only whitespace around it. */
  ghost predicate Surrounded(s: string, r: string, i: int)
  {
    && OccursAt(s, r, i)
    && (forall j :: 0 <= j < i ==> IsSpace(s[j]))
    && (forall j :: i + |r| <= j < |s| ==> IsSpace(s[j]))
  }

  /** `s.strip()`: the infix of `s` left after removing whitespace at both ends. */
  function Strip(s: string): (r: string)
    ensures |r| > 0 ==> !IsSpace(r[0]) && !IsSpace(r[|r| - 1])
    ensures exists i :: Surrounded(s, r, i)
  {
    var t := TrimStart(s);
    var r := TrimEnd(t);
    StripParts(s, t, r);
    r
  }

  lemma StripParts(s: string, t: string, r: string)
    requires |t| <= |s| && t == s[|s| - |t|..]
    requires forall j :: 0 <= j < |s| - |t| ==> IsSpace(s[j])
    requires |r| <= |t| && r == t[..|r|]
    requires forall j :: |r| <= j < |t| ==> IsSpace(t[j])
    ensures Surrounded(s, r, |s| - |t|)
  {
    var i := |s| - |t|;
    assert r == s[i..i + |r|];
    forall j | i + |r| <= j < |s| ensures IsSpace(s[j]) {
      assert s[j] == t[j - i];
    }
  }

  /** Join pieces with a one-character separator: the inverse of `Split`. */
  function Join(pieces: seq<string>, sep: char): string
    requires |pieces| > 0
    decreases |pieces|
  {
    if |pieces| == 1 then pieces[0] else pieces[0] + [sep] + Join(pieces[1..], sep)
  }

  /** `s.split(sep)` for a one-character separator: always at least one piece,
      and no piece contains the separator. */
  function Split(s: string, sep: char): (pieces: seq<string>)
    ensures |pieces| > 0
    ensures forall i :: 0 <= i < |pieces| ==> sep !in pieces[i]
    decreases |s|
  {
    if |s| == 0 then [""]
    else
      var rest := Split(s[1..], sep);
      if s[0] == sep then [""] + rest
      else [[s[0]] + rest[0]] + rest[1..]
  }

  /** Splitting and joining again gives back the original text. */
  lemma {:induction false} JoinSplit(s: string, sep: char)
    ensures Join(Split(s, sep), sep) == s
    decreases |s|
  {
    if |s| > 0 {
      JoinSplit(s[1..], sep);
      var rest := Split(s[1..], sep);
      if s[0] == sep {
        assert Split(s, sep)[1..] == rest;
      } else {
        var ps := Split(s, sep);
        assert ps[1..] == rest[1..];
        if |rest| > 1 {
          assert Join(rest, sep) == rest[0] + [sep] + Join(rest[1..], sep);
          assert Join(ps, sep) == [s[0]] + rest[0] + [sep] + Join(rest[1..], sep);
        }
        assert s == [s[0]] + s[1..];
      }
    }
  }

  /** Joining separator-free pieces and splitting again gives back the pieces. */
  lemma {:induction false} SplitJoin(pieces: seq<string>, sep: char)
    requires |pieces| > 0
    requires forall i :: 0 <= i < |pieces| ==> sep !in pieces[i]
    ensures Split(Join(pieces, sep), sep) == pieces
    decreases |pieces|, |pieces[0]|
  {
    var p := pieces[0];
    if |p| > 0 {
      var pieces' := [p[1..]] + pieces[1..];
      assert forall i :: 0 <= i < |pieces'| ==> sep !in pieces'[i] by {
        assert forall c :: c in p[1..] ==> c in p;
      }
      SplitJoin(pieces', sep);
      JoinFirstChar(pieces, sep);
      assert p[0] in p;
      assert [p[0]] + p[1..] == p;
      assert [[p[0]] + p[1..]] + pieces[1..] == pieces;
    } else if |pieces| > 1 {
      SplitJoin(pieces[1..], sep);
      assert Join(pieces, sep) == [sep] + Join(pieces[1..], sep);
      assert [""] + pieces[1..] == pieces;
    }
  }

  /** Dropping the first character of the joined text drops it from the
      first piece. */
  lemma JoinFirstChar(pieces: seq<string>, sep: char)
    requires |pieces| > 0 && |pieces[0]| > 0
    ensures |Join(pieces, sep)| > 0 && Join(pieces, sep)[0] == pieces[0][0]
    ensures Join(pieces, sep)[1..] == Join([pieces[0][1..]] + pieces[1..], sep)
  {
    var pieces' := [pieces[0][1..]] + pieces[1..];
    if |pieces| > 1 {
      assert pieces'[1..] == pieces[1..];
    }
  }

  /** The decimal digit for a value below ten. */
  function DigitChar(d: nat): char
    requires d < 10
  {
    "0123456789"[d]
  }

  function DigitValue(c: char): nat
  {
    if '0' <= c <= '9' then (c as int - '0' as int) as nat else 0
  }

  predicate IsDigit(c: char)
  {
    '0' <= c <= '9'
  }

  /** Decimal digits of a natural number, most significant first, no leading zeros. */
  function NatToString(n: nat): (s: string)
    ensures |s| > 0
    ensures forall i :: 0 <= i < |s| ==> IsDigit(s[i])
    ensures |s| > 1 ==> s[0] != '0'
    decreases n
  {
    if n < 10 then [DigitChar(n)] else NatToString(n / 10) + [DigitChar(n % 10)]
  }

  /** Python's `str(n)` / `f"{n}"` for an integer. */
  function IntToString(n: int): (s: string)
    ensures |s| > 0
    ensures forall i :: 0 <= i < |s| ==> IsDigit(s[i]) || s[i] == '-'
  {
    if n < 0 then "-" + NatToString(-n) else NatToString(n)
  }

  /** Value of a string of decimal digits. */
  function DigitsValue(s: string): nat
    decreases |s|
  {
    if |s| == 0 then 0 else DigitsValue(s[..|s| - 1]) * 10 + DigitValue(s[|s| - 1])
  }

  /** `int(s)` for what `IntToString` produces: the partner used to show the
      decimal rendering loses nothing. */
  function ParseInt(s: string): int
  {
    if |s| > 0 && s[0] == '-' then -(DigitsValue(s[1..]) as int) else DigitsValue(s)
  }

  lemma {:induction false} NatToStringRoundTrip(n: nat)
    ensures DigitsValue(NatToString(n)) == n
    decreases n
  {
    if n >= 10 {
      NatToStringRoundTrip(n / 10);
      var s := NatToString(n);
      assert s[..|s| - 1] == NatToString(n / 10);
    }
  }

  /** Rendering an integer in decimal and reading it back is the identity. */
  lemma IntToStringRoundTrip(n: int)
    ensures ParseInt(IntToString(n)) == n
  {
    if n < 0 {
      var t := NatToString(-n);
      assert IntToString(n) == "-" + t;
      assert ("-" + t)[1..] == t;
      NatToStringRoundTrip(-n);
    } else {
      var t := NatToString(n);
      assert IntToString(n) == t && IsDigit(t[0]);
      NatToStringRoundTrip(n);
    }
  }

  /** Different integers render differently. */
  lemma IntToStringInjective(m: int, n: int)
    requires IntToString(m) == IntToString(n)
    ensures m == n
  {
    IntToStringRoundTrip(m);
    IntToStringRoundTrip(n);
  }
}

=== FILE: wrappers.dfy ===
/** Failure-carrying datatypes shared by every module of the model.
    `Option` stands for Python's `None`-or-value returns; `Result` stands for
    an operation that either returns a value or raises an exception. */
module Wrappers {

  datatype Option<+T> = None | Some(value: T)

  /** `Err` carries the Python exception class and message as text. */
  datatype Result<+T> = Ok(value: T) | Err(error: string)

  /** Running a sequence of steps that may raise: the first failure, or
      every value when none fails. */
  function Collect<T>(results: seq<Result<T>>): (r: Result<seq<T>>)
    ensures r.Ok? <==> forall i :: 0 <= i < |results| ==> results[i].Ok?
    ensures r.Ok? ==> |r.value| == |results| && forall i :: 0 <= i < |results| ==> results[i] == Ok(r.value[i])
    ensures r.Err? ==>
              exists i :: 0 <= i < |results| && results[i] == Err(r.error)
                && forall j :: 0 <= j < i ==> results[j].Ok?
    decreases |results|
  {
    if |results| == 0 then Ok([])
    else if results[0].Err? then Err(results[0].error)
    else
      var rest := Collect(results[1..]);
      if rest.Err? then
        assert forall j :: 1 <= j < |results| ==> results[j] == results[1..][j - 1];
        rest
      else
        var all := [results[0].value] + rest.value;
        assert forall j :: 1 <= j < |results| ==> results[j] == results[1..][j - 1] && all[j] == rest.value[j - 1];
        Ok(all)
  }
}
